=== FILE: README.md ===
# Zara AI Assist — a Dafny model of its stateful and deterministic core

Zara AI Assist is a browser assistant built on a hosted generative model. It offers:

- a chat with streaming answers, file attachments, dictation and message editing;
- a live voice session with audio playback and a media-player tool;
- an app builder that writes project files from the model's answers;
- a GitHub repository explorer that draws Mermaid diagrams;
- a small Python backend for e-mail/OTP registration.

This project models the parts of that system that hold real logic: buffers, queues, small
state machines, and string and list transforms. It proves what each one promises.

One Dafny module stands for each source file of the core:

| module | models |
|---|---|
| `LiveAudio`, `LiveTranscript`, `LiveTools`, `LiveSession` | `components/LiveMode.tsx`: resampling, transcript coalescing, the `play_media` tool and its `encodeURIComponent`, and the controller (`cleanup`, playback cursor and queue, decode chain, interruption, error/close classification, connect, toggle) |
| `OtpUtils`, `AuthRoutes` | `backend/utils.py` (`generate_otp`) and `backend/routes.py` (register, verify, login, resend over the `users` and `otp_verification` tables) |
| `SecurityService` | `services/securityService.ts` |
| `Gemini` | `services/gemini.ts`: retry and backoff, system instruction, request contents, stream reading, video aspect |
| `AppBuilder` | `components/AppBuilderMode.tsx`: file-tag extraction, project list, preview log and bundle order, storage guard |
| `GithubMode`, `Mermaid` | `components/GithubMode.tsx`: URL parsing, branch fallback, manifest, search, names. `Mermaid` holds `sanitizeMermaid` and the render-id guard: `GithubMode.tsx` and `MessageItem.tsx` have the same three rules and the same guard, and differ only in what the model does not depend on (the `mermaid.initialize` options, the svg id prefix `mermaid-github-` or `mermaid-svg-`, a `console.error` in `MessageItem.tsx` and comments) |
| `MessageItem` | `components/MessageItem.tsx`: speech text clean-up, speed cycle, speech controls, attachment classification and preview |
| `InputArea` | `components/InputArea.tsx` |
| `AppShell` | `App.tsx`: send, stop, stream outcomes, error text, session save, security action, font class |
| `OtpForms` | `components/auth/OTPLogin.tsx` and `components/auth/OTPVerification.tsx` |
| `ThemeSync` | `hooks/useModeThemeSync.ts` and `constants/appConstants.ts` |

Shared modules:

- `Wrappers` holds `Option`.
- `JsText` holds the JavaScript string behaviour the model relies on. This covers the `trim` whitespace set, `toLowerCase`, `includes`, decimal formatting, `padStart`, `split`/`join` and `slice(-n)`.
- `RegexScan` holds the left-to-right scan of a global `replace`.
- `SeqUtil` holds `filter` and `indexOf`.
- `ChatTypes` holds the chat records.

Two styles of model are used:

- Pure code becomes functions, with lemmas about them.
- State that the source updates step by step becomes a class with fields and `modifies` clauses. Each method is proved equal to a specification function or states its new state outright. Examples are `AuthRoutes.AuthDb`, `SecurityService.SecurityService`, `LiveSession.LiveController`, `InputArea.Composer`, `AppShell.Conversation`, `OtpForms.LoginForm`, `Mermaid.Diagram` and `MessageItem.Speech`.

Loops in the source are loops in the model:

- the resampler;
- the transcript gathering of dictation;
- file selection;
- the tag-extraction `while` loop;
- the bundling `forEach`;
- the retry loop;
- stream accumulation.

The model takes these as parameters rather than computing them:

- the clock (`now`);
- random draws;
- hashes;
- UUIDs;
- the model API (an oracle per call);
- the GitHub API (an oracle per branch);
- base64 decoding;
- file validation.

Where the code and its comments or its obvious design differ, the model follows the code:

- `schedulePlayback` clamps the start time only when the cursor is behind the clock, and then to `now + 0.1` (`LiveSession.StartAt`).
- `onerror` and `onclose` set 'Failed' or 'Disconnected', but the `cleanup` they call sets 'Ready' over it when mounted. The final status is therefore 'Ready' (`LiveSession.ErrorEffect`).
- Resetting the decode chain on an interruption does not cancel chunks already chained, so they are still scheduled when their decode settles (`LiveSession.Chain.orphaned`).
- `sanitizeMermaid` turns `node[[Text]]` into `node["Text"]`. The comment in `MessageItem.tsx` says `node[Text]`.
- The manifest markers in `GithubMode.tsx` are the mis-encoded bytes of the folder and file emoji, so the folder marker is a prefix of the file marker (`GithubMode.FolderMarker`, `GithubMode.EntryLine`). The model keeps those characters as written.
- The preview log keeps its last 50 entries only when a preview message arrives. Lines appended by generation are not capped until then (`AppBuilder.PreviewLog`).

## Definitions

Several source functions are modelled by a Dafny function that has no contract of its own. The
lemmas about it, in the table below, state its properties. The defining functions are:

- `GithubMode.ParseRepoUrl`: the `github.com/<owner>/<repo>` match of `fetchRepo` (components/GithubMode.tsx:230).
- `Gemini.BuildSystemInstruction`: `buildSystemInstruction` (services/gemini.ts:112).
- `Gemini.Retryable`: the quota-or-server-error test of `withRetry` (services/gemini.ts:37-43).
- `Gemini.UserParts`: the current message's parts, attachments first (services/gemini.ts:143-144).
- `Gemini.StreamContents`: the request of `sendMessageToGeminiStream`, the last 8 messages plus the new one (services/gemini.ts:146).
- `Gemini.GithubContents`: the request of `sendGithubChatStream` (services/gemini.ts:200).
- `Gemini.FullText`: the text accumulated from the stream chunks (services/gemini.ts:157-159).
- `AppBuilder.Tags`, `AppBuilder.CleanBody`, `AppBuilder.ApplyTags`: the `<file>` tag scan, the body clean-up and the update of the files in `handleSendMessage` (components/AppBuilderMode.tsx:159-169).
- `AppBuilder.LoadProject`: `loadProject` (components/AppBuilderMode.tsx:89).
- `AppBuilder.Kept`, `AppBuilder.ScriptFiles`: the two `filter` calls of `deleteProject` and of the preview (components/AppBuilderMode.tsx:106, 191).
- `MessageItem.CleanText`: the speech text clean-up (components/MessageItem.tsx:275).
- `LiveTranscript.Merge`: the transcript update of `onmessage` (components/LiveMode.tsx:258-264).
- `LiveAudio.Downsampled`: `downsampleBuffer` (components/LiveMode.tsx:114).
- `LiveTools.EncodeUriComponent`: `encodeURIComponent` on the query (components/LiveMode.tsx:219-220).
- `LiveTools.PlayCalls`, `LiveTools.Responses`, `LiveTools.LastCard`: the `play_media` calls of a batch, the responses sent and the card shown (components/LiveMode.tsx:214-235).
- `LiveSession.AfterCleanup` … `LiveSession.AfterToggle`: one state rule per handler of the live view: `cleanup` (components/LiveMode.tsx:55), `schedulePlayback` (126), `onended` (150), `connect` (168), `onopen` (210), `onmessage` with its interruption (267), `onerror`, `onclose` and `toggleConnection` (362). Each `LiveSession.LiveController` method is proved to reach its rule's state.
- `AuthRoutes.RegisterOutcome`, `AuthRoutes.VerifyOtpOutcome`, `AuthRoutes.LoginOutcome`, `AuthRoutes.ResendOtpOutcome`: the four routes (backend/routes.py:15, 65, 103, 122).
- `SecurityService.Accepts`: the answer test of `verify` (services/securityService.ts:23-25).
- `ThemeSync.ThemeToApply`: the effect of `useModeThemeSync` (hooks/useModeThemeSync.ts:13-26).
- `OtpForms.FormatTime`: `formatTime` (components/auth/OTPLogin.tsx:88, components/auth/OTPVerification.tsx:81).
- `InputArea.Dictated`: the dictated text of `onresult` (components/InputArea.tsx:53-68).
- `InputArea.Placeholder`: `getPlaceholder` (components/InputArea.tsx:168).
- `AppShell.HistoryFor`: the history sent when a message is being edited (App.tsx:147-150).
- `AppShell.QuotaProblem`: the quota test of the error text (App.tsx:205).

## Model

| member | source | states |
|---|---|---|
| JsText.LeadingSpaces | components/GithubMode.tsx:13 | the count covers exactly the whitespace the text starts with |
| JsText.TrailingSpaces | components/GithubMode.tsx:13 | the count covers exactly the whitespace the text ends with |
| JsText.TrimStart | components/GithubMode.tsx:13 | a suffix of the input that does not start with whitespace |
| JsText.TrimEnd | components/GithubMode.tsx:13 | a prefix of the input that does not end with whitespace |
| JsText.Trim | components/GithubMode.tsx:13 | never longer than the input, and with whitespace at neither end |
| JsText.TrimEmptyIff | components/GithubMode.tsx:13-53 | trimming gives the empty string exactly when the input is all whitespace |
| JsText.TrimPadded | services/securityService.ts:24 | trimming inverts padding with whitespace |
| JsText.TrimUnpadded | services/securityService.ts:24 | a string with no whitespace at either end is its own trimmed form |
| JsText.TrimSplits | services/securityService.ts:24 | the trimmed string sits inside the input with only whitespace around it |
| JsText.ToLower | App.tsx:204 | lower-casing keeps the length and lowers each character on its own |
| JsText.ContainsWitness | App.tsx:205 | a contained string occurs at some position |
| JsText.NatToDecimal | components/auth/OTPLogin.tsx:91 | a number's text is a non-empty run of decimal digits |
| JsText.DecimalRoundTrip | components/auth/OTPLogin.tsx:91 | a number's text reads back as the number |
| JsText.DecimalLength | components/auth/OTPLogin.tsx:91 | a number below 10^k has at most k digits, one of at least 10^(k-1) at least k |
| JsText.DecimalValueConcat | backend/utils.py:21 | leading zeros do not change the value of a digit string |
| JsText.PadStart | components/auth/OTPLogin.tsx:91 | the padded text has the requested width (or the input's length), ends with the input and is filled with the pad character in front |
| JsText.Split | components/GithubMode.tsx:445 | a split yields at least one piece |
| JsText.SplitJoin | components/GithubMode.tsx:272 | splitting undoes joining when no piece holds the separator |
| JsText.JoinSplit | components/GithubMode.tsx:445 | joining undoes splitting |
| JsText.LastPiece | components/GithubMode.tsx:445 | the last piece is the longest separator-free suffix |
| JsText.LastPieceIsSuffix | components/GithubMode.tsx:445 | the last piece of a split is that suffix |
| JsText.LastN | components/AppBuilderMode.tsx:237 | `slice(-n)` keeps the last n elements in order, or all when there are fewer |
| RegexScan.CopiesUnmatched | components/MessageItem.tsx:276-278 | a global replacement copies positions where nothing matches |
| RegexScan.WholeMatch | components/MessageItem.tsx:277 | a match covering the whole text is replaced as a whole |
| RegexScan.OneMatch | components/MessageItem.tsx:277 | a single match is replaced and the text around it copied |
| RegexScan.NothingMatched | components/MessageItem.tsx:276-278 | a text with no match is copied whole |
| RegexScan.ScanShrinks | components/MessageItem.tsx:276-278 | with replacements never longer than their matches, a global replacement never lengthens the text |
| RegexScan.ScanLacks | components/MessageItem.tsx:276-278 | a character absent from the text and from every replacement is absent from the result |
| RegexScan.WordRunIs | components/GithubMode.tsx:22 | the `\w+` run stops at the first non-word character |
| RegexScan.UntilCloseIs | components/GithubMode.tsx:19 | the lazy `.*?` stops at the first closing text on the same line |
| RegexScan.IndexFromIs | components/GithubMode.tsx:230 | the class `[^c]*` ends at the first `c` |
| RegexScan.IndexFromNone | components/GithubMode.tsx:230 | with no `c` ahead there is no end |
| SeqUtil.Filter | components/InputArea.tsx:165 | the kept elements are exactly the accepted ones, never more than the input |
| SeqUtil.FilterConcat | components/GithubMode.tsx:286-290 | filtering keeps the relative order of the kept elements |
| SeqUtil.FilterAll | components/InputArea.tsx:165 | a filter that accepts everything returns the list itself |
| SeqUtil.IndexOf | App.tsx:149 | the first index holding the element, or -1 exactly when it is absent |
| Gemini.Pow2 | services/gemini.ts:44 | powers of two are positive |
| AppBuilder.TagsStep | components/AppBuilderMode.tsx:163-169 | one step of the search adds the next match's tag and resumes after it |
| AppBuilder.ApplyStep | components/AppBuilderMode.tsx:163-169 | applying one more tag sets its path to the cleaned body |
| AppBuilder.MatchOfLayout | components/AppBuilderMode.tsx:159 | a text laid out as one file tag is matched from its start to its end |
| OtpUtils.GenerateOtp | backend/utils.py:19-21 | every draw below 10000 gives exactly four characters, all decimal digits |
| OtpUtils.GenerateOtpValue | backend/utils.py:21 | the OTP read as a decimal number is the draw: zero padding does not change the value |
| OtpUtils.GenerateOtpLeadingZero | backend/utils.py:21 | draws below 1000 start with a padding zero |
| OtpUtils.GenerateOtpInjective | backend/utils.py:21 | distinct draws give distinct OTPs |
| AuthRoutes.RegisterRefusesVerified | backend/routes.py:19-23 | registering a verified e-mail is refused with 400 and changes no table |
| AuthRoutes.RegisterUpserts | backend/routes.py:21-57 | otherwise registration succeeds: the unverified user gets the new password hash (or is created unverified, with the creation time the database records), no other user changes, and the e-mail has exactly one OTP record, fresh, with no attempts and five minutes of validity, while other e-mails' records are untouched |
| AuthRoutes.ResendRefusals | backend/routes.py:125-130 | resending for an unknown or verified user is an error that touches no table |
| AuthRoutes.ResendResets | backend/routes.py:135-157 | a successful resend leaves exactly one fresh record for the e-mail, with the attempt counter reset to zero |
| AuthRoutes.VerifyCheckOrder | backend/routes.py:69-79 | verification checks a missing record or user, then expiry (strict, so the expiry instant still passes), then the attempt cap of 3, and none of these refusals changes a table |
| AuthRoutes.WrongOtpCounts | backend/routes.py:81-84 | a wrong OTP inside the window raises the attempt counter by exactly one and verifies nobody |
| AuthRoutes.RightOtpVerifies | backend/routes.py:86-100 | the right OTP inside the window verifies the user, deletes the OTP record and returns the token for that e-mail |
| AuthRoutes.RegisterThenVerify | backend/routes.py:37-100 | the OTP sent at registration verifies the account at any time up to and including its expiry, whatever the tables held |
| AuthRoutes.ThreeStrikesThenResend | backend/routes.py:78-84 | after three wrong OTPs even the right one is refused until a resend resets the counter, after which the newly sent OTP verifies |
| AuthRoutes.LoginOrder | backend/routes.py:104-119 | an unknown e-mail or a wrong password is refused before verification is looked at; a verified user with the right password always gets the token |
| AuthRoutes.AuthDb.constructor | backend/routes.py:14-157 | the database starts with no users and no OTP records |
| AuthRoutes.AuthDb.StoreOtp | backend/routes.py:43-57 | the e-mail's OTP record is replaced or created with the new hash, the new expiry and no attempts; nothing else changes |
| AuthRoutes.AuthDb.UpsertUnverified | backend/routes.py:21-35 | an unverified user gets the new password hash; an unknown e-mail gets a new unverified user; nothing else changes |
| AuthRoutes.AuthDb.Register | backend/routes.py:14-62 | the tables and response are those of the registration rule, with the OTP drawn and hashed as the route does |
| AuthRoutes.AuthDb.VerifyOtp | backend/routes.py:64-100 | the tables and response are those of the verification rule |
| AuthRoutes.AuthDb.Login | backend/routes.py:102-119 | the response is that of the login rule, and no table changes |
| AuthRoutes.AuthDb.ResendOtp | backend/routes.py:121-157 | the tables and response are those of the resend rule |
| SecurityService.Uniform | services/securityService.ts:28-32 | the flags object with all three flags equal to the given value |
| SecurityService.SecretKey | services/securityService.ts:24-25 | the key answers are compared with is "afzal" |
| SecurityService.AcceptedIsPadded | services/securityService.ts:24-27 | an accepted answer is the nickname in some mix of cases with whitespace around it |
| SecurityService.PaddedIsAccepted | services/securityService.ts:24-27 | any such padded nickname is accepted |
| SecurityService.AcceptsIffPaddedNickname | services/securityService.ts:24-27 | an answer is accepted exactly when it is the padded nickname |
| SecurityService.NicknameEnds | services/securityService.ts:24 | the nickname neither starts nor ends with whitespace, so trimming never cuts into it |
| SecurityService.UpperNickname | services/securityService.ts:24-25 | "AFZAL" lowercases to the key |
| SecurityService.AcceptsPaddedUpperCase | services/securityService.ts:24-27 | " AFZAL " is accepted |
| SecurityService.RefusesPunctuation | services/securityService.ts:24-27 | "Afzal!" is refused, since trimming keeps punctuation |
| SecurityService.SecurityService.constructor | services/securityService.ts:4-8 | the service starts with all three flags false |
| SecurityService.SecurityService.GetFlags | services/securityService.ts:16-18 | a copy of the flags, which is a value the caller cannot use to change the service, and which stays coherent |
| SecurityService.SecurityService.Verify | services/securityService.ts:23-48 | success exactly when the answer is accepted; success sets all three flags and failure clears all three, revoking an earlier success; the message is the success or refusal text |
| SecurityService.SecurityService.Logout | services/securityService.ts:50-56 | all flags cleared whatever they were, so a second logout changes nothing |
| Gemini.Backoff | services/gemini.ts:44 | the wait after a failed attempt is at least 6 seconds |
| Gemini.BackoffDoubles | services/gemini.ts:44 | each wait is twice the one before it |
| Gemini.WithRetry | services/gemini.ts:27-53 | at most `maxRetries` calls; every call but the last failed with a retryable error (a 429 or quota word, or a server error); the result is the last call's value exactly when it succeeded; otherwise the last call's error is rethrown, early only for a non-retryable error; with no attempts allowed nothing is called and `undefined` is thrown; the waits are the doubling backoffs, one after each retryable failure |
| Gemini.QuotaExhausted | services/gemini.ts:27-53 | with the default four attempts, a call that always hits the quota waits 6, 12, 24 and 48 seconds, then rethrows the quota error |
| Gemini.InstructionStartsWithIdentity | services/gemini.ts:112-130 | the system instruction always starts with the identity text |
| Gemini.InstructionMinimal | services/gemini.ts:122-124 | with no persona, no emotional mode, no memory and no nickname, the instruction is the identity and the clock block and nothing else |
| Gemini.InstructionEndsWithNickname | services/gemini.ts:127 | with a nickname, the instruction ends with the nickname line |
| Gemini.InstructionExtends | services/gemini.ts:123-127 | the persona line sits between the identity and the clock; the emotional line and the nickname line are appended without changing anything before them |
| Gemini.Turns | services/gemini.ts:146 | one turn per history message, in order, each carrying only the message's role and text |
| Gemini.AttachmentParts | services/gemini.ts:143 | one inline-data part per attachment, in order, with its MIME type and base64 data |
| Gemini.Request | services/gemini.ts:146 | a request has at most `window` history turns plus the new user turn, which comes last |
| Gemini.RequestTurns | services/gemini.ts:146 | the history turns of a request are the most recent messages, oldest first |
| Gemini.UserPartsShape | services/gemini.ts:143-144 | the new user turn is the attachments in order, then a text part that is never empty: the text, or " " when it is empty |
| Gemini.PartialsArePrefixes | services/gemini.ts:155-164 | every partial text reported is a prefix of the final text; partials grow strictly, one per chunk that has text; the last partial is the final text, and with no partial the text is empty |
| Gemini.ReadStream | services/gemini.ts:155-164 | the stream loop returns the concatenated chunk texts, the reported partials and the web sources in order |
| Gemini.VideoAspect | services/gemini.ts:273 | the video is portrait exactly when '9:16' is asked for; every other request gets '16:9' |
| AppBuilder.PathStart | components/AppBuilderMode.tsx:159 | the opening `<file\s+path=["']` of the tag pattern, when it matches, ends strictly after the start and within the text |
| AppBuilder.PathAndGt | components/AppBuilderMode.tsx:159 | the path group `([^"']+)`, its closing quote and `[^>]*>` end in order inside the text, the path being non-empty |
| AppBuilder.MatchAt | components/AppBuilderMode.tsx:159 | a match of the whole tag pattern at an index ends after that index, within the text |
| AppBuilder.NextMatch | components/AppBuilderMode.tsx:163 | `exec` from the last index finds a match ending after it, so the search always advances |
| AppBuilder.ExtractUpdates | components/AppBuilderMode.tsx:159-169 | the extraction loop stores each found tag's cleaned body under its path, in order, over a copy of the files, and counts the tags |
| AppBuilder.ApplyKeepsUnmentioned | components/AppBuilderMode.tsx:161-167 | a path no tag names keeps its content, or stays absent |
| AppBuilder.ApplyLastWins | components/AppBuilderMode.tsx:167 | the last tag for a path decides its content |
| AppBuilder.TagRoundTrip | components/AppBuilderMode.tsx:150-167 | the extractor reads back a tag written as the builder writes the files into its prompt: a non-empty, quote-free path and a body without a closing tag are found exactly |
| AppBuilder.SingleMatch | components/AppBuilderMode.tsx:163 | a match that runs to the end of the text is the only tag found |
| AppBuilder.FencedIsTrimmed | components/AppBuilderMode.tsx:165 | a fenced code block is unchanged by trimming |
| AppBuilder.OpeningFenceDropped | components/AppBuilderMode.tsx:166 | the opening fence line with a letters-only language name is removed |
| AppBuilder.CleanFenced | components/AppBuilderMode.tsx:165-166 | cleaning a fenced block gives back exactly the code inside |
| AppBuilder.SetProjectVfs | components/AppBuilderMode.tsx:176 | the project with the id gets the new files and time; every other project is unchanged and the list keeps its length |
| AppBuilder.FileChange | components/AppBuilderMode.tsx:131-137 | the active file gets the new content and nothing else in the files changes; only the open project takes the new files, and only when a project is open; the rest of the state is untouched |
| AppBuilder.FindProject | components/AppBuilderMode.tsx:102 | a found project is in the list with that id; when none is found no project has that id |
| AppBuilder.DeleteProject | components/AppBuilderMode.tsx:98-114 | an unknown id or a refused confirmation changes nothing; otherwise the project list becomes the others in their order, the workspace closes if it was the open project, the log gains "> System: Purged <name>." with the first matching project's name, and nothing else changes |
| AppBuilder.CreateNewProject | components/AppBuilderMode.tsx:74-96 | the new project, named after the project count, goes to the front holding exactly the App.tsx and styles.css seed templates, with the two clock readings as its creation and update times; it is opened with an empty conversation, the log reset to "> Loaded project: <name>" and no test report; the older projects follow unchanged, and the open file, preview key and initialised flag stay as they were |
| AppBuilder.AfterGeneration | components/AppBuilderMode.tsx:171-178 | with no tag found nothing changes; otherwise the files become the updates, the preview reloads, the log records the count, only the open project takes the new files, and nothing else changes |
| AppBuilder.NoTagsNoChange | components/AppBuilderMode.tsx:163-178 | when the answer has no tag, the tag step changes nothing |
| AppBuilder.PreviewLog | components/AppBuilderMode.tsx:234-242 | a LOG or ERROR message is appended and the log keeps its last 50 entries in order; any other message is ignored |
| AppBuilder.PreviewHtml | components/AppBuilderMode.tsx:188 | the page body is index.html when it has content, and never empty: otherwise an empty root element |
| AppBuilder.BundleOrder | components/AppBuilderMode.tsx:190-207 | every .js/.jsx/.ts/.tsx file other than App.tsx is bundled, in key order (the order of `ScriptFiles`); App.tsx comes last, and only when it has content |
| AppBuilder.BundleJs | components/AppBuilderMode.tsx:192-207 | the bundling loop produces the sections of exactly those files in that order |
| AppBuilder.LoadStored | components/AppBuilderMode.tsx:42-58 | stored projects replace the list only when the stored text is non-empty and parses to an array; a parse failure is logged; the builder is initialized either way and nothing else changes |
| AppBuilder.Persist | components/AppBuilderMode.tsx:61-64 | once initialized, storage holds the project list; before that it is left alone |
| AppBuilder.StorageRoundTrip | components/AppBuilderMode.tsx:42-64 | the initial state never overwrites storage, and loading a stored array writes the same list back |
| GithubMode.CleanUrl | components/GithubMode.tsx:229 | the cleaned URL is no longer than the input and never starts with whitespace |
| GithubMode.SegmentLengthIs | components/GithubMode.tsx:230 | a path segment of the pattern is a maximal run of characters other than '/' |
| GithubMode.StripGit | components/GithubMode.tsx:235 | a repository name ending in ".git" loses exactly that suffix; any other name is kept |
| GithubMode.RepoAtShape | components/GithubMode.tsx:230-231 | a match names a non-empty owner and a repository, neither holding a '/' |
| GithubMode.MatchSkips | components/GithubMode.tsx:230 | the search moves past positions where the pattern does not match |
| GithubMode.MatchFromNone | components/GithubMode.tsx:230-231 | the search fails exactly when no position of the URL matches |
| GithubMode.MatchFromLeftmost | components/GithubMode.tsx:230 | a successful search returns the match at the leftmost matching position |
| GithubMode.ParseRepoUrlSpec | components/GithubMode.tsx:229-235 | parsing fails exactly when nothing in the cleaned URL matches; otherwise owner and repository are '/'-free segments that follow "github.com/", the repository possibly with ".git" removed |
| GithubMode.CanonicalHead | components/GithubMode.tsx:230 | in "https://github.com/owner/...", the host sits at position 8 and the owner right after it |
| GithubMode.CanonicalRepo | components/GithubMode.tsx:230 | in a canonical URL, the repository follows the owner and ends at a '/' or the end |
| GithubMode.MatchAtHost | components/GithubMode.tsx:230 | the pattern matched at the host yields the owner and repository laid out after it |
| GithubMode.MatchCanonical | components/GithubMode.tsx:230-231 | a canonical URL's first match is the owner and repository it was built from |
| GithubMode.ParseCanonical | components/GithubMode.tsx:229-235 | "https://github.com/owner/repo" with no tail, a path or a trailing '/' parses back to owner and repository, with ".git" stripped |
| GithubMode.FetchStructure | components/GithubMode.tsx:227-254 | an unparsable URL gives no structure; otherwise the 'main' tree, falling back to 'master' only when 'main' answers without a tree; a throw on either branch gives no structure, and 'master' is not tried after a throw on 'main' |
| GithubMode.EntryLine | components/GithubMode.tsx:272 | every line starts with the folder marker as written, the file lines (and only they) go on with the file marker, and the line ends with a space and the path |
| GithubMode.ManifestLines | components/GithubMode.tsx:271-272 | one line per entry for the first 300 entries, in order |
| GithubMode.Manifest | components/GithubMode.tsx:271-273 | there is a manifest exactly when there is a structure |
| GithubMode.ManifestSplits | components/GithubMode.tsx:271-273 | with no line break in the paths, splitting the manifest at line breaks gives back the lines of the first 300 entries |
| GithubMode.ManifestIgnoresTail | components/GithubMode.tsx:272 | entries after the 300th do not change the manifest |
| GithubMode.FilteredFiles | components/GithubMode.tsx:286-290 | an empty search keeps every file; otherwise exactly the files whose lower-cased path contains the lower-cased term, never more than the input |
| GithubMode.FilteredFilesConcat | components/GithubMode.tsx:286-290 | filtering keeps the tree's order |
| GithubMode.DisplayName | components/GithubMode.tsx:445 | the name is a '/'-free suffix of the path, preceded by a '/' when shorter than the path |
| GithubMode.Extension | components/GithubMode.tsx:449 | the extension is a '.'-free suffix of the path, preceded by a '.' when shorter than the path |
| GithubMode.DisplayNameOf | components/GithubMode.tsx:445 | the name of "dir/name" is "name", and a path without '/' is its own name |
| GithubMode.ExtensionOf | components/GithubMode.tsx:449 | the extension of "base.ext" is "ext", and a path without '.' is its own extension |
| Mermaid.LabelTail | components/GithubMode.tsx:16 | a lazy label tail ends after its label and a whitespace run plus "-->", inside the text |
| Mermaid.ArrowAt | components/GithubMode.tsx:16 | an arrow-label match covers a non-empty stretch of the text and has a non-empty replacement |
| Mermaid.DoubleAt | components/GithubMode.tsx:19 | a double-bracket match covers a non-empty stretch of the text and has a non-empty replacement |
| Mermaid.NodeAt | components/GithubMode.tsx:22-25 | a node-label match covers a non-empty stretch of the text and has a non-empty replacement |
| Mermaid.ReplaceAll | components/GithubMode.tsx:16-25 | a global replacement empties the text exactly when the text was empty |
| Mermaid.SanitizeWith | components/GithubMode.tsx:12-28 | the clean-up is empty exactly when the trimmed code is |
| Mermaid.SanitizeAsWritten | components/GithubMode.tsx:12-28 | as written, the clean-up is empty exactly when the code is all whitespace |
| Mermaid.Sanitize | components/MessageItem.tsx:17-36 | with the corrected label class, the clean-up is empty exactly when the code is all whitespace |
| Mermaid.Unmatched | components/GithubMode.tsx:16-25 | a text where the pattern matches nowhere is left unchanged |
| Mermaid.NoBracketsKept | components/GithubMode.tsx:19-25 | text without '[' passes both bracket rules unchanged |
| Mermaid.NoDashesKept | components/GithubMode.tsx:16 | text without '-' passes the arrow rule unchanged |
| Mermaid.LabelTailIs | components/GithubMode.tsx:16 | the lazy tail stops at the first arrow head reached over label characters |
| Mermaid.SanitizeBy | components/GithubMode.tsx:12-28 | the clean-up is the three rules applied in order to the trimmed code |
| Mermaid.QuotedIsPlain | components/GithubMode.tsx:22-25 | quoting a plain label keeps it free of brackets, dashes and line breaks |
| Mermaid.NodeWord | components/GithubMode.tsx:22 | the `\w+` run of `id[label]` is exactly the id |
| Mermaid.NodeClose | components/GithubMode.tsx:22 | the lazy `.*?` of `id[label]` runs to the final ']' |
| Mermaid.NodeAtNode | components/GithubMode.tsx:22-25 | the node rule matches all of `id[label]`, quoting an unquoted label and keeping a quoted one |
| Mermaid.NodeAtIs | components/GithubMode.tsx:22-25 | the node rule at the start of a text that is one node, stated on positions |
| Mermaid.NodeRuleOnNode | components/GithubMode.tsx:22-25 | the node rule's global replacement on a single node quotes its label unless already quoted |
| Mermaid.OtherRulesOnNode | components/GithubMode.tsx:13-19 | trimming, the arrow rule and the double-bracket rule leave a single plain node alone |
| Mermaid.SanitizeQuotesNode | components/MessageItem.tsx:29-33 | `A[Text (Part 1)]` becomes `A["Text (Part 1)"]`, for every word and plain label, by the clean-up as written and by the corrected one |
| Mermaid.SanitizeKeepsQuotedNode | components/MessageItem.tsx:30-33 | a node label that starts with a quote is kept as it is, by the clean-up as written and by the corrected one |
| Mermaid.SanitizeNodeIdempotent | components/MessageItem.tsx:17-36 | cleaning a single node twice is the same as cleaning it once, for the clean-up as written and for the corrected one |
| Mermaid.SanitizeKeepsQuotation | components/MessageItem.tsx:30-33 | a node the clean-up has quoted passes it again unchanged, as written and corrected alike |
| Mermaid.DoubleAtNode | components/GithubMode.tsx:19 | the double-bracket rule matches `[[text]]` after the node name as a whole |
| Mermaid.NoDoubleAt | components/GithubMode.tsx:19 | the double-bracket rule never matches where there is no '[' |
| Mermaid.DoubleRuleOnNode | components/GithubMode.tsx:19 | the double-bracket rule turns `id[[text]]` into `id["text"]` |
| Mermaid.DoubleNoDashes | components/GithubMode.tsx:16 | a double-bracket node of plain text holds no '-' |
| Mermaid.DoubleUntouchedByArrows | components/GithubMode.tsx:13-16 | trimming and the arrow rule leave `id[[text]]` alone, with the source's label class and with the corrected one |
| Mermaid.SanitizeDoubleBrackets | components/MessageItem.tsx:24-26 | `node[[Text]]` becomes `node["Text"]` (quoted, where the source comment says `node[Text]`), by the clean-up as written and by the corrected one |
| Mermaid.ArrowLineOf | components/MessageItem.tsx:21 | `-- label -->` has the arrow layout |
| Mermaid.ArrowLabelBody | components/GithubMode.tsx:16 | inside `-- label -->` no arrow head follows a label character before the label's end |
| Mermaid.ArrowLineHead | components/GithubMode.tsx:16 | after the label come one space and the arrow head |
| Mermaid.ArrowTail | components/GithubMode.tsx:16 | the lazy tail of `-- label -->` stops right after the label |
| Mermaid.ArrowMatch | components/GithubMode.tsx:16 | the arrow rule matches all of `-- label -->` and quotes the label |
| Mermaid.ArrowRuleOnLabel | components/MessageItem.tsx:20-22 | `-- 1. Step -->` becomes `-- "1. Step" -->` under both label classes |
| Mermaid.SanitizeQuotesArrowLabel | components/MessageItem.tsx:17-36 | the whole clean-up quotes such an arrow label, as written and corrected alike |
| Mermaid.CorrectedKeepsPlainArrows | components/GithubMode.tsx:16 | with the corrected class, text whose only dashes are plain arrows passes the arrow rule unchanged |
| Mermaid.SanitizeKeepsChains | components/GithubMode.tsx:12-28 | with the corrected class, a trimmed bracket-free line of plain arrows is left unchanged |
| Mermaid.ChainTail | components/GithubMode.tsx:16 | in `A --> B --> C` the lazy tail from the first arrow's '>' ends before the second arrow |
| Mermaid.ChainMatch | components/GithubMode.tsx:16 | as written, the first arrow of the chain opens a label running to the second arrow |
| Mermaid.ChainEnds | components/GithubMode.tsx:16 | nothing matches at the ends of the chain |
| Mermaid.ChainAsWritten | components/GithubMode.tsx:16 | as written, the arrow rule turns the chain into `A -- "> B" --> C` |
| Mermaid.ChainPieces | components/GithubMode.tsx:16 | the mangled chain is the chain with its middle replaced |
| Mermaid.MangledChainKept | components/GithubMode.tsx:19-25 | the bracket rules leave the mangled chain alone |
| Mermaid.ChainSanitizedAsWritten | components/GithubMode.tsx:12-28 | the whole clean-up as written mangles the chain |
| Mermaid.ChainIsPlain | components/GithubMode.tsx:16 | the chain is trimmed, bracket-free and has only plain arrows |
| Mermaid.ChainCounterexample | components/GithubMode.tsx:16 | as written the chain loses node B and becomes one edge labelled "> B"; corrected, it is kept |
| Mermaid.Diagram.constructor | components/GithubMode.tsx:32-38 | a new view has rendered nothing, shows no error and shows the spinner |
| Mermaid.Diagram.Begin | components/GithubMode.tsx:52-57 | code the source's clean-up empties changes nothing; otherwise the spinner shows, the error clears and the request takes the next counter value |
| Mermaid.Diagram.Rendered | components/GithubMode.tsx:63-66 | a result is applied only for the latest request |
| Mermaid.Diagram.Failed | components/GithubMode.tsx:67-72 | a failure shows its message, or "Syntax Error" without one, only for the latest request |
| Mermaid.OverlappingRenders | components/GithubMode.tsx:51-73 | of two overlapping requests, only the second one's picture is shown, whichever finishes first |
| MessageItem.StripMarkers | components/MessageItem.tsx:276 | removing the markdown markers leaves no marker and never lengthens the text |
| MessageItem.LinkAt | components/MessageItem.tsx:277 | a link match lies inside the text and its replacement, the link text, is shorter than the match |
| MessageItem.TagAt | components/MessageItem.tsx:278 | a tone-tag match lies inside the text and is replaced by nothing |
| MessageItem.CleanTextShorter | components/MessageItem.tsx:275-278 | the text read aloud is never longer than the message |
| MessageItem.CleanTextHasNoMarker | components/MessageItem.tsx:275-278 | no markdown marker is ever read aloud |
| MessageItem.CleanTextPlain | components/MessageItem.tsx:275-278 | text with no marker and no '[' is read exactly as written |
| MessageItem.LinkLayout | components/MessageItem.tsx:277 | where the ']' and ')' of `[text](url)` fall |
| MessageItem.LinkMarkerFree | components/MessageItem.tsx:276 | a link built from marker-free pieces carries no marker |
| MessageItem.StripKeepsPlain | components/MessageItem.tsx:276 | marker-free text passes the marker removal unchanged |
| MessageItem.LinkReplaced | components/MessageItem.tsx:277 | the link replacement turns `[text](url)` into its text |
| MessageItem.CleanTextLink | components/MessageItem.tsx:275-278 | a markdown link is read as its text |
| MessageItem.CleanTagsPlain | components/MessageItem.tsx:278 | text without '[' passes the tag removal unchanged |
| MessageItem.TagLayout | components/MessageItem.tsx:278 | where the closing ']' of `[tag]rest` falls |
| MessageItem.TagMarkerFree | components/MessageItem.tsx:276 | a tag built from marker-free pieces carries no marker |
| MessageItem.TagIsNoLink | components/MessageItem.tsx:277 | `[tag]rest` holds no link when the rest does not open with '(' |
| MessageItem.TagRemoved | components/MessageItem.tsx:278 | the tag removal drops `[tag]` and keeps the rest |
| MessageItem.CleanTextTag | components/MessageItem.tsx:275-278 | a tone tag such as `[Softly]` is not read aloud while the text after it is |
| MessageItem.NextSpeed | components/MessageItem.tsx:311-314 | the next rate is always one of the listed rates |
| MessageItem.SpeedOrder | components/MessageItem.tsx:312-314 | every listed rate steps to the next one in the list 1, 1.25, 1.5, 2, 0.75, and the last back to 1 |
| MessageItem.NextSpeedUnlisted | components/MessageItem.tsx:313 | an unlisted rate (index -1) goes back to normal speed |
| MessageItem.PressesFrom | components/MessageItem.tsx:311-315 | the rates of the first five presses follow the step function |
| MessageItem.NextSpeedCycle | components/MessageItem.tsx:311-315 | five presses bring every listed rate back, and no fewer do |
| MessageItem.Speech.constructor | components/MessageItem.tsx:257-259 | nothing is being read, the rate is 1 and there is no utterance |
| MessageItem.Speech.Speak | components/MessageItem.tsx:270-303 | any speech is cancelled and the cleaned text is read at the chosen rate, which is kept |
| MessageItem.Speech.Stop | components/MessageItem.tsx:305-309 | speech is cancelled, reading stops and the utterance is dropped; the rate is kept |
| MessageItem.Speech.Ended | components/MessageItem.tsx:290-298 | an ended or failed utterance clears the reading state |
| MessageItem.Speech.CycleSpeed | components/MessageItem.tsx:311-327 | the next rate is chosen; while reading, the same text restarts at the new rate, otherwise the utterance is untouched |
| MessageItem.Speech.Unmount | components/MessageItem.tsx:261-268 | leaving the view silences the engine only when a reading is in progress |
| MessageItem.Header | components/MessageItem.tsx:373-397 | PDFs and text files get a header, captioned "PDF Document" exactly for PDFs |
| MessageItem.TextPreview | components/MessageItem.tsx:404-411 | a failed decoding shows the error text; a decoded text is shown whole up to 2000 characters, else cut to 2000 and followed by "..." |
| MessageItem.AttachmentBody | components/MessageItem.tsx:400-442 | images first, then text previews, then the PDF viewer, else the fallback |
| MessageItem.PdfShownAsPdf | components/MessageItem.tsx:359-442 | a PDF with no text-like name gets the PDF header and viewer |
| MessageItem.MixedClassification | components/MessageItem.tsx:359-442 | a PDF named like source code is previewed as text under a "PDF Document" header, and an image named so is shown as an image under a "Text File" header |
| LiveAudio.SourceIndexInBounds | components/LiveMode.tsx:116-121 | every index the resampler reads lies inside the input block |
| LiveAudio.DownsampledAt | components/LiveMode.tsx:114-124 | with different rates the block has `floor(len / (in / out))` samples and sample `i` is input sample `floor(i * in / out)` |
| LiveAudio.DownsampleThirds | components/LiveMode.tsx:114-124 | from 48 kHz to 16 kHz every third sample is kept, starting with the first |
| LiveAudio.DownsampleBuffer | components/LiveMode.tsx:114-124 | equal rates return the same array; otherwise a new array holding the resampled block |
| LiveTranscript.PickTranscription | components/LiveMode.tsx:247-255 | an input transcription, even an empty one, takes precedence over an output transcription |
| LiveTranscript.Accept | components/LiveMode.tsx:257-265 | no text, or an unmounted view, leaves the transcript as it was |
| LiveTranscript.MergeProperties | components/LiveMode.tsx:258-264 | one merge keeps speakers alternating, appends exactly the fragment to the concatenated text, leaves earlier entries alone and ends with the fragment's speaker |
| LiveTranscript.ReplayProperties | components/LiveMode.tsx:257-265 | any run of fragments keeps the transcript alternating and appends exactly their texts, in order, with nothing lost or duplicated |
| LiveTranscript.ReplaySnoc | components/LiveMode.tsx:258-264 | one more fragment is merged into the transcript of the earlier ones |
| LiveTranscript.ReplayOne | components/LiveMode.tsx:263 | the first fragment starts the first entry, with its fresh id |
| LiveTranscript.CoalesceTwo | components/LiveMode.tsx:260-261 | two fragments of one speaker become one entry holding both texts, under the first one's id |
| LiveTranscript.CoalesceThree | components/LiveMode.tsx:258-264 | two fragments of one speaker then one of the other give exactly two entries |
| LiveTranscript.CoalescingExample | components/LiveMode.tsx:258-264 | user "he", user "llo", model "hi" give exactly a user entry "hello" and a model entry "hi" |
| LiveTools.Utf8 | components/LiveMode.tsx:219-220 | each character encodes to one to four bytes, and to itself exactly when it is ASCII |
| LiveTools.HexDigitValue | components/LiveMode.tsx:219-220 | each hex digit reads back as its value |
| LiveTools.EscapedDecodes | components/LiveMode.tsx:219-220 | percent-decoding `%XX` escapes gives back their bytes |
| LiveTools.EscapedSafe | components/LiveMode.tsx:219-220 | escapes use only '%' and upper-case hex digits |
| LiveTools.EncodeCharDecodes | components/LiveMode.tsx:219-220 | decoding one encoded character gives its UTF-8 bytes |
| LiveTools.EncodeRoundTrip | components/LiveMode.tsx:219-220 | encoding the query is lossless: decoding gives back its UTF-8 bytes |
| LiveTools.EncodeUriSafe | components/LiveMode.tsx:219-220 | the encoded query holds only unreserved characters, '%' and hex digits |
| LiveTools.UnreservedVerbatim | components/LiveMode.tsx:219-220 | a query of unreserved characters is used verbatim |
| LiveTools.SpaceEscaped | components/LiveMode.tsx:219-220 | a space becomes "%20" |
| LiveTools.MediaUrl | components/LiveMode.tsx:218-220 | platform "spotify" gives the Spotify search URL, anything else the YouTube results URL, each with the encoded query |
| LiveTools.HandleCall | components/LiveMode.tsx:216-233 | exactly the `play_media` calls get a card with action "PLAY_MEDIA" and a response with their id, name and result "ok" |
| LiveTools.ResponsesMatchCalls | components/LiveMode.tsx:214-235 | only `play_media` calls are answered: the i-th response carries the id of the i-th `play_media` call, the name `play_media` and the result "ok", so there is exactly one response per such call, in order |
| LiveTools.ResponsesFollowPlayCalls | components/LiveMode.tsx:214-235 | the responses pair off one to one, in order, with the batch's `play_media` calls, each answered with its own id and "ok" |
| LiveSession.Without | components/LiveMode.tsx:59-88 | releasing a handle nulls exactly that ref |
| LiveSession.StoppedView | components/LiveMode.tsx:55-57 | after a stop the view is inactive and, when mounted, not speaking and 'Ready'; the error and key picker are kept |
| LiveSession.CleanupReleasesAll | components/LiveMode.tsx:55-103 | after cleanup nothing is held, each held handle is released once in the fixed order, every queued source is stopped, the cursor is 0 and the decode chain is fresh |
| LiveSession.HeldExactlyOnce | components/LiveMode.tsx:59-88 | cleanup releases exactly the held handles, none twice |
| LiveSession.CleanupIdempotent | components/LiveMode.tsx:55-103 | a second cleanup releases and stops nothing more |
| LiveSession.UnmountKeepsView | components/LiveMode.tsx:105-112 | unmounting releases everything and leaves the status, error and speaking flag as they were |
| LiveSession.StartAt | components/LiveMode.tsx:139-144 | a chunk never starts before the clock: at the cursor, or 0.1 s after the clock when the cursor is behind |
| LiveSession.ScheduleEffect | components/LiveMode.tsx:126-157 | without an output context nothing happens; otherwise one new source starts at the start time and the cursor moves by its duration |
| LiveSession.BackToBack | components/LiveMode.tsx:139-145 | a chunk scheduled before the previous one ends starts exactly where it ends |
| LiveSession.RemoveFirst | components/LiveMode.tsx:151-152 | one occurrence of the source leaves the queue and nothing else does |
| LiveSession.SourceEndedEffect | components/LiveMode.tsx:150-156 | an ended source leaves the queue; "speaking" clears exactly when the queue empties in a mounted view |
| LiveSession.ChainFifo | components/LiveMode.tsx:238-244 | decoded chunks are scheduled in arrival order, on consecutive sources |
| LiveSession.InterruptFlushes | components/LiveMode.tsx:267-273 | after an interruption nothing queued plays, the cursor is the clock, and the next chunk starts at the interruption's instant or, when it arrives later, 0.1 s after its arrival |
| LiveSession.MessageAudio | components/LiveMode.tsx:237-273 | a message's audio joins the current chain; an interruption moves every pending chunk off it and empties the queue |
| LiveSession.MessageTranscript | components/LiveMode.tsx:247-265 | the transcript keeps alternating speakers and a user fragment is appended whole |
| LiveSession.ErrorEffect | components/LiveMode.tsx:275-289 | a "Requested entity was not found" error shows the key picker, any other the connection error text; every handle is released and the status ends 'Ready' |
| LiveSession.CloseEffect | components/LiveMode.tsx:290-295 | a close the user caused changes nothing; any other releases everything |
| LiveSession.ConnectOffline | components/LiveMode.tsx:169-172 | offline, connect only reports the missing connection |
| LiveSession.ConnectOutcomes | components/LiveMode.tsx:168-360 | a failed connect releases exactly what that attempt acquired and ends inactive with the classified error; a successful one holds all five handles with the cursor at the output clock |
| LiveSession.ToggleStopThenClose | components/LiveMode.tsx:362-370 | stopping from the button releases everything, and the close event that follows changes nothing |
| LiveSession.LiveController.constructor | components/LiveMode.tsx:41-43 | the controller starts in the state of a freshly mounted view |
| LiveSession.LiveController.Release | components/LiveMode.tsx:59-88 | one handle is released if held and its ref nulled; nothing else changes |
| LiveSession.LiveController.ReleaseHandles | components/LiveMode.tsx:59-88 | every held handle is released in order and the refs are all null |
| LiveSession.LiveController.Cleanup | components/LiveMode.tsx:55-103 | the state after is the cleanup rule's |
| LiveSession.LiveController.Unmount | components/LiveMode.tsx:105-112 | the state after is the unmount rule's |
| LiveSession.LiveController.SchedulePlayback | components/LiveMode.tsx:126-157 | the state after is the scheduling rule's |
| LiveSession.LiveController.OnSourceEnded | components/LiveMode.tsx:150-156 | the state after is the source-ended rule's |
| LiveSession.LiveController.ChainSettled | components/LiveMode.tsx:241-244 | the state after is the chain-settled rule's |
| LiveSession.LiveController.OrphanSettled | components/LiveMode.tsx:241-244 | the state after is the orphan-settled rule's |
| LiveSession.LiveController.HandleToolCalls | components/LiveMode.tsx:214-235 | the state after is the tool-call rule's |
| LiveSession.LiveController.Interrupt | components/LiveMode.tsx:267-273 | the state after is the interruption rule's |
| LiveSession.LiveController.OnMessage | components/LiveMode.tsx:213-274 | the state after is the message rule's |
| LiveSession.LiveController.OnOpen | components/LiveMode.tsx:210-212 | the state after is the open rule's |
| LiveSession.LiveController.ShowFailure | components/LiveMode.tsx:278-287 | only the view changes, to the classified failure |
| LiveSession.LiveController.OnError | components/LiveMode.tsx:275-289 | the state after is the error rule's |
| LiveSession.LiveController.OnClose | components/LiveMode.tsx:290-295 | the state after is the close rule's |
| LiveSession.LiveController.ConnectFailed | components/LiveMode.tsx:346-359 | the state after is the connect-failure rule's |
| LiveSession.LiveController.AcquireUntil | components/LiveMode.tsx:182-194 | the state after is what connect holds when it reaches the failing step |
| LiveSession.LiveController.Connect | components/LiveMode.tsx:168-360 | the state after is the connect rule's |
| LiveSession.LiveController.ToggleConnection | components/LiveMode.tsx:362-370 | the state after is the toggle rule's |
| InputArea.GatherTranscripts | components/InputArea.tsx:57-63 | the loop gathers the final transcripts and the interim ones, each in order |
| InputArea.CollectedConcat | components/InputArea.tsx:57-63 | gathering over two batches of results gathers each batch in turn |
| InputArea.HeardLength | components/InputArea.tsx:57-68 | every transcript is heard exactly once: the lengths add up |
| InputArea.AllFinalInOrder | components/InputArea.tsx:57-68 | when every result is final, nothing is interim and the dictation is the transcripts in arrival order |
| InputArea.DictatedShape | components/InputArea.tsx:65-68 | the dictated text starts with the base text and ends with what was heard, separated by one space exactly when the base is non-empty, does not end with a space and something was heard |
| InputArea.TextareaHeight | components/InputArea.tsx:126-131 | the height is the content height, capped at 200 pixels |
| InputArea.PlaceholderPriority | components/InputArea.tsx:168-175 | each placeholder is shown exactly when its condition is the first that holds among disabled, offline, editing, listening and emotional |
| InputArea.AcceptedConcat | components/InputArea.tsx:149-162 | selecting files in two batches adds both batches' attachments in turn, never more than the files |
| InputArea.AcceptedBound | components/InputArea.tsx:149-162 | a selection adds at most one attachment per file |
| InputArea.Composer.constructor | components/InputArea.tsx:30-43 | the composer starts empty and not listening |
| InputArea.Composer.ToggleListening | components/InputArea.tsx:89-104 | offline or without a recognizer the button alerts with the source's texts; otherwise it stops a running recognizer or starts one, capturing the current text as the base |
| InputArea.Composer.SetListening | components/InputArea.tsx:49-51 | the listening flag follows the recognizer's start, end and error events |
| InputArea.Composer.OnResult | components/InputArea.tsx:53-74 | the text becomes the base followed by what was heard |
| InputArea.Composer.Send | components/InputArea.tsx:140-147 | with neither text nor attachments, or while loading or disabled, nothing happens; otherwise the text and attachments are sent, both are cleared and a running recognizer is stopped |
| InputArea.Composer.SelectFiles | components/InputArea.tsx:149-162 | offline nothing is added; otherwise the accepted files' attachments are appended in the order chosen |
| InputArea.Composer.RemoveAttachment | components/InputArea.tsx:164-166 | exactly the attachments with that id go; the rest stay in order |
| InputArea.Composer.LoadEdit | components/InputArea.tsx:106-124 | starting an edit loads the message's text and attachments; ending one clears the composer |
| AppShell.Ids | App.tsx:149 | one id per message, in order |
| AppShell.HistoryForEdit | App.tsx:147-152 | without an edit, or when the edited message is gone, the history is the whole list; otherwise it is exactly the messages before the first one with the edited id |
| AppShell.UpdatesTouchOnlyTheId | App.tsx:190-208 | the partial-text and error updates keep the list's length and change only the messages with that id, and only in the fields they set |
| AppShell.UpdateOfAbsentId | App.tsx:190-208 | an update for an id no message carries changes nothing |
| AppShell.ErrorText | App.tsx:203-207 | the quota text exactly when the lower-cased message mentions "quota_exceeded" or "429", the generic text otherwise |
| AppShell.TooManyRequestsIsQuota | App.tsx:204-206 | every message that contains "429" anywhere (an HTTP 429 status, say) gets the quota text |
| AppShell.UpperQuotaIsQuota | App.tsx:204-206 | "QUOTA_EXCEEDED" in capitals gets the quota text |
| AppShell.EmptyMessageIsGeneric | App.tsx:203-204 | an error without a message gets the generic text |
| AppShell.FontClass | App.tsx:268 | "large" and "small" get their own classes, any other size the base class |
| AppShell.SaveTo | App.tsx:168 | a finished conversation updates the current session when there is one and creates a session otherwise, with exactly those messages |
| AppShell.Conversation.constructor | App.tsx:109-116 | no messages, no edit, not loading, not stopped |
| AppShell.Conversation.SetEditing | App.tsx:424-434 | only the edited message changes |
| AppShell.Conversation.Send | App.tsx:141-174 | ignored while loading; otherwise the stop flag clears, the history cut before the edited message gets the user message, the edit ends, and online the streaming placeholder follows; the user message and the placeholder carry separate clock readings, and the request keeps the placeholder's |
| AppShell.Conversation.Stop | App.tsx:432 | the stop flag is set and loading ends; the messages are kept |
| AppShell.Conversation.Partial | App.tsx:188-191 | unless stopped, the reply shows the partial text |
| AppShell.Conversation.Finish | App.tsx:196-200 | unless the shared flag is set, the conversation becomes the list sent plus the final reply and is saved; loading ends either way |
| AppShell.Conversation.FinishWanted | App.tsx:196-200 | the corrected completion: applied and saved only for the request still wanted and not stopped |
| AppShell.Conversation.Fail | App.tsx:201-211 | unless stopped, the reply stops streaming and shows the classified error; loading ends either way |
| AppShell.Conversation.Offline | App.tsx:161-170 | offline, the conversation is the list sent plus the offline reply, saved, and loading ends |
| AppShell.Conversation.Security | App.tsx:128-139 | verifying with an answer sets the creator flag to the outcome and replies with its message; logging out clears the flag; verifying without an answer replies "Action failed." and changes nothing |
| AppShell.StaleCompletion | App.tsx:141-212 | as written, stopping A, sending B and then finishing A leaves A's two messages: B's message is lost and loading ends while B is in flight |
| AppShell.StaleCompletionIgnored | App.tsx:141-212 | corrected, the same sequence keeps B's message and placeholder and B stays loading |
| OtpForms.FormatTimeReadsBack | components/auth/OTPLogin.tsx:88-92 | the text is the minutes, one colon, then exactly two digits that read back as the seconds |
| OtpForms.FullTimeShown | components/auth/OTPLogin.tsx:15 | the countdown's start shows "5:00" |
| OtpForms.PaddedSecondsShown | components/auth/OTPVerification.tsx:81-85 | 65 seconds shows "1:05", the seconds padded with a zero |
| OtpForms.SetCell | components/auth/OTPLogin.tsx:67-72 | a value longer than one character is ignored; otherwise only that cell changes, and cells stay at most one character |
| OtpForms.JoinedLength | components/auth/OTPLogin.tsx:50 | the joined code is at most as long as the number of cells, and exactly that long when every cell is filled |
| OtpForms.CompleteIffAllFilled | components/auth/OTPLogin.tsx:50-51 | the code reaches the service exactly when all four cells are filled |
| OtpForms.LoginForm.constructor | components/auth/OTPLogin.tsx:10-16 | the form starts on the e-mail step with four empty cells, a five-minute timer and resending off |
| OtpForms.LoginForm.Tick | components/auth/OTPLogin.tsx:18-26 | the countdown runs only on the code step while time is left, and resending turns on at zero |
| OtpForms.LoginForm.SetEmail | components/auth/OTPLogin.tsx:11 | only the e-mail changes |
| OtpForms.LoginForm.ChangeCell | components/auth/OTPLogin.tsx:67-79 | the cells change as the cell editor says |
| OtpForms.LoginForm.ChangeEmail | components/auth/OTPLogin.tsx:147-153 | "Change email" returns to the e-mail step and keeps the e-mail, the cells and the countdown, which then stops |
| OtpForms.LoginForm.SendCode | components/auth/OTPLogin.tsx:28-43 | on success the code step starts with a full countdown, resending off and no error; on failure only the error shows; loading ends either way |
| OtpForms.LoginForm.VerifyCode | components/auth/OTPLogin.tsx:45-65 | an incomplete code is refused with the source's message before the service is asked; otherwise the service's token is passed on or its error shown |
| OtpForms.VerificationForm.constructor | components/auth/OTPVerification.tsx:11-17 | four empty cells, a five-minute timer, resending off, nothing loading |
| OtpForms.VerificationForm.Tick | components/auth/OTPVerification.tsx:19-27 | the countdown runs while time is left, and resending turns on at zero |
| OtpForms.VerificationForm.ChangeCell | components/auth/OTPVerification.tsx:65-73 | the cells change as the cell editor says |
| OtpForms.VerificationForm.VerifyCode | components/auth/OTPVerification.tsx:29-49 | an incomplete code is refused before the service is asked; otherwise the token is passed on or the error shown |
| OtpForms.VerificationForm.Resend | components/auth/OTPVerification.tsx:51-63 | success restarts the countdown with resending off; failure shows the error; the resend spinner ends either way |
| ThemeSync.DefaultsFollowViews | constants/appConstants.ts:21-26 | out of the box themes follow the view and the layout is comfortable |
| ThemeSync.MappingTable | constants/appConstants.ts:8-19 | exactly the ten listed views have a theme; chat dark, code solarized dark, builder midnight, workspace royal; live, GitHub and planner share aurora; settings, dashboard and about have none |
| ThemeSync.ThemeRule | hooks/useModeThemeSync.ts:13-26 | with automatic theming off nothing is set; emotional chat is royal; otherwise the view's theme is set exactly when the table has one |
| ThemeSync.EmotionalOnlyInChat | hooks/useModeThemeSync.ts:17-20 | the emotional flag matters only in the chat view |
| ThemeSync.EmotionalChatIsRoyal | hooks/useModeThemeSync.ts:17-24 | with automatic theming on, chat is dark, or royal when emotional |
| ThemeSync.ThemeProvider.constructor | hooks/useModeThemeSync.ts:11 | the provider holds the initial theme |
| ThemeSync.ThemeProvider.Sync | hooks/useModeThemeSync.ts:13-26 | the current theme becomes the one the rule picks, and stays unchanged when the rule picks none |

## Left out

- The audio platform is abstract. `AudioContext`, `getUserMedia`, the script processor and the live transport are not modelled; a handle is a flag, the clock is `now`, a decoded chunk is its duration, and a source is a number.
- The microphone volume meter (`sqrt` of a sum of squares on floats) is not modelled.
- `float32ToInt16` and the base64 audio helpers live in `utils/audioUtils`, which is not part of this model.
- The live session's system instruction with the India time string is not modelled. The clock's text formatting is locale code.
- The tool response is recorded when the call is handled. The source sends it once the session promise resolves; that asynchrony is left out.
- LiveAudio.DownsampleBuffer: the ratio and floors are exact rational arithmetic, not floating point. For rates where `in / out` is not exactly representable, the source's indices can differ by one.
- Network calls are oracles: the model API, the GitHub API, `authService`, and the SMTP sending of `send_email_otp` (which is not modelled).
- Cryptography and randomness are parameters: SHA-256 in `hash_otp`, PBKDF2 hashing and checking, `secrets.randbelow`, `crypto.randomUUID`, the retry jitter from `Math.random`, and `Date.now`/`utcnow`.
- Persistence is modelled as maps and sequences: the SQLAlchemy session as the two tables, and localStorage as an optional string. `JSON.parse` of the stored projects is given by its outcome (`AppBuilder.Parsed`).
- `useChatSessions` is not part of this model. The session save is the returned `AppShell.SessionSave` value.
- The offline assistant (`OfflineService.processMessage`) is not part of this model. Its reply is a parameter of `AppShell.Conversation.Offline`.
- `processCode` in the app builder preview (import and export rewriting by regular expressions) is a parameter `process` of the bundling; its rewriting is not modelled.
- Regular expressions are modelled per pattern, on the characters they read: Mermaid's three rules, the speech clean-up, the repository URL pattern and the file-tag pattern. A general regular-expression engine is not modelled. `Object.keys` order of the VFS is a parameter (a sequence of keys).
- The `.` of the lazy patterns stops at the four ECMAScript line terminators only.
- JsText.ToLower: lower-cases ASCII letters only. `toLowerCase` also maps non-ASCII letters; the model's comparisons ("afzal", "quota_exceeded", "429", search terms) are stated for ASCII.
- String lengths count Unicode scalar values. JavaScript counts UTF-16 code units, which differ for characters outside the Basic Multilingual Plane (the 2000-character preview, the OTP length check).
- Voice selection, the speech engine and the recognition engine are not modelled. The engine is reduced to the utterance it was asked to speak, and recognition events are method calls.
- MessageItem.Speech.CycleSpeed: the restarted utterance in the source gets no `onerror` handler (only `onend`). The model does not distinguish the two events.
- `atob` is an oracle (`decode`) that may fail.
- File validation and attachment creation (`validateFile`, `createAttachment` in `utils/fileUtils`) are parameters; that file is not part of this model.
- InputArea.Composer.SelectFiles: the chosen files' attachments are appended in one step. The source awaits `createAttachment` file by file, so a send, a removal or an edit can run between two files; the model does not capture that interleaving (a send with part of the selection, later files landing in the cleared list).
- DOM effects are not modelled: focusing, auto-focus of the next OTP cell, `handleKeyDown` backspace focus, scrolling, and the text-area `style.height` writes (only the height value is modelled).
- Rendering is not modelled: Mermaid's renderer, export to PNG, zip export, and theme colour data.
- LiveSession.LiveController.Connect: a throw from `createMediaStreamSource` or `createScriptProcessor` after the session has opened (components/LiveMode.tsx:316-320) is not a failure stage of the model; those two Web Audio calls are taken to succeed.
- LiveSession.LiveController.Connect: `connect` is one step from start to outcome. The source awaits three times (resuming the audio contexts, `getUserMedia`, the session promise) after `isActive` is already true, and the End Session button, unmount, `onerror` or `onclose` can run `cleanup` in between. The model therefore does not capture a connect that goes on after such a cleanup and then holds the microphone and session while inactive, or one that fails on the closed context and shows "Connection Failed" after a user stop; `ToggleStopThenClose` and `ConnectOutcomes` describe a stop only after connect has finished.
- AppShell.Conversation.Partial and AppShell.Conversation.Fail: they keep the source's single shared stop flag. Only the completion has a corrected, per-request twin (see Findings).
- The `aistudio` key-picker retry (`handleKeySelection`) is not modelled.
- The GitHub view's `handleAnalyze` model call is not modelled. The manifest it sends is.
- The app builder's send guard and the VFS prompt text are not modelled. The tag round trip is stated for the prompt's file layout.

## Findings

| source | as written | input that shows it | evidently intended | confidence | as-written member | corrected member |
|---|---|---|---|---|---|---|
| components/GithubMode.tsx:16 | the arrow-label rule's first class `[^"\s]` also accepts '>' and '-' (the same line is in components/MessageItem.tsx:22) | `A --> B --> C` becomes `A -- "> B" --> C`: one edge from A to C labelled "> B", and node B is lost | a label may not start with an arrow character: `[^"\s>-]`, which leaves chains of plain arrows alone | not executed | Mermaid.ChainCounterexample | Mermaid.SanitizeKeepsChains |
| App.tsx:196 | one `abortRef` flag serves every request; sending clears it (App.tsx:144) and stopping sets it (App.tsx:432) | send A, stop, send B, then A's stream finishes: the flag is clear again, so A's reply replaces the list (B's message disappears until B's own completion writes it back) and ends B's loading state | a stopped request's later results are ignored even after a newer request starts (a per-request check) | not executed | AppShell.StaleCompletion | AppShell.StaleCompletionIgnored |

=== FILE: app_builder.dfy ===
/**
 * The app builder's project workspace: the extraction of `<file path="…">…</file>` tags from a
 * generated answer into the virtual file system (VFS), the project list and its updates, the
 * preview log, the order in which the preview bundles the files, and the load guard of the
 * stored project list.
 */
module AppBuilder {
  import opened Wrappers
  import opened JsText
  import opened SeqUtil
  import opened ChatTypes

  /** The virtual file system: file path to file content. */
  type Vfs = map<string, string>

  // ---------------------------------------------------------------------------------------
  // File-tag extraction

  /** One `<file path="p">body</file>` tag: its path and its raw body. */
  datatype Tag = Tag(path: string, body: string)

  /** A tag found by the pattern, and the index just after it, where the next search starts. */
  datatype TagMatch = TagMatch(tag: Tag, end: nat)

  const FileOpen := "<file"
  const PathAttr := "path="
  const FileClose := "</file>"

  predicate IsQuote(c: char) {
    c == '"' || c == '\''
  }

  predicate IsAsciiLetter(c: char) {
    'a' <= c <= 'z' || 'A' <= c <= 'Z'
  }

  /** Whether `pat` occurs in `s` at index `i`. */
  predicate OccursAt(s: string, pat: string, i: nat) {
    i + |pat| <= |s| && s[i..i + |pat|] == pat
  }

  /** The character classes the pattern repeats: `\s`, `[^"']`, `[^>]` and `[a-z]` under the `i` flag. */
  datatype CharClass = Space | NonQuote | NonGt | Letter

  predicate InClass(c: char, cls: CharClass) {
    match cls
    case Space => IsSpace(c)
    case NonQuote => !IsQuote(c)
    case NonGt => c != '>'
    case Letter => IsAsciiLetter(c)
  }

  /** The length of the longest run of characters of class `cls` from index `i`. */
  function RunOf(s: string, i: nat, cls: CharClass): (n: nat)
    requires i <= |s|
    ensures i + n <= |s|
    decreases |s| - i
  {
    if i == |s| || !InClass(s[i], cls) then 0 else 1 + RunOf(s, i + 1, cls)
  }

  /** A run of `n` characters of the class, ended by the end of `s` or by another character, is the longest run. */
  lemma {:induction false} RunOfIs(s: string, i: nat, cls: CharClass, n: nat)
    requires i + n <= |s|
    requires forall k :: i <= k < i + n ==> InClass(s[k], cls)
    requires i + n == |s| || !InClass(s[i + n], cls)
    ensures RunOf(s, i, cls) == n
    decreases n
  {
    if n > 0 {
      RunOfIs(s, i + 1, cls, n - 1);
    }
  }

  /** The first index at or after `from` where `pat` occurs. */
  function FindFrom(s: string, pat: string, from: nat): (r: Option<nat>)
    requires pat != [] && from <= |s|
    ensures r.Some? ==> from <= r.value && r.value + |pat| <= |s|
    decreases |s| - from
  {
    if from + |pat| > |s| then None
    else if OccursAt(s, pat, from) then Some(from)
    else FindFrom(s, pat, from + 1)
  }

  /** An occurrence with none before it from `from` on is the one found. */
  lemma {:induction false} FindFromIs(s: string, pat: string, from: nat, e: nat)
    requires pat != [] && from <= e && OccursAt(s, pat, e)
    requires forall j :: from <= j < e ==> !OccursAt(s, pat, j)
    ensures FindFrom(s, pat, from) == Some(e)
    decreases e - from
  {
    if from < e {
      FindFromIs(s, pat, from + 1, e);
    }
  }

  /**
   * The opening part of the tag pattern, `<file\s+path=["']`, at index `i`: the index of the
   * first path character. `\s+` is followed by a non-space, so it takes the whole run of spaces.
   */
  function PathStart(text: string, i: nat): (r: Option<nat>)
    ensures r.Some? ==> i < r.value <= |text|
  {
    if !OccursAt(text, FileOpen, i) then None
    else
      var afterOpen := i + |FileOpen|;
      var spaces := RunOf(text, afterOpen, Space);
      var attr := afterOpen + spaces;
      if spaces == 0 || !OccursAt(text, PathAttr, attr) then None
      else
        var quote := attr + |PathAttr|;
        if quote == |text| || !IsQuote(text[quote]) then None
        else Some(quote + 1)
  }

  /**
   * From the first path character: `([^"']+)["'][^>]*>`, giving the end of the path and the index
   * of the `>`. Each repetition is followed by a character it cannot match, so it takes its
   * longest run.
   */
  function PathAndGt(text: string, p: nat): (r: Option<(nat, nat)>)
    requires p <= |text|
    ensures r.Some? ==> p < r.value.0 < r.value.1 < |text|
  {
    var pathLength := RunOf(text, p, NonQuote);
    var pathEnd := p + pathLength;
    if pathLength == 0 || pathEnd == |text| then None
    else
      var gt := pathEnd + 1 + RunOf(text, pathEnd + 1, NonGt);
      if gt == |text| then None else Some((pathEnd, gt))
  }

  /** The whole tag pattern `<file\s+path=["']([^"']+)["'][^>]*>([\s\S]*?)<\/file>` tried at index `i`; the lazy body ends at the first closing tag. */
  function MatchAt(text: string, i: nat): (r: Option<TagMatch>)
    ensures r.Some? ==> i < r.value.end <= |text|
  {
    match PathStart(text, i)
    case None => None
    case Some(p) =>
      match PathAndGt(text, p)
      case None => None
      case Some((pathEnd, gt)) =>
        match FindFrom(text, FileClose, gt + 1)
        case None => None
        case Some(close) => Some(TagMatch(Tag(text[p..pathEnd], text[gt + 1..close]), close + |FileClose|))
  }

  /** `tagPattern.exec(text)` with `lastIndex == from`: the match at the first index from `from` on. */
  function NextMatch(text: string, from: nat): (r: Option<TagMatch>)
    requires from <= |text|
    ensures r.Some? ==> from < r.value.end <= |text|
    decreases |text| - from
  {
    if from == |text| then None
    else
      match MatchAt(text, from)
      case Some(m) => Some(m)
      case None => NextMatch(text, from + 1)
  }

  /** Every tag the global pattern finds in `text` from index `from` on, in order. */
  function Tags(text: string, from: nat): seq<Tag>
    requires from <= |text|
    decreases |text| - from
  {
    match NextMatch(text, from)
    case None => []
    case Some(m) => [m.tag] + Tags(text, m.end)
  }

  const Fence := "```"

  /** `replace(/^```[a-z]*\n/i, '')`: drops an opening fence line with its language name. */
  function StripOpeningFence(s: string): string {
    if !StartsWith(s, Fence) then s
    else
      var lang := RunOf(s, |Fence|, Letter);
      if |Fence| + lang < |s| && s[|Fence| + lang] == '\n' then s[|Fence| + lang + 1..] else s
  }

  /** `replace(/\n```$/g, '')`: drops a closing fence at the very end. */
  function StripClosingFence(s: string): string {
    if EndsWith(s, "\n" + Fence) then s[..|s| - |Fence| - 1] else s
  }

  /** The content stored for a tag: the body trimmed, then its fences removed. */
  function CleanBody(body: string): string {
    StripClosingFence(StripOpeningFence(Trim(body)))
  }

  /** The VFS after storing every tag in order: a later tag for a path overwrites an earlier one. */
  function ApplyTags(vfs: Vfs, tags: seq<Tag>): Vfs {
    if tags == [] then vfs
    else
      var last := tags[|tags| - 1];
      ApplyTags(vfs, tags[..|tags| - 1])[last.path := CleanBody(last.body)]
  }

  /** One step of the search: the tags found so far grow by the next match, and the search resumes after it. */
  lemma TagsStep(text: string, from: nat, done: seq<Tag>, m: TagMatch)
    requires from <= |text| && NextMatch(text, from) == Some(m)
    requires Tags(text, 0) == done + Tags(text, from)
    ensures Tags(text, 0) == (done + [m.tag]) + Tags(text, m.end)
  {
    assert Tags(text, from) == [m.tag] + Tags(text, m.end);
    assert (done + [m.tag]) + Tags(text, m.end) == done + ([m.tag] + Tags(text, m.end));
  }

  lemma ApplyStep(vfs: Vfs, done: seq<Tag>, t: Tag)
    ensures ApplyTags(vfs, done + [t]) == ApplyTags(vfs, done)[t.path := CleanBody(t.body)]
  {
    assert (done + [t])[..|done|] == done;
  }

  /**
   * The extraction loop: starting from a copy of the VFS, every match sets its path to the
   * cleaned body and is counted.
   */
  method ExtractUpdates(vfs: Vfs, text: string) returns (updates: Vfs, count: nat)
    ensures updates == ApplyTags(vfs, Tags(text, 0))
    ensures count == |Tags(text, 0)|
  {
    updates, count := vfs, 0;
    var lastIndex := 0;
    ghost var done: seq<Tag> := [];
    var found := NextMatch(text, lastIndex);
    while found.Some?
      invariant lastIndex <= |text| && found == NextMatch(text, lastIndex)
      invariant Tags(text, 0) == done + Tags(text, lastIndex)
      invariant updates == ApplyTags(vfs, done) && count == |done|
      decreases |text| - lastIndex
    {
      var m := found.value;
      TagsStep(text, lastIndex, done, m);
      ApplyStep(vfs, done, m.tag);
      updates := updates[m.tag.path := CleanBody(m.tag.body)];
      count := count + 1;
      done := done + [m.tag];
      lastIndex := m.end;
      found := NextMatch(text, lastIndex);
    }
    assert done + [] == done;
  }

  /** A path no tag names keeps its old content (or stays absent). */
  lemma {:induction false} ApplyKeepsUnmentioned(vfs: Vfs, tags: seq<Tag>, p: string)
    requires forall i :: 0 <= i < |tags| ==> tags[i].path != p
    ensures p in ApplyTags(vfs, tags) <==> p in vfs
    ensures p in vfs ==> ApplyTags(vfs, tags)[p] == vfs[p]
  {
    if tags != [] {
      ApplyKeepsUnmentioned(vfs, tags[..|tags| - 1], p);
    }
  }

  /** The last tag for a path decides its content. */
  lemma {:induction false} ApplyLastWins(vfs: Vfs, tags: seq<Tag>, i: nat)
    requires i < |tags|
    requires forall j :: i < j < |tags| ==> tags[j].path != tags[i].path
    ensures tags[i].path in ApplyTags(vfs, tags)
    ensures ApplyTags(vfs, tags)[tags[i].path] == CleanBody(tags[i].body)
  {
    if i < |tags| - 1 {
      ApplyLastWins(vfs, tags[..|tags| - 1], i);
    }
  }

  /** The text of one tag as the builder writes the current VFS into its prompt. */
  function TagText(path: string, body: string): string {
    FileOpen + " " + PathAttr + "\"" + path + "\">" + body + FileClose
  }

  /** No character of the closing tag after its first is '<', so two occurrences cannot overlap. */
  lemma CloseTagUnbordered(s: string, e: nat, j: nat)
    requires j < e < j + |FileClose| && e < |s| && s[e] == '<'
    ensures !OccursAt(s, FileClose, j)
  {
  }

  lemma SliceOfSlice<T>(s: seq<T>, lo: nat, hi: nat, i: nat, j: nat)
    requires lo <= hi <= |s| && i <= j <= hi - lo
    ensures s[lo..hi][i..j] == s[lo + i..lo + j]
  {
    forall k | 0 <= k < j - i
      ensures s[lo..hi][i..j][k] == s[lo + i..lo + j][k]
    {
    }
  }

  /** In a body followed by the closing tag, the first closing tag is the appended one. */
  lemma FirstClose(s: string, b: nat, body: string)
    requires b + |body| + |FileClose| == |s|
    requires s[b..b + |body|] == body && s[b + |body|..] == FileClose
    requires forall j :: !OccursAt(body, FileClose, j)
    ensures FindFrom(s, FileClose, b) == Some(b + |body|)
  {
    var e := b + |body|;
    assert OccursAt(s, FileClose, e);
    forall j | b <= j < e
      ensures !OccursAt(s, FileClose, j)
    {
      if j + |FileClose| <= e {
        SliceOfSlice(s, b, b + |body|, j - b, j - b + |FileClose|);
        assert !OccursAt(body, FileClose, j - b);
      } else {
        assert s[e] == FileClose[0];
        CloseTagUnbordered(s, e, j);
      }
    }
    FindFromIs(s, FileClose, b, e);
  }

  /** The opening of a written tag is recognised, and the path starts after its quote. */
  lemma OpeningRecognised(text: string)
    requires |text| > 12 && text[..12] == FileOpen + " " + PathAttr + "\""
    ensures PathStart(text, 0) == Some(12)
  {
    var head := text[..12];
    assert text[..5] == head[..5] == FileOpen;
    assert text[6..11] == head[6..11] == PathAttr;
    assert text[5] == head[5] == ' ' && text[6] == head[6] == 'p' && text[11] == head[11] == '"';
    RunOfIs(text, 5, Space, 1);
  }

  /** A non-empty quote-free path between quotes and a `>` right after give the path end and the `>`. */
  lemma PathRecognised(text: string, p: nat, path: string)
    requires path != [] && forall k :: 0 <= k < |path| ==> !IsQuote(path[k])
    requires p + |path| + 1 < |text| && text[p..p + |path|] == path
    requires text[p + |path|] == '"' && text[p + |path| + 1] == '>'
    ensures PathAndGt(text, p) == Some((p + |path|, p + |path| + 1))
  {
    forall k | p <= k < p + |path|
      ensures !IsQuote(text[k])
    {
      assert text[k] == path[k - p];
    }
    RunOfIs(text, p, NonQuote, |path|);
    RunOfIs(text, p + |path| + 1, NonGt, 0);
  }

  /**
   * The extractor reads back what the prompt writes: a tag with a non-empty, quote-free path and
   * a body without a closing tag is found with exactly that path and body.
   */
  lemma TagRoundTrip(path: string, body: string)
    requires path != [] && forall k :: 0 <= k < |path| ==> !IsQuote(path[k])
    requires forall j :: !OccursAt(body, FileClose, j)
    ensures Tags(TagText(path, body), 0) == [Tag(path, body)]
  {
    TagTextLayout(path, body);
    MatchOfLayout(TagText(path, body), path, body);
    SingleMatch(TagText(path, body), Tag(path, body));
  }

  /** A text laid out as one tag is matched at its start, up to its end. */
  lemma MatchOfLayout(text: string, path: string, body: string)
    requires path != [] && forall k :: 0 <= k < |path| ==> !IsQuote(path[k])
    requires forall j :: !OccursAt(body, FileClose, j)
    requires |text| == 12 + |path| + 2 + |body| + |FileClose|
    requires text[..12] == FileOpen + " " + PathAttr + "\""
    requires text[12..12 + |path|] == path
    requires text[12 + |path|] == '"' && text[13 + |path|] == '>'
    requires text[14 + |path|..14 + |path| + |body|] == body
    requires text[14 + |path| + |body|..] == FileClose
    ensures MatchAt(text, 0) == Some(TagMatch(Tag(path, body), |text|))
  {
    OpeningRecognised(text);
    PathRecognised(text, 12, path);
    FirstClose(text, 14 + |path|, body);
    MatchFromParts(text, path, body);
  }

  /** A match that ends the text is the only tag found. */
  lemma SingleMatch(text: string, tag: Tag)
    requires MatchAt(text, 0) == Some(TagMatch(tag, |text|))
    ensures Tags(text, 0) == [tag]
  {
    assert NextMatch(text, |text|) == None;
  }

  /** Where the parts of a written tag sit in its text. */
  lemma TagTextLayout(path: string, body: string)
    ensures var text := TagText(path, body);
      && |text| == 12 + |path| + 2 + |body| + |FileClose|
      && text[..12] == FileOpen + " " + PathAttr + "\""
      && text[12..12 + |path|] == path
      && text[12 + |path|] == '"' && text[13 + |path|] == '>'
      && text[14 + |path|..14 + |path| + |body|] == body
      && text[14 + |path| + |body|..] == FileClose
  {
    var head := FileOpen + " " + PathAttr + "\"";
    var text := TagText(path, body);
    assert text == head + path + "\">" + body + FileClose;
  }

  /** The three parts of the pattern found in a row make one match. */
  lemma MatchFromParts(text: string, path: string, body: string)
    requires |text| == 12 + |path| + 2 + |body| + |FileClose|
    requires PathStart(text, 0) == Some(12)
    requires PathAndGt(text, 12) == Some((12 + |path|, 13 + |path|))
    requires FindFrom(text, FileClose, 14 + |path|) == Some(14 + |path| + |body|)
    requires text[12..12 + |path|] == path && text[14 + |path|..14 + |path| + |body|] == body
    ensures MatchAt(text, 0) == Some(TagMatch(Tag(path, body), |text|))
  {
  }

  /** A fenced code block, as models often wrap a file body. */
  function Fenced(lang: string, code: string): string {
    Fence + lang + "\n" + code + "\n" + Fence
  }

  /** A fenced block is its own trim: it starts and ends with a backtick. */
  lemma FencedIsTrimmed(lang: string, code: string)
    ensures Trim(Fenced(lang, code)) == Fenced(lang, code)
  {
    var w := Fenced(lang, code);
    var empty: string := [];
    assert w[0] == '`' && w[|w| - 1] == '`';
    assert empty + w + empty == w;
    TrimPadded(empty, w, empty);
  }

  /** The opening fence line of a fenced block, with a letters-only language name, is dropped. */
  lemma OpeningFenceDropped(lang: string, code: string)
    requires forall i :: 0 <= i < |lang| ==> IsAsciiLetter(lang[i])
    ensures StripOpeningFence(Fenced(lang, code)) == code + "\n" + Fence
  {
    var w := Fenced(lang, code);
    assert w == Fence + (lang + "\n" + code + "\n" + Fence);
    assert w[..3] == Fence;
    forall k | 3 <= k < 3 + |lang|
      ensures IsAsciiLetter(w[k])
    {
      assert w[k] == lang[k - 3];
    }
    assert w[3 + |lang|] == '\n';
    RunOfIs(w, 3, Letter, |lang|);
    assert w[3 + |lang| + 1..] == code + "\n" + Fence;
  }

  /** Cleaning a fenced block with a letters-only language name gives back exactly the code inside. */
  lemma CleanFenced(lang: string, code: string)
    requires forall i :: 0 <= i < |lang| ==> IsAsciiLetter(lang[i])
    ensures CleanBody(Fenced(lang, code)) == code
  {
    FencedIsTrimmed(lang, code);
    OpeningFenceDropped(lang, code);
    var rest := code + "\n" + Fence;
    assert StripOpeningFence(Trim(Fenced(lang, code))) == rest;
    assert EndsWith(rest, "\n" + Fence) by {
      assert rest[|rest| - 4..] == "\n" + Fence;
    }
    assert rest[..|rest| - |Fence| - 1] == code;
  }

  // ---------------------------------------------------------------------------------------
  // Projects

  datatype Screen = ProjectsScreen | WorkspaceScreen

  datatype Project = Project(id: string, name: string, vfs: Vfs, createdAt: int, updatedAt: int)

  /** The builder's state: the screen, the stored projects, the open project and its files, the conversation and the log. */
  datatype Builder = Builder(
    screen: Screen,
    projects: seq<Project>,
    activeId: Option<string>,
    vfs: Vfs,
    activeFile: string,
    messages: seq<Message>,
    logs: seq<string>,
    testReport: Option<string>,
    previewKey: nat,
    initialized: bool)

  const EntryFile := "App.tsx"
  const StylesFile := "styles.css"

  const Initial := Builder(ProjectsScreen, [], None, map[], EntryFile, [], ["> Workspace initialized. Ready to build."], None, 0, false)

  /** `if (activeProjectId)`: an open project whose id is not the empty string. */
  predicate HasActive(b: Builder) {
    b.activeId.Some? && b.activeId.value != ""
  }

  /** `projects.map(p => p.id === id ? { ...p, vfs, updatedAt: now } : p)`. */
  function SetProjectVfs(projects: seq<Project>, id: string, vfs: Vfs, now: int): (r: seq<Project>)
    ensures |r| == |projects|
    ensures forall i :: 0 <= i < |r| ==> r[i] == if projects[i].id == id then projects[i].(vfs := vfs, updatedAt := now) else projects[i]
  {
    seq(|projects|, i requires 0 <= i < |projects| => if projects[i].id == id then projects[i].(vfs := vfs, updatedAt := now) else projects[i])
  }

  /**
   * `handleFileChange`: the active file gets the new content and nothing else in the VFS changes;
   * only the open project takes the new VFS, and only when a project is open.
   */
  function FileChange(b: Builder, content: string, now: int): (r: Builder)
    ensures b.activeFile in r.vfs && r.vfs[b.activeFile] == content
    ensures forall p :: p != b.activeFile ==> (p in r.vfs <==> p in b.vfs) && (p in b.vfs ==> r.vfs[p] == b.vfs[p])
    ensures |r.projects| == |b.projects|
    ensures forall i :: 0 <= i < |b.projects| && !(HasActive(b) && b.projects[i].id == b.activeId.value) ==>
      r.projects[i] == b.projects[i]
    ensures forall i :: 0 <= i < |b.projects| && HasActive(b) && b.projects[i].id == b.activeId.value ==>
      r.projects[i].vfs == r.vfs && r.projects[i].updatedAt == now && r.projects[i].id == b.projects[i].id
    ensures r == b.(vfs := r.vfs, projects := r.projects)
  {
    var updated := b.vfs[b.activeFile := content];
    b.(vfs := updated, projects := if HasActive(b) then SetProjectVfs(b.projects, b.activeId.value, updated, now) else b.projects)
  }

  /** `projects.find(p => p.id === id)`. */
  function FindProject(projects: seq<Project>, id: string): (r: Option<Project>)
    ensures r.Some? ==> r.value in projects && r.value.id == id
    ensures r.None? ==> forall p :: p in projects ==> p.id != id
  {
    if projects == [] then None
    else if projects[0].id == id then Some(projects[0])
    else FindProject(projects[1..], id)
  }

  /** The projects whose id is not `id`, in their order (`prev.filter(p => p.id !== id)`). */
  function Kept(projects: seq<Project>, id: string): (r: seq<Project>)
    ensures forall p :: p in r <==> p in projects && p.id != id
  {
    Filter(projects, (p: Project) => p.id != id)
  }

  /**
   * `deleteProject` with the user's answer to the confirmation: an unknown id or a refusal
   * changes nothing; otherwise the projects with that id are removed, and if it was the open
   * project the workspace is closed.
   */
  function DeleteProject(b: Builder, id: string, confirmed: bool): (r: Builder)
    ensures (forall p :: p in b.projects ==> p.id != id) || !confirmed ==> r == b
    ensures (exists p :: p in b.projects && p.id == id) && confirmed ==>
      && (forall p :: p in r.projects <==> p in b.projects && p.id != id)
      && (b.activeId == Some(id) ==> r.activeId == None && r.vfs == map[] && r.screen == ProjectsScreen)
      && (b.activeId != Some(id) ==> r.activeId == b.activeId && r.vfs == b.vfs && r.screen == b.screen)
      && |r.logs| == |b.logs| + 1 && r.logs[..|b.logs|] == b.logs
    ensures FindProject(b.projects, id).Some? && confirmed ==>
      && r.projects == Kept(b.projects, id)
      && r.logs == b.logs + ["> System: Purged " + FindProject(b.projects, id).value.name + "."]
      && r == b.(projects := r.projects, activeId := r.activeId, vfs := r.vfs, screen := r.screen, logs := r.logs)
  {
    match FindProject(b.projects, id)
    case None => b
    case Some(target) =>
      if !confirmed then b
      else
        var kept := Kept(b.projects, id);
        var logs := b.logs + ["> System: Purged " + target.name + "."];
        if b.activeId == Some(id) then b.(projects := kept, activeId := None, vfs := map[], screen := ProjectsScreen, logs := logs)
        else b.(projects := kept, logs := logs)
  }

  const AppTemplate :=
    "import React from 'react';\n" +
    "import { User, Heart } from 'lucide-react';\n" +
    "\n" +
    "export default function App() {\n" +
    "  const [count, setCount] = React.useState(0);\n" +
    "\n" +
    "  return (\n" +
    "    <div className=\"flex items-center justify-center h-screen bg-gray-900 text-white p-4\">\n" +
    "      <div className=\"text-center p-12 bg-white/5 backdrop-blur-2xl border border-white/10 rounded-[3rem] shadow-2xl transition-all hover:border-blue-500/30\">\n" +
    "        <div className=\"relative w-24 h-24 mx-auto mb-8\">\n" +
    "          <div className=\"absolute inset-0 bg-blue-500 blur-2xl opacity-20 animate-pulse\" />\n" +
    "          <User className=\"w-full h-full text-blue-500 relative z-10\" />\n" +
    "        </div>\n" +
    "        \n" +
    "        <h1 className=\"text-5xl font-black mb-4 tracking-tighter bg-gradient-to-r from-blue-400 to-indigo-400 bg-clip-text text-transparent\">\n" +
    "          Zara Studio\n" +
    "        </h1>\n" +
    "        <p className=\"text-gray-400 mb-8 max-w-xs mx-auto\">Live preview is active. Change the code and see it update instantly.</p>\n" +
    "        \n" +
    "        <button \n" +
    "          onClick={() => setCount(c => c + 1)}\n" +
    "          className=\"flex items-center gap-3 bg-blue-600 hover:bg-blue-500 px-8 py-4 rounded-2xl font-black text-xs uppercase tracking-widest transition-all shadow-lg shadow-blue-600/20 active:scale-95\"\n" +
    "        >\n" +
    "          <Heart className={count > 0 ? \"fill-white\" : \"\"} />\n" +
    "          Likes: {count}\n" +
    "        </button>\n" +
    "      </div>\n" +
    "    </div>\n" +
    "  );\n" +
    "}"

  const StylesTemplate :=
    "@import url(\"https://fonts.googleapis.com/css2?family=Inter:wght@300;400;500;600;700;900&display=swap\");\nbody { margin: 0; font-family: \"Inter\", sans-serif; }"

  /** `loadProject`: opens the project with a fresh conversation and log. */
  function LoadProject(b: Builder, p: Project): Builder {
    b.(activeId := Some(p.id), vfs := p.vfs, messages := [], logs := ["> Loaded project: " + p.name],
       testReport := None, screen := WorkspaceScreen)
  }

  /**
   * `createNewProject` with the new id and the two clock readings taken for `createdAt` and
   * `updatedAt`: the project is named after the count, goes to the front of the list with exactly
   * the two seed files and those times, and is opened.
   */
  function CreateNewProject(b: Builder, id: string, created: int, updated: int): (r: Builder)
    ensures |r.projects| == |b.projects| + 1 && r.projects[1..] == b.projects
    ensures r.projects[0].id == id && r.projects[0].name == "New App " + NatToDecimal(|b.projects| + 1)
    ensures r.projects[0].vfs.Keys == {EntryFile, StylesFile}
    ensures r.projects[0].createdAt == created && r.projects[0].updatedAt == updated
    ensures r.projects[0].vfs == map[EntryFile := AppTemplate, StylesFile := StylesTemplate]
    ensures r.activeId == Some(id) && r.vfs == r.projects[0].vfs && r.screen == WorkspaceScreen && r.messages == []
    ensures r.logs == ["> Loaded project: " + r.projects[0].name] && r.testReport == None
    ensures r == b.(projects := r.projects, activeId := r.activeId, vfs := r.vfs, screen := r.screen,
                    messages := r.messages, logs := r.logs, testReport := r.testReport)
  {
    var p := Project(id, "New App " + NatToDecimal(|b.projects| + 1), map[EntryFile := AppTemplate, StylesFile := StylesTemplate], created, updated);
    LoadProject(b.(projects := [p] + b.projects), p)
  }

  function SyncLog(count: nat): string {
    "> Architect: Synchronized " + NatToDecimal(count) + " files."
  }

  /**
   * The end of `handleSendMessage`: with no tag matched nothing changes; otherwise the VFS
   * becomes the updates, the preview reloads, the log records the count and the open project
   * (only) takes the new VFS.
   */
  function AfterGeneration(b: Builder, updates: Vfs, count: nat, now: int): (r: Builder)
    ensures count == 0 ==> r == b
    ensures count > 0 ==> r.vfs == updates && r.previewKey == b.previewKey + 1 && r.logs == b.logs + [SyncLog(count)]
    ensures r == b.(projects := r.projects, vfs := r.vfs, logs := r.logs, previewKey := r.previewKey)
    ensures |r.projects| == |b.projects|
    ensures forall i :: 0 <= i < |b.projects| && !(count > 0 && HasActive(b) && b.projects[i].id == b.activeId.value) ==>
      r.projects[i] == b.projects[i]
    ensures forall i :: 0 <= i < |b.projects| && count > 0 && HasActive(b) && b.projects[i].id == b.activeId.value ==>
      r.projects[i].vfs == updates
  {
    if count == 0 then b
    else
      b.(vfs := updates, logs := b.logs + [SyncLog(count)], previewKey := b.previewKey + 1,
         projects := if HasActive(b) then SetProjectVfs(b.projects, b.activeId.value, updates, now) else b.projects)
  }

  /** An answer without any tag leaves the whole builder state as it was. */
  lemma NoTagsNoChange(b: Builder, text: string, now: int)
    requires NextMatch(text, 0) == None
    ensures AfterGeneration(b, ApplyTags(b.vfs, Tags(text, 0)), |Tags(text, 0)|, now) == b
  {
  }

  // ---------------------------------------------------------------------------------------
  // Preview

  const LogCap: nat := 50

  /** A message posted by the preview frame: its type and its text. */
  datatype PreviewEvent = PreviewEvent(kind: string, log: string)

  /**
   * The preview message handler: a LOG or ERROR message is appended to the log, which then
   * keeps only its last 50 entries; any other message is ignored.
   */
  function PreviewLog(logs: seq<string>, event: Option<PreviewEvent>): (r: seq<string>)
    ensures event.Some? && (event.value.kind == "LOG" || event.value.kind == "ERROR") ==>
      && |r| == (if |logs| + 1 < LogCap then |logs| + 1 else LogCap)
      && r[|r| - 1] == "> [Preview] " + event.value.log
      && forall i :: 0 <= i < |r| - 1 ==> r[i] == logs[|logs| + 1 - |r| + i]
    ensures !(event.Some? && (event.value.kind == "LOG" || event.value.kind == "ERROR")) ==> r == logs
  {
    if event.Some? && (event.value.kind == "LOG" || event.value.kind == "ERROR") then
      var appended := logs + ["> [Preview] " + event.value.log];
      var r := LastN(appended, LogCap);
      assert r[|r| - 1] == appended[|appended| - 1];
      r
    else logs
  }

  predicate IsScriptFile(f: string) {
    EndsWith(f, ".js") || EndsWith(f, ".jsx") || EndsWith(f, ".ts") || EndsWith(f, ".tsx")
  }

  /** A key whose value is a non-empty string (`vfs[k] || …` falls back otherwise). */
  predicate Present(vfs: Vfs, k: string) {
    k in vfs && vfs[k] != ""
  }

  const DefaultHtml := "<div id=\"root\"></div>"

  /** The page body of the preview: `index.html` when it has content, otherwise an empty root element. */
  function PreviewHtml(vfs: Vfs): (r: string)
    ensures r != ""
    ensures Present(vfs, "index.html") ==> r == vfs["index.html"]
  {
    if Present(vfs, "index.html") then vfs["index.html"] else DefaultHtml
  }

  /**
   * The files the preview bundles, given the key order of the VFS: the script files other than
   * the entry file in key order, then the entry file when it has content.
   */
  function BundleOrder(vfs: Vfs, keys: seq<string>): (r: seq<string>)
    ensures forall i :: 0 <= i < |r| - 1 ==> r[i] != EntryFile
    ensures EntryFile in r <==> Present(vfs, EntryFile)
    ensures Present(vfs, EntryFile) ==> r[|r| - 1] == EntryFile
    ensures forall f :: f != EntryFile ==> (f in r <==> f in keys && IsScriptFile(f))
    ensures r[..|r| - (if Present(vfs, EntryFile) then 1 else 0)] == ScriptFiles(keys)
  {
    var scripts := ScriptFiles(keys);
    assert forall i :: 0 <= i < |scripts| ==> scripts[i] != EntryFile by {
      forall i | 0 <= i < |scripts|
        ensures scripts[i] != EntryFile
      {
        assert scripts[i] in scripts;
      }
    }
    assert (scripts + [EntryFile])[..|scripts|] == scripts && (scripts + [])[..|scripts|] == scripts;
    scripts + if Present(vfs, EntryFile) then [EntryFile] else []
  }

  /** The keys of `keys` that are script files other than the entry file, in key order. */
  function ScriptFiles(keys: seq<string>): (r: seq<string>)
    ensures forall f :: f in r <==> f in keys && IsScriptFile(f) && f != EntryFile
  {
    Filter(keys, (f: string) => IsScriptFile(f) && f != EntryFile)
  }

  /** The bundle text of one file. */
  function Section(file: string, code: string): string {
    "\n/* --- " + file + " --- */\n" + code + "\n"
  }

  /** The sections of `files` in order, each file's code passed through `process`. */
  function Bundle(vfs: Vfs, files: seq<string>, process: string -> string): string
    requires forall f :: f in files ==> f in vfs
  {
    if files == [] then ""
    else
      var last := files[|files| - 1];
      Bundle(vfs, files[..|files| - 1], process) + Section(last, process(vfs[last]))
  }

  /**
   * The bundling loop of the preview: the script files in key order, then the entry file.
   * `keys` is `Object.keys(vfs)`.
   */
  method BundleJs(vfs: Vfs, keys: seq<string>, process: string -> string) returns (js: string)
    requires forall k :: k in keys ==> k in vfs
    ensures js == Bundle(vfs, BundleOrder(vfs, keys), process)
  {
    var scripts := ScriptFiles(keys);
    js := "";
    for i := 0 to |scripts|
      invariant js == Bundle(vfs, scripts[..i], process)
    {
      assert scripts[..i + 1][..i] == scripts[..i];
      js := js + Section(scripts[i], process(vfs[scripts[i]]));
    }
    assert scripts[..|scripts|] == scripts;
    if Present(vfs, EntryFile) {
      assert (scripts + [EntryFile])[..|scripts|] == scripts;
      js := js + Section(EntryFile, process(vfs[EntryFile]));
    } else {
      assert scripts + [] == scripts;
    }
  }

  // ---------------------------------------------------------------------------------------
  // Storage

  /** The result of `JSON.parse` on the stored text. */
  datatype Parsed = Unparseable | ParsedArray(projects: seq<Project>) | ParsedOther

  const CorruptLog := "> System: Corrupt data found. Initializing fresh."

  /**
   * The initial load: a non-empty stored text replaces the project list only when it parses
   * to an array, and a parse error is logged; the builder is then initialized either way.
   */
  function LoadStored(b: Builder, stored: Option<string>, parsed: Parsed): (r: Builder)
    ensures r.initialized
    ensures r.projects != b.projects ==> stored.Some? && stored.value != "" && parsed.ParsedArray? && r.projects == parsed.projects
    ensures stored.Some? && stored.value != "" && parsed.ParsedArray? ==> r.projects == parsed.projects
    ensures r.logs == b.logs + if stored.Some? && stored.value != "" && parsed.Unparseable? then [CorruptLog] else []
    ensures r == b.(projects := r.projects, logs := r.logs, initialized := true)
  {
    var loaded :=
      if stored.Some? && stored.value != "" then
        match parsed
        case ParsedArray(ps) => b.(projects := ps)
        case ParsedOther => b
        case Unparseable => b.(logs := b.logs + [CorruptLog])
      else b;
    loaded.(initialized := true)
  }

  /** The sync effect: once initialized, the stored list is the project list; before, storage is left alone. */
  function Persist(b: Builder, storage: Option<seq<Project>>): (r: Option<seq<Project>>)
    ensures b.initialized ==> r == Some(b.projects)
    ensures !b.initialized ==> r == storage
  {
    if b.initialized then Some(b.projects) else storage
  }

  /** The initial state never overwrites storage, and loading a stored array writes the same list back. */
  lemma StorageRoundTrip(stored: string, projects: seq<Project>, storage: Option<seq<Project>>)
    requires stored != ""
    ensures Persist(Initial, storage) == storage
    ensures Persist(LoadStored(Initial, Some(stored), ParsedArray(projects)), storage) == Some(projects)
  {
  }
}

=== FILE: app_shell.dfy ===
/**
 * The chat shell: sending a message (cutting the history when editing, appending the user
 * message and a streaming placeholder), the stream's partial, final and failed outcomes, stopping
 * a request, the session save, the creator-verification action and the font-size class.
 */
module AppShell {
  import opened Wrappers
  import opened JsText
  import opened SeqUtil
  import opened ChatTypes
  import SecurityService

  // ---------------------------------------------------------------------------------------
  // Message-list transforms
  // ---------------------------------------------------------------------------------------

  /** The ids of the messages, in order. */
  function Ids(messages: seq<Message>): (ids: seq<string>)
    ensures |ids| == |messages| && forall i :: 0 <= i < |messages| ==> ids[i] == messages[i].id
  {
    seq(|messages|, i requires 0 <= i < |messages| => messages[i].id)
  }

  /** The history a new message continues: when editing, the messages before the edited one. */
  function HistoryFor(messages: seq<Message>, editing: Option<Message>): seq<Message> {
    if editing.None? then messages
    else
      var idx := IndexOf(Ids(messages), editing.value.id);
      if idx == -1 then messages else messages[..idx]
  }

  /**
   * Without an edit, or when the edited message is not in the list, the history is the whole
   * list; otherwise it is the messages strictly before the first one with the edited id.
   */
  lemma HistoryForEdit(messages: seq<Message>, editing: Option<Message>)
    ensures var h := HistoryFor(messages, editing);
      && |h| <= |messages| && h == messages[..|h|]
      && (editing.None? || editing.value.id !in Ids(messages) ==> h == messages)
      && (editing.Some? && editing.value.id in Ids(messages) ==>
            |h| < |messages| && messages[|h|].id == editing.value.id
            && forall k :: 0 <= k < |h| ==> h[k].id != editing.value.id)
  {
    if editing.Some? {
      var idx := IndexOf(Ids(messages), editing.value.id);
      if idx != -1 {
        assert messages[..idx][..idx] == messages[..idx];
      }
    }
  }

  /** The streaming update: the message with that id gets the partial text; the rest are untouched. */
  function WithText(messages: seq<Message>, id: string, text: string): seq<Message> {
    seq(|messages|, i requires 0 <= i < |messages| =>
      if messages[i].id == id then messages[i].(text := text) else messages[i])
  }

  /** The failure update: the message with that id stops streaming and shows the error. */
  function WithError(messages: seq<Message>, id: string, text: string): seq<Message> {
    seq(|messages|, i requires 0 <= i < |messages| =>
      if messages[i].id == id then messages[i].(isStreaming := false, isError := true, text := text) else messages[i])
  }

  /** Both updates change only the messages carrying the id, and only in the fields they set. */
  lemma UpdatesTouchOnlyTheId(messages: seq<Message>, id: string, text: string)
    ensures |WithText(messages, id, text)| == |messages| && |WithError(messages, id, text)| == |messages|
    ensures forall i :: 0 <= i < |messages| && messages[i].id != id ==>
      WithText(messages, id, text)[i] == messages[i] && WithError(messages, id, text)[i] == messages[i]
    ensures forall i :: 0 <= i < |messages| && messages[i].id == id ==>
      WithText(messages, id, text)[i] == messages[i].(text := text)
      && WithError(messages, id, text)[i].text == text && WithError(messages, id, text)[i].isError
      && !WithError(messages, id, text)[i].isStreaming
      && WithError(messages, id, text)[i].attachments == messages[i].attachments
  {
  }

  /** An update for an id that no message carries changes nothing. */
  lemma UpdateOfAbsentId(messages: seq<Message>, id: string, text: string)
    requires id !in Ids(messages)
    ensures WithText(messages, id, text) == messages && WithError(messages, id, text) == messages
  {
    assert forall i :: 0 <= i < |messages| ==> messages[i].id == Ids(messages)[i];
  }

  // ---------------------------------------------------------------------------------------
  // Error text, security action and font size
  // ---------------------------------------------------------------------------------------

  const GenericError := "Zara AI is currently unstable. Please try again in a moment."
  const QuotaError := "QUOTA EXCEEDED: I've reached the API processing limit. Please wait about 30 seconds before trying again."

  /** Whether the lowercased error message names the quota. */
  predicate QuotaProblem(message: string) {
    var lower := ToLower(message);
    Contains(lower, "quota_exceeded") || Contains(lower, "429")
  }

  /** The text of a failed reply: the quota text for a quota error, the generic text otherwise. */
  function ErrorText(message: string): (r: string)
    ensures r == QuotaError <==> QuotaProblem(message)
    ensures r == GenericError <==> !QuotaProblem(message)
  {
    if QuotaProblem(message) then QuotaError else GenericError
  }

  /** A message that mentions 429 anywhere (an HTTP 429 status, say) selects the quota text. */
  lemma TooManyRequestsIsQuota(message: string)
    requires Contains(message, "429")
    ensures ErrorText(message) == QuotaError
  {
    var i := ContainsWitness(message, "429");
    var lower := ToLower(message);
    assert lower[i..i + 3] == "429" by {
      forall k | 0 <= k < 3
        ensures lower[i..i + 3][k] == "429"[k]
      {
        assert message[i..i + 3][k] == "429"[k];
      }
    }
    ContainsAt(lower, "429", i);
  }

  /** The quota marker is found whatever its case. */
  lemma UpperQuotaIsQuota(message: string)
    requires message == "QUOTA_EXCEEDED"
    ensures ErrorText(message) == QuotaError
  {
    var lower := ToLower(message);
    assert lower == "quota_exceeded";
    ContainsAt(lower, "quota_exceeded", 0);
  }

  /** An empty message (an error without a message) gets the generic text. */
  lemma EmptyMessageIsGeneric()
    ensures ErrorText("") == GenericError
  {
    assert !Contains(ToLower(""), "quota_exceeded");
    assert !Contains(ToLower(""), "429");
  }

  /** The CSS class of the chat's font size: large and small have their own, anything else is the base size. */
  function FontClass(size: string): (css: string)
    ensures size == "large" ==> css == "text-lg"
    ensures size == "small" ==> css == "text-sm"
    ensures size != "large" && size != "small" ==> css == "text-base"
  {
    if size == "large" then "text-lg" else if size == "small" then "text-sm" else "text-base"
  }

  /** The two security actions a model tool call can ask for. */
  datatype SecurityAction = VerifyAction | LogoutAction

  const LoggedOutReply := "You’ve been logged out. How can I help you?"
  const ActionFailed := "Action failed."

  // ---------------------------------------------------------------------------------------
  // The conversation
  // ---------------------------------------------------------------------------------------

  /** A request in flight: the list it was sent with (history and user message) and its reply's id and time. */
  datatype Request = Request(withUser: seq<Message>, botId: string, startedAt: int)

  /** Where a finished conversation is saved: the current session, or a new one. */
  datatype SessionSave = UpdateSession(sessionId: string, messages: seq<Message>) | CreateSession(messages: seq<Message>)

  function SaveTo(session: Option<string>, messages: seq<Message>): (s: SessionSave)
    ensures s.messages == messages
    ensures s.UpdateSession? <==> session.Some?
    ensures s.UpdateSession? ==> s.sessionId == session.value
  {
    if session.Some? then UpdateSession(session.value, messages) else CreateSession(messages)
  }

  function UserMessage(id: string, text: string, attachments: seq<Attachment>, now: int): Message {
    Message(id, UserRole, text, attachments, [], now, false, false, false)
  }

  /** The empty, streaming reply shown until the first partial text arrives. */
  function BotPlaceholder(id: string, now: int): Message {
    Message(id, ModelRole, "", [], [], now, false, true, false)
  }

  /** The finished reply: the placeholder with the final text and sources, no longer streaming. */
  function FinalReply(req: Request, text: string, sources: seq<Source>): Message {
    BotPlaceholder(req.botId, req.startedAt).(text := text, sources := sources, isStreaming := false)
  }

  /** The reply of the offline assistant. */
  function OfflineReply(req: Request, text: string, now: int): Message {
    Message(req.botId, ModelRole, text, [], [], now, false, false, true)
  }

  /**
   * The chat's state: the messages shown, the message being edited, whether a request is
   * loading, the stop flag shared by all requests, the current session, whether the creator is
   * verified, and the bot id of the request whose results are still wanted.
   */
  class Conversation {
    var messages: seq<Message>
    var editing: Option<Message>
    var isLoading: bool
    var aborted: bool
    var session: Option<string>
    var verifiedCreator: bool
    var wanted: Option<string>

    constructor(session: Option<string>, verified: bool)
      ensures messages == [] && editing.None? && !isLoading && !aborted && wanted.None?
      ensures this.session == session && verifiedCreator == verified
    {
      messages := [];
      editing := None;
      isLoading := false;
      aborted := false;
      this.session := session;
      verifiedCreator := verified;
      wanted := None;
    }

    /** The edit button of a message, and cancelling the edit. */
    method SetEditing(e: Option<Message>)
      modifies this
      ensures editing == e
      ensures messages == old(messages) && isLoading == old(isLoading) && aborted == old(aborted)
      ensures session == old(session) && verifiedCreator == old(verifiedCreator) && wanted == old(wanted)
    {
      editing := e;
    }

    /**
     * Sending: ignored while loading; otherwise the history (cut before the edited message) gets
     * the user message, the edit ends, and online the streaming placeholder follows. The user
     * message and the placeholder each carry their own clock reading, `sentAt` and `startedAt`.
     */
    method Send(text: string, attachments: seq<Attachment>, online: bool, userId: string, botId: string, sentAt: int, startedAt: int)
      returns (req: Option<Request>)
      modifies this
      ensures old(isLoading) ==>
        && req.None? && messages == old(messages) && editing == old(editing)
        && isLoading && aborted == old(aborted) && wanted == old(wanted)
      ensures !old(isLoading) ==>
        && req == Some(Request(HistoryFor(old(messages), old(editing)) + [UserMessage(userId, text, attachments, sentAt)], botId, startedAt))
        && messages == req.value.withUser + (if online then [BotPlaceholder(botId, startedAt)] else [])
        && editing.None? && isLoading && !aborted && wanted == Some(botId)
      ensures session == old(session) && verifiedCreator == old(verifiedCreator)
    {
      if isLoading {
        return None;
      }
      aborted := false;
      var history := HistoryFor(messages, editing);
      editing := None;
      var withUser := history + [UserMessage(userId, text, attachments, sentAt)];
      messages := withUser;
      isLoading := true;
      wanted := Some(botId);
      if online {
        messages := withUser + [BotPlaceholder(botId, startedAt)];
      } else {
        assert messages == withUser + [];
      }
      req := Some(Request(withUser, botId, startedAt));
    }

    /** The stop button: every later result of the running request is to be ignored. */
    method Stop()
      modifies this
      ensures aborted && !isLoading && wanted.None?
      ensures messages == old(messages) && editing == old(editing)
      ensures session == old(session) && verifiedCreator == old(verifiedCreator)
    {
      aborted := true;
      isLoading := false;
      wanted := None;
    }

    /** A partial text from the stream: shown in the reply unless stopped. */
    method Partial(req: Request, partial: string)
      modifies this
      ensures messages == if old(aborted) then old(messages) else WithText(old(messages), req.botId, partial)
      ensures editing == old(editing) && isLoading == old(isLoading) && aborted == old(aborted)
      ensures session == old(session) && verifiedCreator == old(verifiedCreator) && wanted == old(wanted)
    {
      if !aborted {
        messages := WithText(messages, req.botId, partial);
      }
    }

    /**
     * The stream finished: unless stopped, the conversation becomes the list it was sent with
     * and the final reply, and is saved; loading ends either way.
     */
    method Finish(req: Request, text: string, sources: seq<Source>) returns (save: Option<SessionSave>)
      modifies this
      ensures old(aborted) ==> save.None? && messages == old(messages)
      ensures !old(aborted) ==>
        messages == req.withUser + [FinalReply(req, text, sources)] && save == Some(SaveTo(session, messages))
      ensures !isLoading && editing == old(editing) && aborted == old(aborted)
      ensures session == old(session) && verifiedCreator == old(verifiedCreator) && wanted == old(wanted)
    {
      save := None;
      if !aborted {
        messages := req.withUser + [FinalReply(req, text, sources)];
        save := Some(SaveTo(session, messages));
      }
      isLoading := false;
    }

    /**
     * The corrected completion: results are applied only for the request still wanted, so a
     * request stopped before another was sent cannot replace the newer conversation.
     */
    method FinishWanted(req: Request, text: string, sources: seq<Source>) returns (save: Option<SessionSave>)
      modifies this
      ensures old(wanted) != Some(req.botId) || old(aborted) ==>
        save.None? && messages == old(messages) && isLoading == old(isLoading)
      ensures old(wanted) == Some(req.botId) && !old(aborted) ==>
        messages == req.withUser + [FinalReply(req, text, sources)]
        && save == Some(SaveTo(session, messages)) && !isLoading
      ensures editing == old(editing) && aborted == old(aborted)
      ensures session == old(session) && verifiedCreator == old(verifiedCreator) && wanted == old(wanted)
    {
      save := None;
      if wanted == Some(req.botId) && !aborted {
        messages := req.withUser + [FinalReply(req, text, sources)];
        save := Some(SaveTo(session, messages));
        isLoading := false;
      }
    }

    /** The stream failed: unless stopped, the reply shows the classified error; loading ends either way. */
    method Fail(req: Request, error: string)
      modifies this
      ensures messages == if old(aborted) then old(messages) else WithError(old(messages), req.botId, ErrorText(error))
      ensures !isLoading && editing == old(editing) && aborted == old(aborted)
      ensures session == old(session) && verifiedCreator == old(verifiedCreator) && wanted == old(wanted)
    {
      if !aborted {
        messages := WithError(messages, req.botId, ErrorText(error));
      }
      isLoading := false;
    }

    /** The offline assistant answered: the conversation is the list sent with its reply, and is saved. */
    method Offline(req: Request, reply: string, now: int) returns (save: SessionSave)
      modifies this
      ensures messages == req.withUser + [OfflineReply(req, reply, now)]
      ensures save == SaveTo(session, messages)
      ensures !isLoading && editing == old(editing) && aborted == old(aborted)
      ensures session == old(session) && verifiedCreator == old(verifiedCreator) && wanted == old(wanted)
    {
      messages := req.withUser + [OfflineReply(req, reply, now)];
      save := SaveTo(session, messages);
      isLoading := false;
    }

    /**
     * The security tool: verifying with a non-empty answer sets the creator flag to the outcome
     * and replies with its message; logging out clears it; verifying without an answer fails.
     */
    method Security(svc: SecurityService.SecurityService, action: SecurityAction, data: Option<string>)
      returns (reply: string)
      modifies this, svc
      ensures action == VerifyAction && data.Some? && data.value != [] ==>
        && verifiedCreator == SecurityService.Accepts(data.value) && svc.IsVerified() == verifiedCreator
        && reply == (if verifiedCreator then SecurityService.SuccessMessage else SecurityService.FailureMessage)
      ensures action == LogoutAction ==> !verifiedCreator && !svc.IsVerified() && reply == LoggedOutReply
      ensures action == VerifyAction && (data.None? || data.value == []) ==>
        reply == ActionFailed && verifiedCreator == old(verifiedCreator) && svc.flags == old(svc.flags)
      ensures messages == old(messages) && editing == old(editing) && isLoading == old(isLoading)
      ensures aborted == old(aborted) && session == old(session) && wanted == old(wanted)
    {
      if action == VerifyAction && data.Some? && data.value != [] {
        var result := svc.Verify(data.value);
        verifiedCreator := result.success;
        reply := result.message;
      } else if action == LogoutAction {
        svc.Logout();
        verifiedCreator := false;
        reply := LoggedOutReply;
      } else {
        reply := ActionFailed;
      }
    }
  }

  // ---------------------------------------------------------------------------------------
  // Stop, then send again
  // ---------------------------------------------------------------------------------------

  /**
   * As written: request A is stopped, message B is sent (clearing the shared stop flag), then A's
   * stream finishes. A's completion replaces the conversation, and B's message is lost.
   */
  method StaleCompletion(a: string, b: string) returns (c: Conversation, save: Option<SessionSave>)
    ensures save.Some?
    ensures |c.messages| == 2 && c.messages[0].text == a && c.messages[1].id == "bot-a"
    ensures forall k :: 0 <= k < |c.messages| ==> c.messages[k].id != "user-b"
    ensures !c.isLoading
  {
    c := new Conversation(None, false);
    var reqA := c.Send(a, [], true, "user-a", "bot-a", 1, 1);
    c.Stop();
    var reqB := c.Send(b, [], true, "user-b", "bot-b", 2, 2);
    save := c.Finish(reqA.value, "late answer", []);
  }

  /** Corrected: the same sequence with the per-request check keeps B's message and its placeholder. */
  method StaleCompletionIgnored(a: string, b: string) returns (c: Conversation, save: Option<SessionSave>)
    ensures save.None?
    ensures |c.messages| == 4 && c.messages[2].id == "user-b" && c.messages[2].text == b && c.messages[3].id == "bot-b"
    ensures c.isLoading
  {
    c := new Conversation(None, false);
    var reqA := c.Send(a, [], true, "user-a", "bot-a", 1, 1);
    c.Stop();
    var reqB := c.Send(b, [], true, "user-b", "bot-b", 2, 2);
    save := c.FinishWanted(reqA.value, "late answer", []);
  }
}

=== FILE: auth_routes.dfy ===
/**
 * The backend's e-mail/OTP registration flow: four route handlers over two keyed tables,
 * `users` (keyed by e-mail) and `otp_verification` (one record per e-mail).
 *
 * The pure functions below are the specification of each handler: the new tables and the
 * response. The class `AuthDb` holds the two tables and updates the records in place as the
 * handlers do; each of its methods is proved to agree with the corresponding function.
 *
 * External collaborators are parameters: the clock readings `created` and `now` (microseconds, the resolution of
 * `datetime`), the random draw `n` behind `generate_otp`, the SHA-256 digest `hashOtp`, the
 * salted PBKDF2 hash `passwordHash` that `get_password_hash` produced, and `verifyPassword`.
 */
module AuthRoutes {
  import OtpUtils

  /** OTP_EXPIRY_MINUTES = 5, in microseconds. */
  const OtpExpiry: int := 5 * 60 * 1000000
  const MaxAttempts: nat := 3

  const RegisteredMessage := "Registration successful. Please verify your email with the OTP sent."
  const AlreadyVerifiedDetail := "Email already registered and verified. Please login."
  const InvalidRequestDetail := "Invalid request"
  const ExpiredDetail := "OTP has expired. Please request a new one."
  const TooManyDetail := "Too many failed attempts. Please request a new OTP."
  const InvalidOtpDetail := "Invalid OTP"
  const VerifiedMessage := "Account verified successfully"
  const BadCredentialsDetail := "Invalid email or password"
  const NotVerifiedDetail := "Email not verified. Please verify your account."
  const LoginMessage := "Login successful"
  const UserNotFoundDetail := "User not found"
  const UserAlreadyVerifiedDetail := "User already verified"
  const ResentMessage := "OTP resent successfully"

  datatype User = User(passwordHash: string, isVerified: bool, createdAt: int)
  datatype OtpRecord = OtpRecord(otpHash: string, expiresAt: int, attempts: nat)
  datatype Tables = Tables(users: map<string, User>, otps: map<string, OtpRecord>)

  datatype Response =
    | Message(message: string)
    | Token(accessToken: string, tokenType: string, message: string)
    | HttpError(status: nat, detail: string)

  /** The mock bearer token both `verify_otp` and `login` hand out. */
  function TokenFor(email: string): string {
    "jwt-token-for-" + email
  }

  /** The record a fresh OTP gets: its digest, five minutes of validity, no attempts yet. */
  function FreshOtp(otpHash: string, now: int): OtpRecord {
    OtpRecord(otpHash, now + OtpExpiry, 0)
  }

  // ---------------------------------------------------------------------------------------
  // Handler specifications

  /**
   * `POST /register` with the OTP digest `otpHash` already computed from the draw. `created` is
   * the clock reading the database takes for a new user's `created_at` when it is committed;
   * `now` is the later reading the OTP expiry is computed from.
   */
  function RegisterOutcome(t: Tables, email: string, passwordHash: string, otpHash: string, created: int, now: int): (Tables, Response) {
    if email in t.users && t.users[email].isVerified then
      (t, HttpError(400, AlreadyVerifiedDetail))
    else
      var user := if email in t.users then t.users[email].(passwordHash := passwordHash)
                  else User(passwordHash, false, created);
      (Tables(t.users[email := user], t.otps[email := FreshOtp(otpHash, now)]), Message(RegisteredMessage))
  }

  /** `POST /verify-otp`. */
  function VerifyOtpOutcome(t: Tables, email: string, otp: string, hashOtp: string -> string, now: int): (Tables, Response) {
    if email !in t.otps || email !in t.users then
      (t, HttpError(400, InvalidRequestDetail))
    else
      var rec := t.otps[email];
      if now > rec.expiresAt then
        (t, HttpError(400, ExpiredDetail))
      else if rec.attempts >= MaxAttempts then
        (t, HttpError(400, TooManyDetail))
      else if rec.otpHash != hashOtp(otp) then
        (t.(otps := t.otps[email := rec.(attempts := rec.attempts + 1)]), HttpError(400, InvalidOtpDetail))
      else
        (Tables(t.users[email := t.users[email].(isVerified := true)], t.otps - {email}),
         Token(TokenFor(email), "bearer", VerifiedMessage))
  }

  /** `POST /login`; it changes nothing. */
  function LoginOutcome(t: Tables, email: string, password: string, verifyPassword: (string, string) -> bool): Response {
    if email !in t.users || !verifyPassword(password, t.users[email].passwordHash) then
      HttpError(400, BadCredentialsDetail)
    else if !t.users[email].isVerified then
      HttpError(400, NotVerifiedDetail)
    else
      Token(TokenFor(email), "bearer", LoginMessage)
  }

  /** `POST /resend-otp` with the new OTP digest `otpHash`. */
  function ResendOtpOutcome(t: Tables, email: string, otpHash: string, now: int): (Tables, Response) {
    if email !in t.users then
      (t, HttpError(400, UserNotFoundDetail))
    else if t.users[email].isVerified then
      (t, HttpError(400, UserAlreadyVerifiedDetail))
    else
      (t.(otps := t.otps[email := FreshOtp(otpHash, now)]), Message(ResentMessage))
  }

  // ---------------------------------------------------------------------------------------
  // Properties of the flow

  /** `register` on an already verified e-mail is refused with 400 and changes nothing. */
  lemma RegisterRefusesVerified(t: Tables, email: string, h: string, otpHash: string, created: int, now: int)
    requires email in t.users && t.users[email].isVerified
    ensures RegisterOutcome(t, email, h, otpHash, created, now) == (t, HttpError(400, AlreadyVerifiedDetail))
  {
  }

  /**
   * Otherwise `register` succeeds: an existing unverified user only gets the new password hash,
   * a new e-mail gets an unverified user, no other user changes, and the e-mail ends up with
   * exactly one OTP record, fresh, while every other e-mail's record is untouched.
   */
  lemma RegisterUpserts(t: Tables, email: string, h: string, otpHash: string, created: int, now: int)
    requires !(email in t.users && t.users[email].isVerified)
    ensures var (t', r) := RegisterOutcome(t, email, h, otpHash, created, now);
      && r == Message(RegisteredMessage)
      && email in t'.users
      && (email in t.users ==> t'.users[email] == t.users[email].(passwordHash := h))
      && (email !in t.users ==> t'.users[email] == User(h, false, created))
      && !t'.users[email].isVerified
      && t'.users.Keys == t.users.Keys + {email}
      && (forall e :: e in t.users && e != email ==> t'.users[e] == t.users[e])
      && t'.otps.Keys == t.otps.Keys + {email}
      && t'.otps[email] == OtpRecord(otpHash, now + OtpExpiry, 0)
      && (forall e :: e in t.otps && e != email ==> t'.otps[e] == t.otps[e])
  {
  }

  /** `resend_otp` refuses unknown and verified users without touching any OTP record. */
  lemma ResendRefusals(t: Tables, email: string, otpHash: string, now: int)
    requires email !in t.users || t.users[email].isVerified
    ensures ResendOtpOutcome(t, email, otpHash, now).0 == t
    ensures ResendOtpOutcome(t, email, otpHash, now).1.HttpError?
  {
  }

  /** A successful resend leaves exactly one, fresh, record for the e-mail with the counter reset. */
  lemma ResendResets(t: Tables, email: string, otpHash: string, now: int)
    requires email in t.users && !t.users[email].isVerified
    ensures var (t', r) := ResendOtpOutcome(t, email, otpHash, now);
      && r == Message(ResentMessage)
      && t'.users == t.users
      && t'.otps.Keys == t.otps.Keys + {email}
      && t'.otps[email] == OtpRecord(otpHash, now + OtpExpiry, 0)
      && (forall e :: e in t.otps && e != email ==> t'.otps[e] == t.otps[e])
  {
  }

  /**
   * The checks of `verify_otp` come in a fixed order: a missing record or user, then expiry
   * (strict: at `now == expires_at` the OTP is still valid), then the attempt cap; none of these
   * refusals changes the tables.
   */
  lemma VerifyCheckOrder(t: Tables, email: string, otp: string, hashOtp: string -> string, now: int)
    ensures email !in t.otps || email !in t.users ==>
      VerifyOtpOutcome(t, email, otp, hashOtp, now) == (t, HttpError(400, InvalidRequestDetail))
    ensures email in t.otps && email in t.users && now > t.otps[email].expiresAt ==>
      VerifyOtpOutcome(t, email, otp, hashOtp, now) == (t, HttpError(400, ExpiredDetail))
    ensures email in t.otps && email in t.users && now <= t.otps[email].expiresAt && t.otps[email].attempts >= MaxAttempts ==>
      VerifyOtpOutcome(t, email, otp, hashOtp, now) == (t, HttpError(400, TooManyDetail))
  {
  }

  /** A wrong OTP within the window raises the counter by exactly one and verifies nobody. */
  lemma WrongOtpCounts(t: Tables, email: string, otp: string, hashOtp: string -> string, now: int)
    requires email in t.otps && email in t.users
    requires now <= t.otps[email].expiresAt && t.otps[email].attempts < MaxAttempts
    requires t.otps[email].otpHash != hashOtp(otp)
    ensures var (t', r) := VerifyOtpOutcome(t, email, otp, hashOtp, now);
      && r == HttpError(400, InvalidOtpDetail)
      && t'.users == t.users
      && t'.otps == t.otps[email := t.otps[email].(attempts := t.otps[email].attempts + 1)]
  {
  }

  /** The right OTP within the window verifies the user, deletes the record and returns the token. */
  lemma RightOtpVerifies(t: Tables, email: string, otp: string, hashOtp: string -> string, now: int)
    requires email in t.otps && email in t.users
    requires now <= t.otps[email].expiresAt && t.otps[email].attempts < MaxAttempts
    requires t.otps[email].otpHash == hashOtp(otp)
    ensures var (t', r) := VerifyOtpOutcome(t, email, otp, hashOtp, now);
      && r == Token(TokenFor(email), "bearer", VerifiedMessage)
      && t'.users == t.users[email := t.users[email].(isVerified := true)]
      && t'.otps == t.otps - {email}
      && VerifyOtpOutcome(t', email, otp, hashOtp, now) == (t', HttpError(400, InvalidRequestDetail))
  {
  }

  /**
   * The code e-mailed by `register` verifies the account, at any time up to and including the
   * expiry instant, whatever the tables held before (as long as the account was not verified).
   */
  lemma RegisterThenVerify(t: Tables, email: string, h: string, otp: string, hashOtp: string -> string, created: int, now: int, later: int)
    requires !(email in t.users && t.users[email].isVerified)
    requires later <= now + OtpExpiry
    ensures var t1 := RegisterOutcome(t, email, h, hashOtp(otp), created, now).0;
      var (t2, r) := VerifyOtpOutcome(t1, email, otp, hashOtp, later);
      && r == Token(TokenFor(email), "bearer", VerifiedMessage)
      && t2.users[email].isVerified
      && email !in t2.otps
      && LoginOutcome(t2, email, "pw", (p, stored) => stored == h) == Token(TokenFor(email), "bearer", LoginMessage)
  {
  }

  /**
   * Three wrong codes lock the record: afterwards even the right code is refused, until a resend
   * resets the counter, after which the newly sent code verifies.
   */
  lemma {:induction false} ThreeStrikesThenResend(
    t: Tables, email: string, wrong: string, right: string, hashOtp: string -> string,
    now: int, resent: string)
    requires email in t.otps && email in t.users && !t.users[email].isVerified
    requires t.otps[email].attempts == 0 && now <= t.otps[email].expiresAt
    requires t.otps[email].otpHash != hashOtp(wrong) && t.otps[email].otpHash == hashOtp(right)
    ensures var t1 := VerifyOtpOutcome(t, email, wrong, hashOtp, now).0;
      var t2 := VerifyOtpOutcome(t1, email, wrong, hashOtp, now).0;
      var t3 := VerifyOtpOutcome(t2, email, wrong, hashOtp, now).0;
      var (t4, r4) := VerifyOtpOutcome(t3, email, right, hashOtp, now);
      var t5 := ResendOtpOutcome(t4, email, hashOtp(resent), now).0;
      && t3.otps[email].attempts == 3
      && r4 == HttpError(400, TooManyDetail) && t4 == t3
      && !t4.users[email].isVerified
      && VerifyOtpOutcome(t5, email, resent, hashOtp, now).1 == Token(TokenFor(email), "bearer", VerifiedMessage)
  {
    var t1 := VerifyOtpOutcome(t, email, wrong, hashOtp, now).0;
    WrongOtpCounts(t, email, wrong, hashOtp, now);
    var t2 := VerifyOtpOutcome(t1, email, wrong, hashOtp, now).0;
    WrongOtpCounts(t1, email, wrong, hashOtp, now);
    var t3 := VerifyOtpOutcome(t2, email, wrong, hashOtp, now).0;
    WrongOtpCounts(t2, email, wrong, hashOtp, now);
    assert t3.otps[email].attempts == 3;
    VerifyCheckOrder(t3, email, right, hashOtp, now);
    var t5 := ResendOtpOutcome(t3, email, hashOtp(resent), now).0;
    ResendResets(t3, email, hashOtp(resent), now);
    RightOtpVerifies(t5, email, resent, hashOtp, now);
  }

  /**
   * `login` checks the credentials before verification: an unknown e-mail or a wrong password
   * gets the same refusal whether or not the account is verified; a verified user with the right
   * password always gets the token.
   */
  lemma LoginOrder(t: Tables, email: string, password: string, verifyPassword: (string, string) -> bool)
    ensures email !in t.users || !verifyPassword(password, t.users[email].passwordHash) ==>
      LoginOutcome(t, email, password, verifyPassword) == HttpError(400, BadCredentialsDetail)
    ensures email in t.users && verifyPassword(password, t.users[email].passwordHash) ==>
      (LoginOutcome(t, email, password, verifyPassword).Token? <==> t.users[email].isVerified)
    ensures LoginOutcome(t, email, password, verifyPassword).Token? ==>
      LoginOutcome(t, email, password, verifyPassword).accessToken == TokenFor(email)
  {
  }

  // ---------------------------------------------------------------------------------------
  // The tables as the handlers update them

  class AuthDb {
    var users: map<string, User>
    var otps: map<string, OtpRecord>

    function Contents(): Tables
      reads this
    {
      Tables(users, otps)
    }

    constructor ()
      ensures Contents() == Tables(map[], map[])
    {
      users := map[];
      otps := map[];
    }

    /** Upsert of the e-mail's OTP record, as `register` and `resend_otp` both write it. */
    method StoreOtp(email: string, otpHashed: string, now: int)
      modifies this
      ensures users == old(users)
      ensures otps == old(otps)[email := FreshOtp(otpHashed, now)]
    {
      var expiresAt := now + OtpExpiry;
      if email in otps {
        var rec := otps[email];
        rec := rec.(otpHash := otpHashed);
        rec := rec.(expiresAt := expiresAt);
        rec := rec.(attempts := 0);
        otps := otps[email := rec];
      } else {
        otps := otps[email := OtpRecord(otpHashed, expiresAt, 0)];
      }
    }

    /** The user half of `register` for an e-mail not yet verified: new password hash, still unverified. */
    method UpsertUnverified(email: string, passwordHash: string, created: int)
      requires !(email in users && users[email].isVerified)
      modifies this
      ensures otps == old(otps)
      ensures users == old(users)[email := if email in old(users) then old(users)[email].(passwordHash := passwordHash)
                                           else User(passwordHash, false, created)]
    {
      if email in users {
        users := users[email := users[email].(passwordHash := passwordHash)];
      } else {
        users := users[email := User(passwordHash, false, created)];
      }
    }

    method Register(email: string, passwordHash: string, n: nat, hashOtp: string -> string, created: int, now: int)
      returns (resp: Response)
      requires n < OtpUtils.OtpSpace
      modifies this
      ensures (Contents(), resp) == RegisterOutcome(old(Contents()), email, passwordHash, hashOtp(OtpUtils.GenerateOtp(n)), created, now)
    {
      if email in users && users[email].isVerified {
        return HttpError(400, AlreadyVerifiedDetail);
      }
      UpsertUnverified(email, passwordHash, created);
      var otp := OtpUtils.GenerateOtp(n);
      StoreOtp(email, hashOtp(otp), now);
      resp := Message(RegisteredMessage);
    }

    method VerifyOtp(email: string, otp: string, hashOtp: string -> string, now: int) returns (resp: Response)
      modifies this
      ensures (Contents(), resp) == VerifyOtpOutcome(old(Contents()), email, otp, hashOtp, now)
    {
      if email !in otps || email !in users {
        return HttpError(400, InvalidRequestDetail);
      }
      var rec := otps[email];
      if now > rec.expiresAt {
        return HttpError(400, ExpiredDetail);
      }
      if rec.attempts >= MaxAttempts {
        return HttpError(400, TooManyDetail);
      }
      if rec.otpHash != hashOtp(otp) {
        otps := otps[email := rec.(attempts := rec.attempts + 1)];
        return HttpError(400, InvalidOtpDetail);
      }
      users := users[email := users[email].(isVerified := true)];
      otps := otps - {email};
      resp := Token(TokenFor(email), "bearer", VerifiedMessage);
    }

    method Login(email: string, password: string, verifyPassword: (string, string) -> bool) returns (resp: Response)
      ensures resp == LoginOutcome(Contents(), email, password, verifyPassword)
    {
      if email !in users || !verifyPassword(password, users[email].passwordHash) {
        return HttpError(400, BadCredentialsDetail);
      }
      if !users[email].isVerified {
        return HttpError(400, NotVerifiedDetail);
      }
      resp := Token(TokenFor(email), "bearer", LoginMessage);
    }

    method ResendOtp(email: string, n: nat, hashOtp: string -> string, now: int) returns (resp: Response)
      requires n < OtpUtils.OtpSpace
      modifies this
      ensures (Contents(), resp) == ResendOtpOutcome(old(Contents()), email, hashOtp(OtpUtils.GenerateOtp(n)), now)
    {
      if email !in users {
        return HttpError(400, UserNotFoundDetail);
      }
      if users[email].isVerified {
        return HttpError(400, UserAlreadyVerifiedDetail);
      }
      var otp := OtpUtils.GenerateOtp(n);
      StoreOtp(email, hashOtp(otp), now);
      resp := Message(ResentMessage);
    }
  }
}

=== FILE: chat_types.dfy ===
/** The chat records shared by the chat, the GitHub and the app builder views and the model service. */
module ChatTypes {
  datatype Role = UserRole | ModelRole

  /** A file attached to a message: its name and MIME type, and its contents as base64. */
  datatype Attachment = Attachment(id: string, fileName: string, base64: string, mimeType: string, previewUrl: string)

  /** A web source cited by a grounded answer. */
  datatype Source = Source(title: string, uri: string)

  /** A chat message; the optional flags of the record are `false` when absent. */
  datatype Message = Message(
    id: string,
    role: Role,
    text: string,
    attachments: seq<Attachment>,
    sources: seq<Source>,
    timestamp: int,
    isError: bool,
    isStreaming: bool,
    isOffline: bool)

  datatype Persona = Persona(id: string, name: string, description: string, systemPrompt: string)
}

=== FILE: gemini.dfy ===
/**
 * The model service's deterministic core: the retry loop around every model call, the system
 * instruction of the chat, the request contents of the three streaming helpers, the reading of a
 * response stream and the aspect ratio of a video request.
 *
 * The model API itself is abstract: a call's outcome is given by an oracle `fn(k)` for the k-th
 * call, and a response stream is the sequence of its chunks.
 */
module Gemini {
  import opened Wrappers
  import opened JsText
  import opened ChatTypes

  // ---------------------------------------------------------------------------------------
  // withRetry

  /** An error thrown by a call to the model, with its HTTP status (0 when it has none) and its message. */
  datatype ApiError = ApiError(status: int, message: string)

  datatype CallOutcome<T> = Success(value: T) | Failure(error: ApiError)

  /** How `withRetry` ends: with the first successful value, or by rethrowing (`None` is `undefined`). */
  datatype RetryResult<T> = Returned(value: T) | Thrown(error: Option<ApiError>)

  const DefaultMaxRetries: nat := 4
  const TooManyRequests := 429

  /** Quota errors (status 429 or a quota word in the lowercased message) and server errors are retried. */
  predicate Retryable(e: ApiError) {
    var m := ToLower(e.message);
    e.status == TooManyRequests
    || Contains(m, "quota") || Contains(m, "resource_exhausted") || Contains(m, "limit") || Contains(m, "exceeded")
    || e.status >= 500
  }

  function Pow2(k: nat): (r: nat)
    ensures r >= 1
  {
    if k == 0 then 1 else 2 * Pow2(k - 1)
  }

  /** The deterministic part of the wait after failed attempt `i`, in milliseconds. */
  function Backoff(i: nat): (ms: nat)
    ensures ms >= 6000
  {
    Pow2(i + 1) * 3000
  }

  /** Each wait is twice the previous one. */
  lemma BackoffDoubles(i: nat)
    ensures Backoff(i + 1) == 2 * Backoff(i)
  {
  }

  /**
   * `withRetry(fn, maxRetries)`: `calls` is how many times `fn` was called and `waits` the
   * deterministic parts of the sleeps between calls. The loop returns the first success, rethrows
   * the first non-retryable error at once, and after `maxRetries` retryable failures rethrows the
   * last one.
   */
  method WithRetry<T>(fn: nat -> CallOutcome<T>, maxRetries: nat) returns (r: RetryResult<T>, calls: nat, waits: seq<nat>)
    ensures calls <= maxRetries
    ensures forall k :: 0 <= k < calls - 1 ==> fn(k).Failure? && Retryable(fn(k).error)
    ensures r.Returned? <==> calls > 0 && fn(calls - 1).Success?
    ensures r.Returned? ==> r.value == fn(calls - 1).value
    ensures r.Thrown? && calls > 0 ==> r.error == Some(fn(calls - 1).error)
    ensures r.Thrown? && calls < maxRetries ==> calls > 0 && !Retryable(fn(calls - 1).error)
    ensures r.Thrown? && calls == 0 ==> maxRetries == 0 && r.error == None
    ensures |waits| == if calls == 0 then 0
                       else if fn(calls - 1).Failure? && Retryable(fn(calls - 1).error) then calls
                       else calls - 1
    ensures forall k :: 0 <= k < |waits| ==> waits[k] == Backoff(k)
  {
    var lastError: Option<ApiError> := None;
    calls, waits := 0, [];
    var i := 0;
    while i < maxRetries
      invariant i <= maxRetries && calls == i
      invariant forall k :: 0 <= k < i ==> fn(k).Failure? && Retryable(fn(k).error)
      invariant i == 0 ==> lastError == None
      invariant i > 0 ==> lastError == Some(fn(i - 1).error)
      invariant |waits| == i && forall k :: 0 <= k < i ==> waits[k] == Backoff(k)
    {
      calls := calls + 1;
      match fn(i)
      case Success(v) =>
        return Returned(v), calls, waits;
      case Failure(err) =>
        lastError := Some(err);
        if Retryable(err) {
          waits := waits + [Backoff(i)];
          i := i + 1;
        } else {
          return Thrown(lastError), calls, waits;
        }
    }
    r := Thrown(lastError);
  }

  /** With the default of four attempts, a model call that keeps hitting the quota waits 6 s, 12 s, 24 s and 48 s. */
  method QuotaExhausted(fn: nat -> CallOutcome<string>) returns (r: RetryResult<string>, waits: seq<nat>)
    requires forall k :: fn(k) == Failure(ApiError(429, ""))
    ensures r == Thrown(Some(ApiError(429, "")))
    ensures waits == [6000, 12000, 24000, 48000]
  {
    var calls;
    r, calls, waits := WithRetry(fn, DefaultMaxRetries);
    assert Retryable(ApiError(429, ""));
    assert calls == 4 by {
      if calls < 4 {
        assert false;
      }
    }
  }

  // ---------------------------------------------------------------------------------------
  // buildSystemInstruction

  const CoreIdentity :=
    "\n**IDENTITY: Zara AI — Developed by Mohammed Majeed**\n"
    + "You are a highly advanced, empathetic, and professional AI companion.\n\n"
    + "**GITHUB ARCHITECT PROTOCOL:**\n"
    + "You are a Senior Software Architect and Technical Communications Expert. Your goal is to analyze the provided GitHub repository codebase and generate three distinct, high-quality outputs.\n\n"
    + "### OUTPUT 1: TECHNICAL DOCUMENTATION (Markdown)\n"
    + "Create a comprehensive 'Developer Guide' that includes:\n"
    + "- Project Overview: High-level purpose of the repository.\n"
    + "- Tech Stack: List of languages, frameworks, and libraries used.\n"
    + "- Core Logic: Explanation of the primary functions and business logic.\n"
    + "- File Structure: A tree-view of the project with descriptions for key directories.\n"
    + "- Installation & Usage: Clear steps to get the project running.\n\n"
    + "### OUTPUT 2: ARCHITECTURE FLOWCHART (Mermaid.js)\n"
    + "Generate a Mermaid.js 'graph TD' (Top Down) diagram that visualizes:\n"
    + "- The data flow between components.\n"
    + "- Main entry points.\n"
    + "- Integration with external APIs or databases.\n"
    + "Note: Ensure the output is a valid Mermaid code block.\n\n"
    + "### OUTPUT 3: AUDIO OVERVIEW SCRIPT (Podcast Format)\n"
    + "Write a 3-minute conversational script between two AI personas, \"Alex\" (the curious host) and \"Sam\" (the technical expert). \n"
    + "- The tone should be engaging, like a 'Deep Dive' podcast.\n"
    + "- They should discuss: What problem does this code solve? How does it handle its most complex part? Why would a developer find this useful?\n"
    + "- Format the script clearly with Alex: and Sam: prefixes.\n"

  const EmotionalLine := "\n\nEMOTIONAL ENGINE: Prioritize extreme empathy."

  /** The clock block, given the formatted Indian date and time. */
  function ClockBlock(date: string, time: string): string {
    "\n**REAL-TIME SYSTEM CLOCK:**\n- **Current Date**: " + date + "\n- **Current Time**: " + time
    + "\n- **Timezone**: Indian Standard Time (IST)"
  }

  function PersonaLine(persona: Persona): string {
    "\nROLEPLAY: " + persona.name + ". " + persona.systemPrompt
  }

  function MemoryLine(memory: string): string {
    "\n**MEMORY:**\n" + memory
  }

  function NicknameLine(nickname: string): string {
    "\n**USER:** " + nickname + "."
  }

  /**
   * The instruction built on an identity text: the identity, then the persona, the clock, the
   * emotional line, the memory context and the nickname, each optional part only when present.
   */
  function Instruction(identity: string, persona: Option<Persona>, date: string, time: string, emotional: bool,
                       memory: string, nickname: string): string
  {
    var withPersona := if persona.Some? then identity + PersonaLine(persona.value) else identity;
    var withClock := withPersona + "\n\n" + ClockBlock(date, time);
    var withEmotion := if emotional then withClock + EmotionalLine else withClock;
    var withMemory := if memory != "" then withEmotion + MemoryLine(memory) else withEmotion;
    if nickname != "" then withMemory + NicknameLine(nickname) else withMemory
  }

  /** `buildSystemInstruction`: the instruction built on the core identity. */
  function BuildSystemInstruction(persona: Option<Persona>, date: string, time: string, emotional: bool,
                                  memory: string, nickname: string): string
  {
    Instruction(CoreIdentity, persona, date, time, emotional, memory, nickname)
  }

  /** The instruction always starts with the identity. */
  lemma InstructionStartsWithIdentity(identity: string, persona: Option<Persona>, date: string, time: string,
                                      emotional: bool, memory: string, nickname: string)
    ensures StartsWith(Instruction(identity, persona, date, time, emotional, memory, nickname), identity)
  {
    var withPersona := if persona.Some? then identity + PersonaLine(persona.value) else identity;
    assert withPersona[..|identity|] == identity;
    var withClock := withPersona + "\n\n" + ClockBlock(date, time);
    AppendKeepsPrefix(withPersona, "\n\n", identity);
    AppendKeepsPrefix(withPersona + "\n\n", ClockBlock(date, time), identity);
    var withEmotion := if emotional then withClock + EmotionalLine else withClock;
    AppendKeepsPrefix(withClock, EmotionalLine, identity);
    var withMemory := if memory != "" then withEmotion + MemoryLine(memory) else withEmotion;
    AppendKeepsPrefix(withEmotion, MemoryLine(memory), identity);
    AppendKeepsPrefix(withMemory, NicknameLine(nickname), identity);
  }

  /** Leaving every optional part out gives exactly the identity and the clock. */
  lemma InstructionMinimal(identity: string, date: string, time: string)
    ensures Instruction(identity, None, date, time, false, "", "") == identity + "\n\n" + ClockBlock(date, time)
  {
  }

  /** With a nickname, the instruction ends with the nickname line. */
  lemma InstructionEndsWithNickname(identity: string, persona: Option<Persona>, date: string, time: string,
                                    emotional: bool, memory: string, nickname: string)
    requires nickname != ""
    ensures EndsWith(Instruction(identity, persona, date, time, emotional, memory, nickname), NicknameLine(nickname))
  {
    var r := Instruction(identity, persona, date, time, emotional, memory, nickname);
    var withMemory := r[..|r| - |NicknameLine(nickname)|];
    assert r == withMemory + NicknameLine(nickname);
  }

  /**
   * The persona line sits between the identity and the clock, and setting the emotional flag
   * or a nickname adds its line and changes nothing before it.
   */
  lemma InstructionExtends(identity: string, persona: Option<Persona>, date: string, time: string, memory: string,
                           nickname: string)
    ensures persona.Some? ==>
      StartsWith(Instruction(identity, persona, date, time, false, memory, nickname),
                 identity + PersonaLine(persona.value) + "\n\n" + ClockBlock(date, time))
    ensures StartsWith(Instruction(identity, persona, date, time, true, memory, nickname),
                       Instruction(identity, persona, date, time, false, "", "") + EmotionalLine)
    ensures nickname != "" ==>
      Instruction(identity, persona, date, time, false, memory, nickname)
      == Instruction(identity, persona, date, time, false, memory, "") + NicknameLine(nickname)
  {
    var withPersona := if persona.Some? then identity + PersonaLine(persona.value) else identity;
    var withClock := withPersona + "\n\n" + ClockBlock(date, time);
    assert withClock[..|withClock|] == withClock;
    var withMemory := if memory != "" then withClock + MemoryLine(memory) else withClock;
    AppendKeepsPrefix(withClock, MemoryLine(memory), withClock);
    AppendKeepsPrefix(withMemory, NicknameLine(nickname), withClock);
    var withEmotion := withClock + EmotionalLine;
    assert withEmotion[..|withEmotion|] == withEmotion;
    var withMemory' := if memory != "" then withEmotion + MemoryLine(memory) else withEmotion;
    AppendKeepsPrefix(withEmotion, MemoryLine(memory), withEmotion);
    AppendKeepsPrefix(withMemory', NicknameLine(nickname), withEmotion);
  }

  // ---------------------------------------------------------------------------------------
  // Request contents

  datatype Part = TextPart(text: string) | InlineData(mimeType: string, data: string)

  datatype Content = Content(role: Role, parts: seq<Part>)

  /** The history windows of the chat, the GitHub chat and the app builder. */
  const ChatWindow: nat := 8
  const GithubWindow: nat := 10
  const BuilderWindow: nat := 5

  /** A history message as a request turn: its role and its text only. */
  function Turn(m: Message): Content {
    Content(m.role, [TextPart(m.text)])
  }

  function Turns(history: seq<Message>): (r: seq<Content>)
    ensures |r| == |history|
    ensures forall i :: 0 <= i < |history| ==> r[i] == Turn(history[i])
  {
    seq(|history|, i requires 0 <= i < |history| => Turn(history[i]))
  }

  function AttachmentParts(attachments: seq<Attachment>): (r: seq<Part>)
    ensures |r| == |attachments|
    ensures forall i :: 0 <= i < |attachments| ==> r[i] == InlineData(attachments[i].mimeType, attachments[i].base64)
  {
    seq(|attachments|, i requires 0 <= i < |attachments| => InlineData(attachments[i].mimeType, attachments[i].base64))
  }

  /** The parts of the new user turn: the attachments, then the text, an empty text sent as " ". */
  function UserParts(text: string, attachments: seq<Attachment>): seq<Part> {
    AttachmentParts(attachments) + [TextPart(if text == "" then " " else text)]
  }

  /** A request: the last `window` history turns, most recent last, then the new user turn. */
  function Request(history: seq<Message>, window: nat, userTurn: Content): (r: seq<Content>)
    requires window > 0
    ensures |r| == 1 + if |history| < window then |history| else window
    ensures r[|r| - 1] == userTurn
  {
    Turns(LastN(history, window)) + [userTurn]
  }

  /** Every turn of a request before the new one is the turn of the history message at the same distance from the end. */
  lemma RequestTurns(history: seq<Message>, window: nat, userTurn: Content)
    requires window > 0
    ensures var r := Request(history, window, userTurn);
      forall i :: 0 <= i < |r| - 1 ==> r[i] == Turn(history[|history| - (|r| - 1) + i])
  {
    var w := LastN(history, window);
    var ts := Turns(w);
    var r := Request(history, window, userTurn);
    assert r == ts + [userTurn];
    forall i | 0 <= i < |r| - 1
      ensures r[i] == Turn(history[|history| - (|r| - 1) + i])
    {
      assert r[i] == ts[i] == Turn(w[i]);
      assert w[i] == history[|history| - |w| + i];
    }
  }

  /** The chat (window 8) and app builder (window 5) requests: the new turn carries the attachments. */
  function StreamContents(history: seq<Message>, text: string, attachments: seq<Attachment>, window: nat): seq<Content>
    requires window > 0
  {
    Request(history, window, Content(UserRole, UserParts(text, attachments)))
  }

  /** The GitHub chat request: the last ten turns, then the text alone, sent as typed even when empty. */
  function GithubContents(history: seq<Message>, text: string): seq<Content> {
    Request(history, GithubWindow, Content(UserRole, [TextPart(text)]))
  }

  /** The new user turn: the attachments as inline data in order, then a text part that is never empty. */
  lemma UserPartsShape(text: string, attachments: seq<Attachment>)
    ensures var ps := UserParts(text, attachments);
      && |ps| == |attachments| + 1
      && (forall i :: 0 <= i < |attachments| ==> ps[i] == InlineData(attachments[i].mimeType, attachments[i].base64))
      && ps[|attachments|].TextPart?
      && ps[|attachments|].text != ""
      && (text != "" ==> ps[|attachments|].text == text)
  {
    var ps := UserParts(text, attachments);
    forall i | 0 <= i < |attachments|
      ensures ps[i] == InlineData(attachments[i].mimeType, attachments[i].base64)
    {
      assert ps[i] == AttachmentParts(attachments)[i];
    }
  }

  // ---------------------------------------------------------------------------------------
  // Reading a stream

  /** A grounding chunk; only web chunks become sources. */
  datatype GroundingChunk = GroundingChunk(web: Option<Source>)

  /** A streamed response chunk: its text ("" when it has none) and its grounding chunks. */
  datatype StreamChunk = StreamChunk(text: string, grounding: seq<GroundingChunk>)

  /** The concatenation of the chunk texts. */
  function FullText(chunks: seq<StreamChunk>): string {
    if chunks == [] then "" else FullText(chunks[..|chunks| - 1]) + chunks[|chunks| - 1].text
  }

  /** The partial texts reported to `onUpdate`: one after each chunk that has text. */
  function Partials(chunks: seq<StreamChunk>): seq<string> {
    if chunks == [] then []
    else
      var init := Partials(chunks[..|chunks| - 1]);
      if chunks[|chunks| - 1].text != "" then init + [FullText(chunks)] else init
  }

  /** The web sources of a grounding list, in order. */
  function WebSources(gs: seq<GroundingChunk>): seq<Source> {
    if gs == [] then []
    else WebSources(gs[..|gs| - 1]) + (if gs[|gs| - 1].web.Some? then [gs[|gs| - 1].web.value] else [])
  }

  function Sources(chunks: seq<StreamChunk>): seq<Source> {
    if chunks == [] then [] else Sources(chunks[..|chunks| - 1]) + WebSources(chunks[|chunks| - 1].grounding)
  }

  /**
   * Every partial is a prefix of the final text, the partials grow strictly, one per chunk with
   * text, and the last one is the final text.
   */
  lemma {:induction false} PartialsArePrefixes(chunks: seq<StreamChunk>)
    ensures forall p :: p in Partials(chunks) ==> StartsWith(FullText(chunks), p)
    ensures forall i :: 0 < i < |Partials(chunks)| ==> |Partials(chunks)[i - 1]| < |Partials(chunks)[i]|
    ensures |Partials(chunks)| > 0 ==> Partials(chunks)[|Partials(chunks)| - 1] == FullText(chunks)
    ensures |Partials(chunks)| == 0 ==> FullText(chunks) == ""
  {
    if chunks != [] {
      var init := chunks[..|chunks| - 1];
      var last := chunks[|chunks| - 1];
      PartialsArePrefixes(init);
      assert FullText(chunks) == FullText(init) + last.text;
      forall p | p in Partials(init)
        ensures StartsWith(FullText(chunks), p)
      {
        assert FullText(chunks)[..|p|] == FullText(init)[..|p|];
      }
      if last.text != "" && |Partials(init)| > 0 {
        var ps := Partials(init);
        assert ps[|ps| - 1] == FullText(init);
        assert |FullText(init)| < |FullText(chunks)|;
      }
    }
  }

  /** The loop over the stream: the final text, the reported partials and the collected sources. */
  method ReadStream(chunks: seq<StreamChunk>) returns (text: string, partials: seq<string>, sources: seq<Source>)
    ensures text == FullText(chunks) && partials == Partials(chunks) && sources == Sources(chunks)
  {
    text, partials, sources := "", [], [];
    for i := 0 to |chunks|
      invariant text == FullText(chunks[..i]) && partials == Partials(chunks[..i]) && sources == Sources(chunks[..i])
    {
      assert chunks[..i + 1][..i] == chunks[..i];
      var c := chunks[i];
      if c.text != "" {
        text := text + c.text;
        partials := partials + [text];
      }
      var web := [];
      for j := 0 to |c.grounding|
        invariant web == WebSources(c.grounding[..j])
      {
        assert c.grounding[..j + 1][..j] == c.grounding[..j];
        if c.grounding[j].web.Some? {
          web := web + [c.grounding[j].web.value];
        }
      }
      assert c.grounding[..|c.grounding|] == c.grounding;
      sources := sources + web;
    }
    assert chunks[..|chunks|] == chunks;
  }

  // ---------------------------------------------------------------------------------------
  // generateVideo

  /** The aspect ratio sent for a video: portrait only when exactly '9:16' is asked for. */
  function VideoAspect(requested: string): (r: string)
    ensures r == "9:16" <==> requested == "9:16"
    ensures r == "9:16" || r == "16:9"
  {
    if requested == "9:16" then "9:16" else "16:9"
  }
}

=== FILE: github_mode.dfy ===
/**
 * The repository view: the owner and repository parsed out of a GitHub URL, the tree fetched
 * from the 'main' branch or else 'master', the manifest of at most 300 entries handed to the
 * model, the case-insensitive file search, and the name and extension shown for each entry.
 */
module GithubMode {
  import opened Wrappers
  import opened JsText
  import opened SeqUtil

  /** An entry of the repository tree: its path and its git object type ('tree' for a folder). */
  datatype RepoFile = RepoFile(path: string, kind: string)

  datatype RepoRef = RepoRef(owner: string, repo: string)

  const Host: string := "github.com/"
  /** The manifest markers as the source spells them: the folder marker is a prefix of the file marker. */
  const FolderMarker: string := "\U{00F0}\U{0178}\U{201C}"
  const FileMarker: string := "\U{00F0}\U{0178}\U{201C}\U{201E}"
  const ManifestCap: nat := 300

  // ---------------------------------------------------------------------------------------
  // URL parsing: `github\.com\/([^/]+)\/([^/]+)` on the trimmed URL without one trailing '/'
  // ---------------------------------------------------------------------------------------

  /** The trimmed URL with one trailing '/' removed. */
  function CleanUrl(url: string): (r: string)
    ensures |r| <= |url|
    ensures r == [] || !IsSpace(r[0])
  {
    var t := Trim(url);
    if |t| > 0 && t[|t| - 1] == '/' then t[..|t| - 1] else t
  }

  predicate HostAt(s: string, i: nat) {
    i + |Host| <= |s| && s[i..i + |Host|] == Host
  }

  /** The length of the run of characters other than '/' that starts at `i` (the class `[^/]`). */
  function SegmentLength(s: string, i: nat): (n: nat)
    requires i <= |s|
    ensures i + n <= |s|
    decreases |s| - i
  {
    if i < |s| && s[i] != '/' then 1 + SegmentLength(s, i + 1) else 0
  }

  /** `SegmentLength` is the whole run: no '/' inside, and a '/' or the end right after it. */
  lemma {:induction false} SegmentLengthIs(s: string, i: nat, n: nat)
    requires i + n <= |s|
    ensures SegmentLength(s, i) == n <==>
      (forall k :: i <= k < i + n ==> s[k] != '/') && (i + n == |s| || s[i + n] == '/')
    decreases n
  {
    if n > 0 {
      SegmentLengthIs(s, i + 1, n - 1);
    }
  }

  /** The match of the pattern starting exactly at `i`, if any. */
  function RepoAt(s: string, i: nat): Option<RepoRef>
    requires i <= |s|
  {
    if !HostAt(s, i) then None
    else
      var o := i + |Host|;
      var n := SegmentLength(s, o);
      if n == 0 || o + n == |s| then None
      else
        var m := SegmentLength(s, o + n + 1);
        if m == 0 then None else Some(RepoRef(s[o..o + n], s[o + n + 1..o + n + 1 + m]))
  }

  /** The leftmost match at or after `i`, as the regular-expression search finds it. */
  function MatchFrom(s: string, i: nat): Option<RepoRef>
    requires i <= |s|
    decreases |s| - i
  {
    match RepoAt(s, i)
    case Some(r) => Some(r)
    case None => if i == |s| then None else MatchFrom(s, i + 1)
  }

  /** The repository name without a trailing ".git". */
  function StripGit(repo: string): (r: string)
    ensures EndsWith(repo, ".git") ==> repo == r + ".git"
    ensures !EndsWith(repo, ".git") ==> r == repo
  {
    if EndsWith(repo, ".git") then repo[..|repo| - 4] else repo
  }

  /** The owner and repository a URL names, or `None` when the URL has no `github.com/owner/repo`. */
  function ParseRepoUrl(url: string): Option<RepoRef> {
    match MatchFrom(CleanUrl(url), 0)
    case None => None
    case Some(r) => Some(RepoRef(r.owner, StripGit(r.repo)))
  }

  /** A match names a non-empty owner and repository, neither holding a '/'. */
  lemma RepoAtShape(s: string, i: nat)
    requires i <= |s|
    ensures RepoAt(s, i).Some? ==>
      var r := RepoAt(s, i).value;
      && r.owner != [] && r.repo != [] && '/' !in r.owner && '/' !in r.repo
      && HostAt(s, i) && s[i + |Host|..i + |Host| + |r.owner| + 1 + |r.repo|] == r.owner + "/" + r.repo
  {
    if RepoAt(s, i).Some? {
      var o := i + |Host|;
      var n := SegmentLength(s, o);
      var m := SegmentLength(s, o + n + 1);
      SegmentLengthIs(s, o, n);
      SegmentLengthIs(s, o + n + 1, m);
      assert s[o..o + n + 1 + m] == s[o..o + n] + [s[o + n]] + s[o + n + 1..o + n + 1 + m];
    }
  }

  /** The search skips positions where nothing matches. */
  lemma {:induction false} MatchSkips(s: string, i: nat, k: nat)
    requires i <= k <= |s|
    requires forall j :: i <= j < k ==> RepoAt(s, j).None?
    ensures MatchFrom(s, i) == MatchFrom(s, k)
    decreases k - i
  {
    if i < k {
      MatchSkips(s, i + 1, k);
    }
  }

  /** The search fails exactly when no position of the text matches. */
  lemma {:induction false} MatchFromNone(s: string, i: nat)
    requires i <= |s|
    ensures MatchFrom(s, i).None? <==> forall j :: i <= j <= |s| ==> RepoAt(s, j).None?
    decreases |s| - i
  {
    if i < |s| {
      MatchFromNone(s, i + 1);
    }
  }

  /** The search returns the match at the leftmost position that has one. */
  lemma {:induction false} MatchFromLeftmost(s: string, i: nat) returns (j: nat)
    requires i <= |s|
    requires MatchFrom(s, i).Some?
    ensures i <= j <= |s| && RepoAt(s, j) == MatchFrom(s, i)
    ensures forall k :: i <= k < j ==> RepoAt(s, k).None?
    decreases |s| - i
  {
    if RepoAt(s, i).Some? {
      j := i;
    } else {
      j := MatchFromLeftmost(s, i + 1);
    }
  }

  /**
   * Parsing fails exactly when no position of the cleaned URL matches; otherwise the owner is
   * a non-empty segment and the repository a segment, both free of '/', and both follow
   * "github.com/" in the cleaned URL, the repository possibly with ".git" after it.
   */
  lemma ParseRepoUrlSpec(url: string)
    ensures var clean := CleanUrl(url);
      ParseRepoUrl(url).None? <==> forall j :: 0 <= j <= |clean| ==> RepoAt(clean, j).None?
    ensures ParseRepoUrl(url).Some? ==>
      var r := ParseRepoUrl(url).value;
      && r.owner != [] && '/' !in r.owner && '/' !in r.repo
      && (exists j :: 0 <= j <= |CleanUrl(url)| && HostAt(CleanUrl(url), j) &&
            (RepoAt(CleanUrl(url), j) == Some(r) || RepoAt(CleanUrl(url), j) == Some(RepoRef(r.owner, r.repo + ".git"))))
  {
    var clean := CleanUrl(url);
    MatchFromNone(clean, 0);
    if MatchFrom(clean, 0).Some? {
      var j := MatchFromLeftmost(clean, 0);
      RepoAtShape(clean, j);
      var m := MatchFrom(clean, 0).value;
      var repo := StripGit(m.repo);
      assert '/' !in repo by {
        assert forall x :: x in repo ==> x in m.repo;
      }
    }
  }

  /** The layout of a canonical URL after cleaning: "https://github.com/" owner "/" repo, then a tail. */
  predicate Canonical(s: string, owner: string, repo: string, tail: string) {
    s == "https://github.com/" + owner + "/" + repo + tail
  }

  /** Where the parts of a canonical URL sit: the scheme, the host and the owner. */
  lemma CanonicalHead(s: string, owner: string, repo: string, tail: string)
    requires Canonical(s, owner, repo, tail)
    ensures |s| == 20 + |owner| + |repo| + |tail|
    ensures forall j :: 0 <= j < 8 ==> s[j] != 'g'
    ensures HostAt(s, 8)
    ensures s[19..19 + |owner|] == owner && s[19 + |owner|] == '/'
  {
    assert s[8..19] == Host;
  }

  /** Where the parts of a canonical URL sit: the repository, then a '/' or the end. */
  lemma CanonicalRepo(s: string, owner: string, repo: string, tail: string)
    requires tail == [] || tail[0] == '/'
    requires Canonical(s, owner, repo, tail)
    ensures s[20 + |owner|..20 + |owner| + |repo|] == repo
    ensures 20 + |owner| + |repo| == |s| || s[20 + |owner| + |repo|] == '/'
  {
    var p := 20 + |owner|;
    assert s == ("https://github.com/" + owner + "/") + repo + tail;
    assert p + |repo| < |s| ==> s[p + |repo|] == tail[0];
  }

  /** The match at the host of a URL laid out as host, owner, '/', repository, then a '/' or the end. */
  lemma MatchAtHost(s: string, owner: string, repo: string)
    requires owner != [] && repo != [] && '/' !in owner && '/' !in repo
    requires |s| >= 20 + |owner| + |repo|
    requires HostAt(s, 8)
    requires s[19..19 + |owner|] == owner && s[19 + |owner|] == '/'
    requires s[20 + |owner|..20 + |owner| + |repo|] == repo
    requires 20 + |owner| + |repo| == |s| || s[20 + |owner| + |repo|] == '/'
    ensures RepoAt(s, 8) == Some(RepoRef(owner, repo))
  {
    var p := 20 + |owner|;
    forall k | 19 <= k < 19 + |owner|
      ensures s[k] != '/'
    {
      assert s[k] == owner[k - 19];
    }
    forall k | p <= k < p + |repo|
      ensures s[k] != '/'
    {
      assert s[k] == repo[k - p];
    }
    SegmentLengthIs(s, 19, |owner|);
    SegmentLengthIs(s, p, |repo|);
  }

  /** A canonical URL matches first at the host, with the owner and repository it was built from. */
  lemma MatchCanonical(s: string, owner: string, repo: string, tail: string)
    requires owner != [] && repo != [] && '/' !in owner && '/' !in repo
    requires tail == [] || tail[0] == '/'
    requires Canonical(s, owner, repo, tail)
    ensures MatchFrom(s, 0) == Some(RepoRef(owner, repo))
  {
    CanonicalHead(s, owner, repo, tail);
    CanonicalRepo(s, owner, repo, tail);
    forall j | 0 <= j < 8
      ensures RepoAt(s, j).None?
    {
      assert s[j] != Host[0];
    }
    MatchSkips(s, 0, 8);
    MatchAtHost(s, owner, repo);
  }

  /**
   * "https://github.com/owner/repo" followed by nothing, by a path, or by a trailing '/', parses
   * to that owner and repository, without ".git" when the repository ends with it.
   */
  lemma ParseCanonical(owner: string, repo: string, tail: string)
    requires owner != [] && repo != [] && '/' !in owner && '/' !in repo
    requires tail == [] || tail[0] == '/'
    requires var url := "https://github.com/" + owner + "/" + repo + tail; !IsSpace(url[|url| - 1])
    ensures ParseRepoUrl("https://github.com/" + owner + "/" + repo + tail) == Some(RepoRef(owner, StripGit(repo)))
  {
    var head := "https://github.com/" + owner + "/" + repo;
    var url := head + tail;
    assert url[0] == 'h';
    TrimUnpadded(url);
    if |tail| > 0 && tail[|tail| - 1] == '/' {
      var tail' := tail[..|tail| - 1];
      DropLast(head, tail);
      assert CleanUrl(url) == head + tail';
      MatchCanonical(CleanUrl(url), owner, repo, tail');
    } else {
      assert CleanUrl(url) == url;
      MatchCanonical(url, owner, repo, tail);
    }
  }

  lemma DropLast<T>(a: seq<T>, b: seq<T>)
    requires b != []
    ensures (a + b)[..|a + b| - 1] == a + b[..|b| - 1]
  {
  }

  // ---------------------------------------------------------------------------------------
  // Fetching the tree
  // ---------------------------------------------------------------------------------------

  /**
   * What one branch request comes to: the files of the tree, no tree (a response that is not OK
   * or a body without a `tree`), or a thrown error (the request or the JSON parse failed).
   */
  datatype TreeReply = Tree(files: seq<RepoFile>) | NoTree | Threw

  /**
   * The repository structure: `None` for a URL that does not parse; otherwise the 'main' tree,
   * or the 'master' tree when 'main' has none. A throw on either branch reaches the outer catch,
   * so 'master' is not tried after a throw on 'main', and the result is `None`. `tree(ref,
   * branch)` stands for the GitHub API request.
   */
  function FetchStructure(url: string, tree: (RepoRef, string) -> TreeReply): (r: Option<seq<RepoFile>>)
    ensures ParseRepoUrl(url).None? ==> r.None?
    ensures ParseRepoUrl(url).Some? ==>
      var ref := ParseRepoUrl(url).value;
      && (tree(ref, "main").Tree? ==> r == Some(tree(ref, "main").files))
      && (tree(ref, "main").Threw? ==> r.None?)
      && (tree(ref, "main").NoTree? && tree(ref, "master").Tree? ==> r == Some(tree(ref, "master").files))
      && (tree(ref, "main").NoTree? && !tree(ref, "master").Tree? ==> r.None?)
    ensures r.Some? <==> (
      && ParseRepoUrl(url).Some?
      && (|| tree(ParseRepoUrl(url).value, "main").Tree?
          || (tree(ParseRepoUrl(url).value, "main").NoTree? && tree(ParseRepoUrl(url).value, "master").Tree?)))
  {
    match ParseRepoUrl(url)
    case None => None
    case Some(ref) =>
      match tree(ref, "main")
      case Tree(files) => Some(files)
      case Threw => None
      case NoTree =>
        match tree(ref, "master")
        case Tree(files) => Some(files)
        case _ => None
  }

  // ---------------------------------------------------------------------------------------
  // The manifest handed to the model
  // ---------------------------------------------------------------------------------------

  /**
   * One manifest line: the folder or file marker, a space and the path. Every line starts with
   * the folder marker; the file lines are those that go on with the rest of the file marker.
   */
  function EntryLine(f: RepoFile): (r: string)
    ensures StartsWith(r, FolderMarker)
    ensures StartsWith(r, FileMarker) <==> f.kind != "tree"
    ensures EndsWith(r, " " + f.path)
  {
    var marker := if f.kind == "tree" then FolderMarker else FileMarker;
    var r := marker + " " + f.path;
    assert r[..3] == FolderMarker;
    assert r[3] == if f.kind == "tree" then ' ' else FileMarker[3];
    assert r[|r| - |" " + f.path|..] == " " + f.path;
    r
  }

  /** The lines of the first 300 entries, in order. */
  function ManifestLines(structure: seq<RepoFile>): (r: seq<string>)
    ensures |r| == if |structure| < ManifestCap then |structure| else ManifestCap
    ensures forall i :: 0 <= i < |r| ==> r[i] == EntryLine(structure[i])
  {
    var n := if |structure| < ManifestCap then |structure| else ManifestCap;
    seq(n, i requires 0 <= i < n => EntryLine(structure[i]))
  }

  /** The manifest: the lines joined by '\n', or `None` when there is no structure. */
  function Manifest(structure: Option<seq<RepoFile>>): (r: Option<string>)
    ensures r.None? <==> structure.None?
  {
    match structure
    case None => None
    case Some(fs) => Some(Join(ManifestLines(fs), "\n"))
  }

  /**
   * With no line break in any path, splitting the manifest at '\n' gives back one line per
   * entry, for the first 300 entries.
   */
  lemma ManifestSplits(fs: seq<RepoFile>)
    requires fs != []
    requires forall i :: 0 <= i < |fs| ==> '\n' !in fs[i].path
    ensures Split(Manifest(Some(fs)).value, '\n') == ManifestLines(fs)
  {
    var lines := ManifestLines(fs);
    forall i | 0 <= i < |lines|
      ensures '\n' !in lines[i]
    {
      var f := fs[i];
      var marker := if f.kind == "tree" then FolderMarker else FileMarker;
      assert lines[i] == marker + (" " + f.path);
    }
    SplitJoin(lines, '\n');
  }

  /** Entries after the 300th do not reach the manifest. */
  lemma ManifestIgnoresTail(fs: seq<RepoFile>, more: seq<RepoFile>)
    requires |fs| >= ManifestCap
    ensures Manifest(Some(fs + more)) == Manifest(Some(fs))
  {
    assert ManifestLines(fs + more) == ManifestLines(fs);
  }

  // ---------------------------------------------------------------------------------------
  // The file explorer
  // ---------------------------------------------------------------------------------------

  /**
   * The files whose lower-cased path contains the lower-cased search term, in their original
   * order; the whole list for an empty search.
   */
  function FilteredFiles(files: seq<RepoFile>, search: string): (r: seq<RepoFile>)
    ensures |r| <= |files|
    ensures search == [] ==> r == files
    ensures search != [] ==>
      forall f :: f in r <==> f in files && Contains(ToLower(f.path), ToLower(search))
  {
    if search == [] then files
    else
      var term := ToLower(search);
      Filter(files, (f: RepoFile) => Contains(ToLower(f.path), term))
  }

  /** Filtering keeps the order: the filter of a concatenation is the concatenation of the filters. */
  lemma FilteredFilesConcat(xs: seq<RepoFile>, ys: seq<RepoFile>, search: string)
    ensures FilteredFiles(xs + ys, search) == FilteredFiles(xs, search) + FilteredFiles(ys, search)
  {
    if search != [] {
      var term := ToLower(search);
      FilterConcat(xs, ys, (f: RepoFile) => Contains(ToLower(f.path), term));
    }
  }

  /** The name shown for an entry: the text after its last '/', or the whole path. */
  function DisplayName(path: string): (r: string)
    ensures |r| <= |path| && r == path[|path| - |r|..]
    ensures '/' !in r
    ensures |r| < |path| ==> path[|path| - |r| - 1] == '/'
  {
    LastPiece(path, '/')
  }

  /** The extension shown for an entry: the text after its last '.', or the whole path. */
  function Extension(path: string): (r: string)
    ensures |r| <= |path| && r == path[|path| - |r|..]
    ensures '.' !in r
    ensures |r| < |path| ==> path[|path| - |r| - 1] == '.'
  {
    LastPiece(path, '.')
  }

  /** The name of "dir/name" is "name"; a path with no '/' is its own name. */
  lemma DisplayNameOf(dir: string, name: string)
    requires '/' !in name
    ensures DisplayName(dir + "/" + name) == name
    ensures DisplayName(name) == name
  {
    LastPieceAfter(dir, name, '/');
    SplitNoSeparator(name, '/');
  }

  /** The extension of "base.ext" is "ext"; a path with no '.' is its own extension. */
  lemma ExtensionOf(base: string, ext: string)
    requires '.' !in ext
    ensures Extension(base + "." + ext) == ext
    ensures Extension(ext) == ext
  {
    LastPieceAfter(base, ext, '.');
    SplitNoSeparator(ext, '.');
  }
}

=== FILE: input_area.dfy ===
/**
 * The message composer: dictation merged into the text typed before listening started, the
 * send guard, attachment selection and removal, loading a message for editing, the placeholder
 * text and the text-area height cap.
 */
module InputArea {
  import opened Wrappers
  import opened JsText
  import opened SeqUtil
  import opened ChatTypes

  // ---------------------------------------------------------------------------------------
  // Dictation
  // ---------------------------------------------------------------------------------------

  /** One recognition result: its best transcript, and whether the recognizer has settled it. */
  datatype Segment = Segment(transcript: string, isFinal: bool)

  /** The transcripts of the final (`wanted` true) or of the interim results, in order. */
  function Collected(results: seq<Segment>, wanted: bool): string {
    if results == [] then []
    else
      var last := results[|results| - 1];
      Collected(results[..|results| - 1], wanted) + (if last.isFinal == wanted then last.transcript else [])
  }

  /** All final transcripts in order, then all interim ones in order. */
  function Heard(results: seq<Segment>): string {
    Collected(results, true) + Collected(results, false)
  }

  /** The transcript loop of the result handler: final and interim transcripts gathered separately. */
  method GatherTranscripts(results: seq<Segment>) returns (final: string, interim: string)
    ensures final == Collected(results, true) && interim == Collected(results, false)
  {
    final, interim := [], [];
    var i := 0;
    while i < |results|
      invariant 0 <= i <= |results|
      invariant final == Collected(results[..i], true)
      invariant interim == Collected(results[..i], false)
    {
      assert results[..i + 1][..i] == results[..i];
      if results[i].isFinal {
        final := final + results[i].transcript;
      } else {
        interim := interim + results[i].transcript;
      }
      i := i + 1;
    }
    assert results[..i] == results;
  }

  /** Collecting over two batches of results collects each batch in turn. */
  lemma {:induction false} CollectedConcat(xs: seq<Segment>, ys: seq<Segment>, wanted: bool)
    ensures Collected(xs + ys, wanted) == Collected(xs, wanted) + Collected(ys, wanted)
    decreases |ys|
  {
    if ys == [] {
      assert xs + ys == xs;
    } else {
      var init := ys[..|ys| - 1];
      assert (xs + ys)[..|xs + ys| - 1] == xs + init;
      CollectedConcat(xs, init, wanted);
    }
  }

  /** Every transcript is heard exactly once: the lengths add up. */
  lemma {:induction false} HeardLength(results: seq<Segment>)
    ensures |Heard(results)| == TotalLength(results)
  {
    if results != [] {
      HeardLength(results[..|results| - 1]);
    }
  }

  function TotalLength(results: seq<Segment>): nat {
    if results == [] then 0 else TotalLength(results[..|results| - 1]) + |results[|results| - 1].transcript|
  }

  /** When every result is final, the dictation is the transcripts in the order they came. */
  lemma {:induction false} AllFinalInOrder(results: seq<Segment>)
    requires forall i :: 0 <= i < |results| ==> results[i].isFinal
    ensures Collected(results, false) == []
    ensures Heard(results) == Concat(results)
  {
    if results != [] {
      var init := results[..|results| - 1];
      AllFinalInOrder(init);
      assert Collected(results, true) == Collected(init, true) + results[|results| - 1].transcript;
      assert Collected(results, false) == Collected(init, false);
    }
  }

  /** The transcripts of all results, in order. */
  function Concat(results: seq<Segment>): string {
    if results == [] then [] else Concat(results[..|results| - 1]) + results[|results| - 1].transcript
  }

  /** The separator between the text typed before listening and the transcript. */
  function Spacer(base: string, transcript: string): string {
    if base != [] && !EndsWith(base, " ") && transcript != [] then " " else ""
  }

  /** The text shown while dictating: the base, the separator, then what was heard. */
  function Dictated(base: string, results: seq<Segment>): string {
    var heard := Heard(results);
    base + Spacer(base, heard) + heard
  }

  /**
   * The dictated text extends the base with what was heard, with one space between them exactly
   * when the base is non-empty, does not end with a space and something was heard.
   */
  lemma DictatedShape(base: string, results: seq<Segment>)
    ensures var d := Dictated(base, results); var heard := Heard(results);
      && StartsWith(d, base) && EndsWith(d, heard)
      && (|d| == |base| + |heard| + 1 <==> base != [] && !EndsWith(base, " ") && heard != [])
      && (|d| == |base| + |heard| + 1 ==> d[|base|] == ' ')
  {
    var d := Dictated(base, results);
    assert d[..|base|] == base;
    assert d[|d| - |Heard(results)|..] == Heard(results);
  }

  // ---------------------------------------------------------------------------------------
  // The composer
  // ---------------------------------------------------------------------------------------

  /** What the microphone button does. */
  datatype ListenAction = ListenAlert(message: string) | StopRecognition | StartRecognition

  /** The text-area height: its content height, at most 200 pixels. */
  function TextareaHeight(scrollHeight: nat): (h: nat)
    ensures h <= 200 && h <= scrollHeight
    ensures h == scrollHeight || h == 200
  {
    if scrollHeight < 200 then scrollHeight else 200
  }

  /** The placeholder hints, one per caption. */
  datatype Hint = NeedsKey | OfflineSearch | Updating | Listening | Feelings | Prompt

  /** The caption shown for each hint. */
  function Caption(h: Hint): string {
    match h
    case NeedsKey => "Please enter API Key to start"
    case OfflineSearch => "Offline Mode: Search local notes and memory..."
    case Updating => "Update your message..."
    case Listening => "Listening..."
    case Feelings => "How are you feeling right now? I'm here to listen."
    case Prompt => "Enter a prompt here"
  }

  /** The placeholder: the first that applies of disabled, offline, editing, listening and emotional. */
  function Placeholder(disabled: bool, offline: bool, editing: bool, listening: bool, emotional: bool): Hint {
    if disabled then NeedsKey
    else if offline then OfflineSearch
    else if editing then Updating
    else if listening then Listening
    else if emotional then Feelings
    else Prompt
  }

  /** Each placeholder is shown exactly when its condition is the first that holds. */
  lemma PlaceholderPriority(disabled: bool, offline: bool, editing: bool, listening: bool, emotional: bool)
    ensures var p := Placeholder(disabled, offline, editing, listening, emotional);
      && (p == NeedsKey <==> disabled)
      && (p == OfflineSearch <==> !disabled && offline)
      && (p == Updating <==> !disabled && !offline && editing)
      && (p == Listening <==> !disabled && !offline && !editing && listening)
      && (p == Feelings <==> !disabled && !offline && !editing && !listening && emotional)
      && (p == Prompt <==> !disabled && !offline && !editing && !listening && !emotional)
  {
  }

  /** The attachments `create` produced for the files `valid` accepts, in selection order. */
  function Accepted<F>(files: seq<F>, valid: F -> bool, create: F -> Option<Attachment>): seq<Attachment> {
    if files == [] then []
    else
      var f := files[|files| - 1];
      Accepted(files[..|files| - 1], valid, create) + (if valid(f) && create(f).Some? then [create(f).value] else [])
  }

  /** Selection never adds more attachments than files, and selecting in two batches adds both in turn. */
  lemma {:induction false} AcceptedConcat<F>(xs: seq<F>, ys: seq<F>, valid: F -> bool, create: F -> Option<Attachment>)
    ensures Accepted(xs + ys, valid, create) == Accepted(xs, valid, create) + Accepted(ys, valid, create)
    ensures |Accepted(xs, valid, create)| <= |xs|
    decreases |ys|
  {
    if ys == [] {
      assert xs + ys == xs;
      AcceptedBound(xs, valid, create);
    } else {
      var init := ys[..|ys| - 1];
      assert (xs + ys)[..|xs + ys| - 1] == xs + init;
      AcceptedConcat(xs, init, valid, create);
    }
  }

  lemma {:induction false} AcceptedBound<F>(xs: seq<F>, valid: F -> bool, create: F -> Option<Attachment>)
    ensures |Accepted(xs, valid, create)| <= |xs|
  {
    if xs != [] {
      AcceptedBound(xs[..|xs| - 1], valid, create);
    }
  }

  /**
   * The composer's state: the text, the attachments, whether the recognizer is listening, the
   * text captured when listening started, and whether the browser offers speech recognition.
   */
  class Composer {
    var text: string
    var attachments: seq<Attachment>
    var isListening: bool
    var baseText: string
    const hasRecognition: bool

    constructor(recognition: bool)
      ensures text == [] && attachments == [] && !isListening && baseText == [] && hasRecognition == recognition
    {
      text := [];
      attachments := [];
      isListening := false;
      baseText := [];
      hasRecognition := recognition;
    }

    /** The microphone button: offline or without a recognizer it alerts; otherwise it stops or starts. */
    method ToggleListening(offline: bool) returns (action: ListenAction)
      modifies this
      ensures offline ==> action == ListenAlert("Voice input requires an internet connection.")
      ensures !offline && !hasRecognition ==> action == ListenAlert("Speech to text is not supported in this browser.")
      ensures !offline && hasRecognition && isListening ==> action == StopRecognition
      ensures !offline && hasRecognition && !old(isListening) ==> action == StartRecognition && baseText == text
      ensures action != StartRecognition ==> baseText == old(baseText)
      ensures text == old(text) && attachments == old(attachments) && isListening == old(isListening)
    {
      if offline {
        action := ListenAlert("Voice input requires an internet connection.");
      } else if !hasRecognition {
        action := ListenAlert("Speech to text is not supported in this browser.");
      } else if isListening {
        action := StopRecognition;
      } else {
        baseText := text;
        action := StartRecognition;
      }
    }

    /** The recognizer started or ended (or failed). */
    method SetListening(on: bool)
      modifies this
      ensures isListening == on
      ensures text == old(text) && attachments == old(attachments) && baseText == old(baseText)
    {
      isListening := on;
    }

    /** A batch of recognition results: the text becomes the base followed by what was heard. */
    method OnResult(results: seq<Segment>)
      modifies this
      ensures text == Dictated(baseText, results)
      ensures attachments == old(attachments) && baseText == old(baseText) && isListening == old(isListening)
    {
      var final, interim := GatherTranscripts(results);
      var current := final + interim;
      var spacer := if baseText != [] && !EndsWith(baseText, " ") && current != [] then " " else "";
      text := baseText + spacer + current;
    }

    /**
     * The send button: nothing happens when there is neither text nor an attachment, or while
     * loading or disabled; otherwise the text and attachments are sent and both are cleared.
     */
    method Send(isLoading: bool, disabled: bool) returns (sent: Option<(string, seq<Attachment>)>, stopRecognition: bool)
      modifies this
      ensures (Trim(old(text)) == [] && old(attachments) == []) || isLoading || disabled ==>
        sent.None? && !stopRecognition && text == old(text) && attachments == old(attachments)
      ensures !((Trim(old(text)) == [] && old(attachments) == []) || isLoading || disabled) ==>
        && sent == Some((old(text), old(attachments))) && text == [] && attachments == []
        && stopRecognition == (isListening && hasRecognition)
      ensures isListening == old(isListening) && baseText == old(baseText)
    {
      if (Trim(text) == [] && attachments == []) || isLoading || disabled {
        sent := None;
        stopRecognition := false;
      } else {
        stopRecognition := isListening && hasRecognition;
        sent := Some((text, attachments));
        text := [];
        attachments := [];
      }
    }

    /**
     * Files chosen in the picker: nothing when offline; otherwise each file that passes
     * validation and whose attachment is created is appended, in the order chosen.
     */
    method SelectFiles<F>(offline: bool, files: seq<F>, valid: F -> bool, create: F -> Option<Attachment>)
      modifies this
      ensures offline ==> attachments == old(attachments)
      ensures !offline ==> attachments == old(attachments) + Accepted(files, valid, create)
      ensures text == old(text) && isListening == old(isListening) && baseText == old(baseText)
    {
      if offline {
        return;
      }
      var i := 0;
      while i < |files|
        invariant 0 <= i <= |files|
        invariant attachments == old(attachments) + Accepted(files[..i], valid, create)
        invariant text == old(text) && isListening == old(isListening) && baseText == old(baseText)
      {
        assert files[..i + 1][..i] == files[..i];
        var f := files[i];
        if valid(f) {
          var made := create(f);
          if made.Some? {
            attachments := attachments + [made.value];
          }
        }
        i := i + 1;
      }
      assert files[..i] == files;
    }

    /** The remove button of an attachment: every attachment with that id goes, the rest stay in order. */
    method RemoveAttachment(id: string)
      modifies this
      ensures attachments == Filter(old(attachments), (a: Attachment) => a.id != id)
      ensures forall a :: a in attachments <==> a in old(attachments) && a.id != id
      ensures text == old(text) && isListening == old(isListening) && baseText == old(baseText)
    {
      attachments := Filter(attachments, (a: Attachment) => a.id != id);
    }

    /** Starting an edit loads the message; ending it clears the composer. */
    method LoadEdit(edit: Option<Message>)
      modifies this
      ensures edit.Some? ==>
        text == edit.value.text && attachments == edit.value.attachments && baseText == edit.value.text
      ensures edit.None? ==> text == [] && attachments == [] && baseText == old(baseText)
      ensures isListening == old(isListening)
    {
      if edit.Some? {
        text := edit.value.text;
        attachments := edit.value.attachments;
        baseText := edit.value.text;
      } else {
        text := [];
        attachments := [];
      }
    }
  }
}

=== FILE: js_text.dfy ===
/**
 * The parts of JavaScript's (and Python's) string behaviour the rest of the model relies on:
 * the whitespace that `trim()` and the regular-expression class `\s` remove or match,
 * `toLowerCase()` on ASCII letters, `includes`, `startsWith`, `endsWith`, decimal formatting
 * of naturals, `padStart`/`zfill`, `join`, `split` and `slice(-n)`.
 */
module JsText {

  /** ECMAScript WhiteSpace and LineTerminator code points (what `trim` strips and `\s` matches). */
  predicate IsSpace(c: char) {
    || c == ' ' || c == '\t' || c == '\n' || c == '\r' || c == '\U{000B}' || c == '\U{000C}'
    || c == '\U{00A0}' || c == '\U{1680}' || ('\U{2000}' <= c <= '\U{200A}')
    || c == '\U{2028}' || c == '\U{2029}' || c == '\U{202F}' || c == '\U{205F}'
    || c == '\U{3000}' || c == '\U{FEFF}'
  }

  /** The line terminators, which the regular-expression `.` does not match. */
  predicate IsLineTerminator(c: char) {
    c == '\n' || c == '\r' || c == '\U{2028}' || c == '\U{2029}'
  }

  /** The regular-expression class `\w`. */
  predicate IsWordChar(c: char) {
    ('a' <= c <= 'z') || ('A' <= c <= 'Z') || ('0' <= c <= '9') || c == '_'
  }

  predicate IsDigit(c: char) {
    '0' <= c <= '9'
  }

  /** The number of whitespace characters `s` starts with. */
  function LeadingSpaces(s: string): (n: nat)
    ensures n <= |s|
    ensures forall i :: 0 <= i < n ==> IsSpace(s[i])
    ensures n == |s| || !IsSpace(s[n])
  {
    if |s| > 0 && IsSpace(s[0]) then 1 + LeadingSpaces(s[1..]) else 0
  }

  /** The number of whitespace characters `s` ends with. */
  function TrailingSpaces(s: string): (n: nat)
    ensures n <= |s|
    ensures forall i :: |s| - n <= i < |s| ==> IsSpace(s[i])
    ensures n == |s| || !IsSpace(s[|s| - n - 1])
  {
    if |s| > 0 && IsSpace(s[|s| - 1]) then 1 + TrailingSpaces(s[..|s| - 1]) else 0
  }

  /** `String.prototype.trimStart`: the input without its leading whitespace. */
  function TrimStart(s: string): (r: string)
    ensures |r| <= |s| && r == s[|s| - |r|..]
    ensures r == [] || !IsSpace(r[0])
  {
    s[LeadingSpaces(s)..]
  }

  /** `String.prototype.trimEnd`: the input without its trailing whitespace. */
  function TrimEnd(s: string): (r: string)
    ensures |r| <= |s| && r == s[..|r|]
    ensures r == [] || !IsSpace(r[|r| - 1])
  {
    s[..|s| - TrailingSpaces(s)]
  }

  /** `String.prototype.trim`. */
  function Trim(s: string): (r: string)
    ensures |r| <= |s|
    ensures r == [] || (!IsSpace(r[0]) && !IsSpace(r[|r| - 1]))
  {
    TrimEnd(TrimStart(s))
  }

  /** A trimmed string is empty exactly when every character of the input is whitespace. */
  lemma TrimEmptyIff(s: string)
    ensures Trim(s) == [] <==> forall i :: 0 <= i < |s| ==> IsSpace(s[i])
  {
    var t := TrimStart(s);
    if Trim(s) == [] {
      assert t == [];
    } else {
      assert !IsSpace(Trim(s)[0]);
      assert t != [] && !IsSpace(t[0]);
      assert s[|s| - |t|] == t[0];
    }
  }

  /** Whitespace in front of a string that does not start with whitespace is all that is counted as leading. */
  lemma {:induction false} LeadingSpacesPadded(p: string, r: string)
    requires forall i :: 0 <= i < |p| ==> IsSpace(p[i])
    requires r == [] || !IsSpace(r[0])
    ensures LeadingSpaces(p + r) == |p|
  {
    if p != [] {
      assert (p + r)[1..] == p[1..] + r;
      LeadingSpacesPadded(p[1..], r);
    } else {
      assert p + r == r;
    }
  }

  /** Whitespace after a string that does not end with whitespace is all that is counted as trailing. */
  lemma {:induction false} TrailingSpacesPadded(r: string, q: string)
    requires forall i :: 0 <= i < |q| ==> IsSpace(q[i])
    requires r == [] || !IsSpace(r[|r| - 1])
    ensures TrailingSpaces(r + q) == |q|
  {
    if q != [] {
      assert (r + q)[..|r + q| - 1] == r + q[..|q| - 1];
      TrailingSpacesPadded(r, q[..|q| - 1]);
    } else {
      assert r + q == r;
    }
  }

  /** Leading whitespace in front of a string that does not start with whitespace is exactly what `trimStart` removes. */
  lemma TrimStartPadded(p: string, r: string)
    requires forall i :: 0 <= i < |p| ==> IsSpace(p[i])
    requires r == [] || !IsSpace(r[0])
    ensures TrimStart(p + r) == r
  {
    LeadingSpacesPadded(p, r);
    assert (p + r)[|p|..] == r;
  }

  /** Trailing whitespace after a string that does not end with whitespace is exactly what `trimEnd` removes. */
  lemma TrimEndPadded(r: string, q: string)
    requires forall i :: 0 <= i < |q| ==> IsSpace(q[i])
    requires r == [] || !IsSpace(r[|r| - 1])
    ensures TrimEnd(r + q) == r
  {
    TrailingSpacesPadded(r, q);
    assert (r + q)[..|r|] == r;
  }

  /**
   * `trim` inverts padding: surrounding a string with no whitespace at either end by whitespace
   * and trimming gives the string back; and every string is its trimmed self so padded.
   */
  lemma TrimPadded(p: string, m: string, q: string)
    requires forall i :: 0 <= i < |p| ==> IsSpace(p[i])
    requires forall i :: 0 <= i < |q| ==> IsSpace(q[i])
    requires m == [] || (!IsSpace(m[0]) && !IsSpace(m[|m| - 1]))
    requires m != [] || q == []
    ensures Trim(p + m + q) == m
  {
    assert p + m + q == p + (m + q);
    TrimStartPadded(p, m + q);
    TrimEndPadded(m, q);
  }

  /** A string with no whitespace at either end is its own trimmed form. */
  lemma TrimUnpadded(s: string)
    requires s != [] && !IsSpace(s[0]) && !IsSpace(s[|s| - 1])
    ensures Trim(s) == s
  {
    var e: string := [];
    assert e + s + e == s;
    TrimPadded(e, s, e);
  }

  /** A sequence is the concatenation of its three slices at `i` and `j`. */
  lemma Reassemble<T>(s: seq<T>, i: nat, j: nat)
    requires i <= j <= |s|
    ensures s == s[..i] + s[i..j] + s[j..]
  {
  }

  /** A prefix of a suffix is a slice. */
  lemma SliceOfSuffix<T>(s: seq<T>, k: nat, n: nat)
    requires k + n <= |s|
    ensures s[k..][..n] == s[k..k + n]
  {
  }

  /** The trimmed string is the slice of the input after its leading whitespace. */
  lemma {:induction false} TrimSlice(s: string)
    ensures LeadingSpaces(s) + |Trim(s)| <= |s|
    ensures s[LeadingSpaces(s)..LeadingSpaces(s) + |Trim(s)|] == Trim(s)
  {
    var k := LeadingSpaces(s);
    var t := s[k..];
    assert Trim(s) == t[..|Trim(s)|];
    SliceOfSuffix(s, k, |Trim(s)|);
  }

  /** Everything after the trimmed slice is whitespace. */
  lemma {:induction false} TrimTail(s: string)
    ensures forall i :: LeadingSpaces(s) + |Trim(s)| <= i < |s| ==> IsSpace(s[i])
  {
    var k := LeadingSpaces(s);
    var t := s[k..];
    var m := TrailingSpaces(t);
    assert |Trim(s)| == |t| - m;
    forall i | k + |t| - m <= i < |s|
      ensures IsSpace(s[i])
    {
      assert s[i] == t[i - k];
    }
  }

  /** The trimmed string sits at some offset `k` of the input, with only whitespace before and after it. */
  lemma {:induction false} TrimSplits(s: string) returns (k: nat)
    ensures k + |Trim(s)| <= |s| && s[k..k + |Trim(s)|] == Trim(s)
    ensures forall i :: 0 <= i < k ==> IsSpace(s[i])
    ensures forall i :: k + |Trim(s)| <= i < |s| ==> IsSpace(s[i])
  {
    k := LeadingSpaces(s);
    TrimSlice(s);
    TrimTail(s);
  }

  function LowerChar(c: char): char {
    if 'A' <= c <= 'Z' then (c as int + 32) as char else c
  }

  /** `toLowerCase` on ASCII letters; every other character is kept. */
  function ToLower(s: string): (r: string)
    ensures |r| == |s|
    ensures forall i :: 0 <= i < |s| ==> r[i] == LowerChar(s[i])
  {
    seq(|s|, i requires 0 <= i < |s| => LowerChar(s[i]))
  }

  predicate StartsWith(s: string, prefix: string) {
    |prefix| <= |s| && s[..|prefix|] == prefix
  }

  predicate EndsWith(s: string, suffix: string) {
    |suffix| <= |s| && s[|s| - |suffix|..] == suffix
  }

  /** Appending keeps a prefix. */
  lemma AppendKeepsPrefix(a: string, b: string, p: string)
    requires StartsWith(a, p)
    ensures StartsWith(a + b, p)
  {
    assert (a + b)[..|p|] == a[..|p|];
  }

  /** `s.includes(t)`: `t` occurs in `s` at some position. */
  predicate Contains(s: string, t: string)
    decreases |s|
  {
    StartsWith(s, t) || (|s| > 0 && Contains(s[1..], t))
  }

  lemma {:induction false} ContainsAt(s: string, t: string, i: nat)
    requires i + |t| <= |s| && s[i..i + |t|] == t
    ensures Contains(s, t)
  {
    if i > 0 {
      assert s[1..][i - 1..i - 1 + |t|] == s[i..i + |t|];
      ContainsAt(s[1..], t, i - 1);
    } else {
      assert s[..|t|] == t;
    }
  }

  lemma {:induction false} ContainsWitness(s: string, t: string) returns (i: nat)
    requires Contains(s, t)
    ensures i + |t| <= |s| && s[i..i + |t|] == t
  {
    if StartsWith(s, t) {
      i := 0;
    } else {
      var j := ContainsWitness(s[1..], t);
      assert s[1..][j..j + |t|] == s[j + 1..j + 1 + |t|];
      i := j + 1;
    }
  }

  function DigitChar(d: nat): (c: char)
    requires d < 10
    ensures IsDigit(c)
  {
    ('0' as int + d) as char
  }

  function DigitValue(c: char): nat
    requires IsDigit(c)
  {
    c as int - '0' as int
  }

  function Pow10(k: nat): (r: nat)
    ensures r >= 1
  {
    if k == 0 then 1 else 10 * Pow10(k - 1)
  }

  /** JavaScript's `String(n)` / `n.toString()` and Python's `str(n)` for a natural number. */
  function NatToDecimal(n: nat): (r: string)
    ensures |r| >= 1
    ensures forall i :: 0 <= i < |r| ==> IsDigit(r[i])
  {
    if n < 10 then [DigitChar(n)] else NatToDecimal(n / 10) + [DigitChar(n % 10)]
  }

  /** The number a string of decimal digits denotes (leading zeros allowed). */
  function DecimalValue(s: string): nat
    requires forall i :: 0 <= i < |s| ==> IsDigit(s[i])
  {
    if s == [] then 0 else DecimalValue(s[..|s| - 1]) * 10 + DigitValue(s[|s| - 1])
  }

  lemma {:induction false} DecimalRoundTrip(n: nat)
    ensures DecimalValue(NatToDecimal(n)) == n
  {
    var r := NatToDecimal(n);
    if n >= 10 {
      assert r[..|r| - 1] == NatToDecimal(n / 10);
      DecimalRoundTrip(n / 10);
    }
  }

  /** A number below `10^k` needs at most `k` digits; one of at least `10^(k-1)` needs `k` or more. */
  lemma {:induction false} DecimalLength(n: nat, k: nat)
    requires k >= 1
    ensures n < Pow10(k) ==> |NatToDecimal(n)| <= k
    ensures n >= Pow10(k - 1) ==> |NatToDecimal(n)| >= k
  {
    if n >= 10 && k >= 2 {
      DecimalLength(n / 10, k - 1);
    }
  }

  lemma AppendDigit(x: int, p: int, y: int, d: int)
    ensures (x * p + y) * 10 + d == x * (p * 10) + (y * 10 + d)
  {
  }

  /** Leading zeros do not change the value of a digit string. */
  lemma {:induction false} DecimalValueConcat(a: string, b: string)
    requires forall i :: 0 <= i < |a| ==> IsDigit(a[i])
    requires forall i :: 0 <= i < |b| ==> IsDigit(b[i])
    ensures forall i :: 0 <= i < |a + b| ==> IsDigit((a + b)[i])
    ensures DecimalValue(a + b) == DecimalValue(a) * Pow10(|b|) + DecimalValue(b)
  {
    if b != [] {
      var ab := a + b;
      var b' := b[..|b| - 1];
      var d := DigitValue(b[|b| - 1]);
      assert ab[..|ab| - 1] == a + b';
      assert ab[|ab| - 1] == b[|b| - 1];
      DecimalValueConcat(a, b');
      var x, p := DecimalValue(a), Pow10(|b'|);
      assert DecimalValue(ab) == DecimalValue(a + b') * 10 + d;
      assert DecimalValue(b) == DecimalValue(b') * 10 + d;
      assert Pow10(|b|) == p * 10;
      AppendDigit(x, p, DecimalValue(b'), d);
    } else {
      assert a + b == a;
    }
  }

  function Repeat(c: char, n: nat): (r: string)
    ensures |r| == n && forall i :: 0 <= i < n ==> r[i] == c
  {
    if n == 0 then [] else [c] + Repeat(c, n - 1)
  }

  lemma {:induction false} ZerosValue(n: nat)
    ensures forall i :: 0 <= i < n ==> IsDigit(Repeat('0', n)[i])
    ensures DecimalValue(Repeat('0', n)) == 0
  {
    if n > 0 {
      var z := Repeat('0', n);
      assert z[..n - 1] == Repeat('0', n - 1);
      ZerosValue(n - 1);
    }
  }

  /** `s.padStart(width, c)` (and Python's `zfill` when `c` is '0' and `s` has no sign). */
  function PadStart(s: string, width: nat, c: char): (r: string)
    ensures |r| == if |s| < width then width else |s|
    ensures EndsWith(r, s)
    ensures forall i :: 0 <= i < |r| - |s| ==> r[i] == c
  {
    if |s| < width then Repeat(c, width - |s|) + s else s
  }

  /** `parts.join(sep)`. */
  function Join(parts: seq<string>, sep: string): string {
    if |parts| == 0 then ""
    else if |parts| == 1 then parts[0]
    else parts[0] + sep + Join(parts[1..], sep)
  }

  /**
   * `s.split(c)` for a one-character separator: the pieces between the separators, in order,
   * with an empty piece before a leading, after a trailing and between two adjacent separators.
   */
  function Split(s: string, c: char): (r: seq<string>)
    ensures |r| >= 1
    decreases |s|
  {
    if s == [] then [""]
    else
      var rest := Split(s[1..], c);
      if s[0] == c then [""] + rest else [[s[0]] + rest[0]] + rest[1..]
  }

  /** A string without the separator splits into itself alone. */
  lemma {:induction false} SplitNoSeparator(s: string, c: char)
    requires c !in s
    ensures Split(s, c) == [s]
  {
    if s != [] {
      SplitNoSeparator(s[1..], c);
      assert [s[0]] + s[1..] == s;
    }
  }

  /** Splitting at the first separator: the piece before it, then the pieces of the rest. */
  lemma {:induction false} SplitFirst(p: string, t: string, c: char)
    requires c !in p
    ensures Split(p + [c] + t, c) == [p] + Split(t, c)
  {
    var s := p + [c] + t;
    if p == [] {
      assert s[1..] == t;
    } else {
      assert s[1..] == p[1..] + [c] + t;
      SplitFirst(p[1..], t, c);
      assert [p[0]] + p[1..] == p;
    }
  }

  /** `split` undoes `join` when no piece holds the separator. */
  lemma {:induction false} SplitJoin(parts: seq<string>, c: char)
    requires |parts| >= 1
    requires forall i :: 0 <= i < |parts| ==> c !in parts[i]
    ensures Split(Join(parts, [c]), c) == parts
  {
    if |parts| == 1 {
      SplitNoSeparator(parts[0], c);
    } else {
      SplitJoin(parts[1..], c);
      assert parts[0] + [c] + Join(parts[1..], [c]) == Join(parts, [c]);
      SplitFirst(parts[0], Join(parts[1..], [c]), c);
      assert [parts[0]] + parts[1..] == parts;
    }
  }

  /** `join` undoes `split`. */
  lemma {:induction false} JoinSplit(s: string, c: char)
    ensures Join(Split(s, c), [c]) == s
  {
    if s != [] {
      var rest := Split(s[1..], c);
      JoinSplit(s[1..], c);
      if s[0] == c {
        assert ([""] + rest)[1..] == rest;
      } else {
        var r := [[s[0]] + rest[0]] + rest[1..];
        assert r[1..] == rest[1..];
        if |rest| > 1 {
          assert Join(rest, [c]) == rest[0] + [c] + Join(rest[1..], [c]);
        }
      }
    }
  }

  /** The last piece of a split: the longest suffix without the separator. */
  function LastPiece(s: string, c: char): (r: string)
    ensures |r| <= |s| && r == s[|s| - |r|..]
    ensures c !in r
    ensures |r| < |s| ==> s[|s| - |r| - 1] == c
  {
    LastPieceIsSuffix(s, c);
    var parts := Split(s, c);
    parts[|parts| - 1]
  }

  lemma {:induction false} LastPieceIsSuffix(s: string, c: char)
    ensures var parts := Split(s, c); var r := parts[|parts| - 1];
      && |r| <= |s| && r == s[|s| - |r|..]
      && c !in r
      && (|r| < |s| ==> s[|s| - |r| - 1] == c)
      && (|parts| > 1 <==> |r| < |s|)
  {
    if s != [] {
      var t := s[1..];
      var rest := Split(t, c);
      LastPieceIsSuffix(t, c);
      var l := rest[|rest| - 1];
      assert t[|t| - |l|..] == s[|s| - |l|..];
      var parts := Split(s, c);
      if s[0] == c {
        assert parts == [""] + rest;
        assert parts[|parts| - 1] == l;
      } else if |rest| == 1 {
        assert parts == [[s[0]] + l];
        assert [s[0]] + t == s;
      } else {
        assert parts == [[s[0]] + rest[0]] + rest[1..];
        assert parts[|parts| - 1] == l;
      }
    }
  }

  /** The last piece after a separator is what follows the last separator. */
  lemma LastPieceAfter(a: string, b: string, c: char)
    requires c !in b
    ensures LastPiece(a + [c] + b, c) == b
  {
    var s := a + [c] + b;
    var r := LastPiece(s, c);
    SuffixAround(a, b, c, r);
    assert s[|s| - |b|..] == b;
  }

  /** A suffix of `a + [c] + b` longer than `b` holds the `c`; a shorter one is preceded by a character of `b`. */
  lemma SuffixAround(a: string, b: string, c: char, r: string)
    requires var s := a + [c] + b; |r| <= |s| && r == s[|s| - |r|..]
    ensures |r| > |b| ==> c in r
    ensures |r| < |b| ==> (a + [c] + b)[|a + [c] + b| - |r| - 1] in b
  {
    var s := a + [c] + b;
    if |r| > |b| {
      assert r[|r| - |b| - 1] == s[|a|];
    }
    if |r| < |b| {
      assert s[|s| - |r| - 1] == b[|b| - |r| - 1];
    }
  }

  /** `xs.slice(-n)` for `n > 0`: the last `n` elements, or all of them when there are fewer. */
  function LastN<T>(xs: seq<T>, n: nat): (r: seq<T>)
    requires n > 0
    ensures |r| == if |xs| < n then |xs| else n
    ensures forall i :: 0 <= i < |r| ==> r[i] == xs[|xs| - |r| + i]
  {
    if |xs| <= n then xs else xs[|xs| - n..]
  }
}

=== FILE: live_audio.dfy ===
/**
 * Microphone resampling of the live voice session: nearest-index decimation of a block of
 * samples from the input context's rate to the 16 kHz the session expects.
 *
 * Samples are `real`s. The source computes `ratio = inputRate / outputRate` and the floors in
 * floating point; here they are exact rational floors, `(len * out) / in` and `(i * in) / out`.
 */
module LiveAudio {

  /** The rate the live session's audio input is sent at. */
  const SessionInputRate: nat := 16000

  /** The length of the resampled block: `floor(len / (in / out))`. */
  function DownsampledLength(len: nat, inputRate: nat, outputRate: nat): nat
    requires inputRate > 0 && outputRate > 0
  {
    (len * outputRate) / inputRate
  }

  /** The input index output sample `i` is copied from: `floor(i * (in / out))`. */
  function SourceIndex(i: nat, inputRate: nat, outputRate: nat): nat
    requires inputRate > 0 && outputRate > 0
  {
    (i * inputRate) / outputRate
  }

  /** Every index the resampler reads lies inside the input block. */
  lemma SourceIndexInBounds(len: nat, inputRate: nat, outputRate: nat, i: nat)
    requires inputRate > 0 && outputRate > 0
    requires i < DownsampledLength(len, inputRate, outputRate)
    ensures SourceIndex(i, inputRate, outputRate) < len
  {
    var n := DownsampledLength(len, inputRate, outputRate);
    assert n * inputRate <= len * outputRate by {
      DivMulBound(len * outputRate, inputRate);
    }
    assert (i + 1) * inputRate <= n * inputRate by {
      MulMonotone(i + 1, n, inputRate);
    }
    assert i * inputRate < len * outputRate;
    DivBelow(i * inputRate, len, outputRate);
  }

  lemma DivMulBound(a: nat, b: nat)
    requires b > 0
    ensures (a / b) * b <= a
  {
  }

  lemma MulMonotone(x: nat, y: nat, k: nat)
    requires x <= y
    ensures x * k <= y * k
  {
  }

  lemma MulCancelLess(q: nat, len: nat, b: nat)
    ensures q * b < len * b ==> q < len
  {
    if q >= len {
      MulMonotone(len, q, b);
    }
  }

  lemma DivBelow(a: nat, len: nat, b: nat)
    requires b > 0 && a < len * b
    ensures a / b < len
  {
    DivMulBound(a, b);
    MulCancelLess(a / b, len, b);
  }

  /** The resampled block as a value: the input itself when the rates agree. */
  function Downsampled(buffer: seq<real>, inputRate: nat, outputRate: nat): (r: seq<real>)
    requires inputRate > 0 && outputRate > 0
  {
    if outputRate == inputRate then buffer
    else
      seq(DownsampledLength(|buffer|, inputRate, outputRate), i requires 0 <= i < DownsampledLength(|buffer|, inputRate, outputRate) =>
        SourceIndexInBounds(|buffer|, inputRate, outputRate, i);
        buffer[SourceIndex(i, inputRate, outputRate)])
  }

  /**
   * With different rates the resampled block has `floor(len * out / in)` samples, and sample `i`
   * is input sample `floor(i * in / out)`.
   */
  lemma DownsampledAt(buffer: seq<real>, inputRate: nat, outputRate: nat, i: nat)
    requires inputRate > 0 && outputRate > 0 && inputRate != outputRate
    requires i < DownsampledLength(|buffer|, inputRate, outputRate)
    ensures |Downsampled(buffer, inputRate, outputRate)| == DownsampledLength(|buffer|, inputRate, outputRate)
    ensures SourceIndex(i, inputRate, outputRate) < |buffer|
    ensures Downsampled(buffer, inputRate, outputRate)[i] == buffer[SourceIndex(i, inputRate, outputRate)]
  {
    SourceIndexInBounds(|buffer|, inputRate, outputRate, i);
  }

  /** Going from 48 kHz to 16 kHz keeps every third sample, starting with the first. */
  lemma DownsampleThirds(buffer: seq<real>, i: nat)
    requires i < |buffer| / 3
    ensures |Downsampled(buffer, 48000, SessionInputRate)| == |buffer| / 3
    ensures Downsampled(buffer, 48000, SessionInputRate)[i] == buffer[3 * i]
  {
    assert DownsampledLength(|buffer|, 48000, 16000) == |buffer| / 3;
    assert SourceIndex(i, 48000, 16000) == 3 * i;
    DownsampledAt(buffer, 48000, SessionInputRate, i);
  }

  /**
   * `downsampleBuffer`: the same array when the rates agree, otherwise a new array filled by
   * copying, for each output position, the input sample at the scaled index.
   */
  method DownsampleBuffer(buffer: array<real>, inputRate: nat, outputRate: nat) returns (result: array<real>)
    requires inputRate > 0 && outputRate > 0
    ensures outputRate == inputRate ==> result == buffer
    ensures outputRate != inputRate ==> fresh(result)
    ensures result[..] == Downsampled(buffer[..], inputRate, outputRate)
  {
    if outputRate == inputRate {
      return buffer;
    }
    var newLength := (buffer.Length * outputRate) / inputRate;
    result := new real[newLength];
    var i := 0;
    while i < newLength
      invariant 0 <= i <= newLength
      invariant forall k :: 0 <= k < i ==>
        SourceIndex(k, inputRate, outputRate) < buffer.Length && result[k] == buffer[SourceIndex(k, inputRate, outputRate)]
    {
      SourceIndexInBounds(buffer.Length, inputRate, outputRate, i);
      var offset := (i * inputRate) / outputRate;
      result[i] := buffer[offset];
      i := i + 1;
    }
  }
}

=== FILE: live_session.dfy ===
/**
 * The live voice session controller: the handles it acquires and releases, the playback cursor
 * and queue of scheduled audio sources, the decode chain, the transcript, the tool-call card and
 * the status and error shown to the user.
 *
 * `State` is a snapshot of everything the controller keeps (its React state and its refs); the
 * functions over `State` say what each callback does to it, and the class `LiveController` holds
 * the same data in fields and performs each callback step by step, proved to agree with them.
 *
 * The audio platform is abstract: a handle is a flag saying whether its ref is non-null, the
 * audio clock `currentTime` is a parameter `now`, a decoded audio chunk is its duration (or the
 * failure of its decode), and an audio source is a number. The `released`, `stopped` and
 * `starts` logs record the calls the controller makes on those objects.
 */
module LiveSession {
  import opened Wrappers
  import JsText
  import opened LiveTranscript
  import opened LiveTools

  datatype Status = Ready | Initializing | Connecting | Online | Failed | Disconnected

  /** The status strings the view shows. */
  function StatusText(s: Status): string {
    match s
    case Ready => "Ready"
    case Initializing => "Initializing..."
    case Connecting => "Connecting..."
    case Online => "Online"
    case Failed => "Failed"
    case Disconnected => "Disconnected"
  }

  /** The five handles, in the order `cleanup` releases them. */
  datatype Resource = LiveSessionHandle | MediaStream | CaptureProcessor | OutputContext | InputContext

  /** A decoded audio chunk: its duration in seconds, or `None` when its decode failed. */
  datatype Chunk = Chunk(duration: Option<real>)

  /** One `source.start(at)` call for a buffer of `duration` seconds. */
  datatype Start = Start(source: nat, at: real, duration: real)

  /** A server message of the live session, reduced to the parts the controller reads. */
  datatype ServerMessage = ServerMessage(
    toolCalls: seq<FunctionCall>,
    audio: Option<Chunk>,
    inputTranscription: Option<string>,
    outputTranscription: Option<string>,
    interrupted: bool)

  /** Where `connect` failed: creating either audio context, opening the microphone, or opening the session. */
  datatype FailStage = InputContextStage | OutputContextStage | MicrophoneStage | SessionStage

  datatype ConnectOutcome = Established | FailedAt(stage: FailStage, message: string)

  const NotFoundMarker := "Requested entity was not found"
  const KeyDeniedMessage := "Model or API Key access denied. Please select a valid key."
  const KeyRequiredMessage := "Requested entity was not found. This model may require a selected API key."
  const OfflineMessage := "No internet connection."

  /** The buffer added in front of the first chunk after a stall, in seconds. */
  const StallLead: real := 0.1

  /** The five handles; each flag says whether its ref currently holds an object. */
  datatype Handles = Handles(session: bool, stream: bool, processor: bool, output: bool, input: bool)

  const NoHandles := Handles(false, false, false, false, false)
  const AllHandles := Handles(true, true, true, true, true)

  /** The playback refs: the next start time, the playing sources, and the logs of start and stop calls. */
  datatype Playback = Playback(cursor: real, queue: seq<nat>, nextSource: nat, stopped: seq<nat>, starts: seq<Start>)

  /**
   * The decode chain: chunks waiting on the current chain, in arrival order, and chunks left
   * waiting on chains that were reset since.
   */
  datatype Chain = Chain(pending: seq<Chunk>, orphaned: seq<Chunk>)

  /** The mount and stop refs and the view state. */
  datatype View = View(mounted: bool, active: bool, userStopping: bool, status: Status,
                       error: Option<string>, showKeyPicker: bool, speaking: bool)

  datatype State = State(
    view: View,
    handles: Handles,
    released: seq<Resource>,
    playback: Playback,
    chain: Chain,
    transcript: seq<Entry>,
    mediaCard: Option<MediaCard>,
    responses: seq<ToolResponse>)

  /** The state of a freshly mounted view. */
  const Initial := State(View(true, false, false, Ready, None, false, false), NoHandles, [],
                         Playback(0.0, [], 0, [], []), Chain([], []), [], None, [])

  // ---------------------------------------------------------------------------------------
  // cleanup

  /** Whether the ref of `r` holds an object. */
  function IsHeld(h: Handles, r: Resource): bool {
    match r
    case LiveSessionHandle => h.session
    case MediaStream => h.stream
    case CaptureProcessor => h.processor
    case OutputContext => h.output
    case InputContext => h.input
  }

  /** The handles with the ref of `r` nulled. */
  function Without(h: Handles, r: Resource): (w: Handles)
    ensures !IsHeld(w, r)
    ensures forall q :: q != r ==> IsHeld(w, q) == IsHeld(h, q)
  {
    match r
    case LiveSessionHandle => h.(session := false)
    case MediaStream => h.(stream := false)
    case CaptureProcessor => h.(processor := false)
    case OutputContext => h.(output := false)
    case InputContext => h.(input := false)
  }

  /** `r` if it is held, else nothing. */
  function HeldOne(h: Handles, r: Resource): seq<Resource> {
    if IsHeld(h, r) then [r] else []
  }

  /** The handles held, in release order. */
  function Held(h: Handles): seq<Resource> {
    HeldOne(h, LiveSessionHandle) + HeldOne(h, MediaStream) + HeldOne(h, CaptureProcessor)
    + HeldOne(h, OutputContext) + HeldOne(h, InputContext)
  }

  /** The view after a stop: inactive and, when mounted, not speaking and 'Ready'. */
  function StoppedView(v: View): (r: View)
    ensures !r.active
    ensures v.mounted ==> r.status == Ready && !r.speaking
    ensures r.error == v.error && r.showKeyPicker == v.showKeyPicker && r.mounted == v.mounted
  {
    if v.mounted then v.(active := false, speaking := false, status := Ready) else v.(active := false)
  }

  /** Every queued source stopped and the cursor reset. */
  function Flushed(p: Playback, cursor: real): Playback {
    p.(stopped := p.stopped + p.queue, queue := [], cursor := cursor)
  }

  /** A fresh decode chain; chunks still on the old one are not cancelled. */
  function Reset(c: Chain): Chain {
    Chain([], c.orphaned + c.pending)
  }

  /**
   * `cleanup`: release every handle that is held and null it, stop every queued source, reset the
   * cursor and the decode chain, and (when mounted) clear "speaking" and show 'Ready'.
   */
  function AfterCleanup(s: State): State {
    s.(view := StoppedView(s.view),
       handles := NoHandles,
       released := s.released + Held(s.handles),
       playback := Flushed(s.playback, 0.0),
       chain := Reset(s.chain))
  }

  /**
   * After `cleanup` nothing is held, each handle that was held has been released exactly once (in
   * the fixed order), every queued source has been stopped, the queue is empty, the cursor is 0 and
   * the decode chain is fresh; the transcript, card and error are kept.
   */
  lemma CleanupReleasesAll(s: State)
    ensures var c := AfterCleanup(s);
      && c.handles == NoHandles && !c.view.active
      && c.released == s.released + Held(s.handles)
      && c.playback.stopped == s.playback.stopped + s.playback.queue
      && c.playback.queue == [] && c.playback.cursor == 0.0 && c.chain.pending == []
      && (s.view.mounted ==> c.view.status == Ready && !c.view.speaking)
      && c.transcript == s.transcript && c.view.error == s.view.error && c.mediaCard == s.mediaCard
  {
  }

  /** `cleanup` releases exactly the handles that are held, each one once. */
  lemma HeldExactlyOnce(h: Handles)
    ensures forall r :: r in Held(h) <==> IsHeld(h, r)
    ensures forall i, j :: 0 <= i < j < |Held(h)| ==> Held(h)[i] != Held(h)[j]
  {
    forall r
      ensures r in Held(h) <==> IsHeld(h, r)
    {
      assert r in HeldOne(h, r) <==> IsHeld(h, r);
    }
  }

  /** Calling `cleanup` again releases and stops nothing more: it is idempotent. */
  lemma CleanupIdempotent(s: State)
    ensures AfterCleanup(AfterCleanup(s)) == AfterCleanup(s)
  {
    var c := AfterCleanup(s);
    assert Held(c.handles) == [];
    assert c.released + [] == c.released;
    assert c.playback.stopped + [] == c.playback.stopped;
    assert c.chain.orphaned + [] == c.chain.orphaned;
  }

  /** Unmounting marks the stop as user-initiated and cleans up without touching the view state. */
  function AfterUnmount(s: State): State {
    AfterCleanup(s.(view := s.view.(mounted := false, userStopping := true)))
  }

  /** After unmounting nothing is held and the status, error and "speaking" flag are left as they were. */
  lemma UnmountKeepsView(s: State)
    ensures var t := AfterUnmount(s);
      && t.handles == NoHandles && !t.view.mounted && t.view.userStopping
      && t.view.status == s.view.status && t.view.speaking == s.view.speaking && t.view.error == s.view.error
  {
  }

  // ---------------------------------------------------------------------------------------
  // Playback

  /** The time a chunk starts at: the cursor, or `now + 0.1` when the cursor is behind the clock. */
  function StartAt(cursor: real, now: real): (at: real)
    ensures at >= now
    ensures cursor >= now ==> at == cursor
    ensures cursor < now ==> at == now + StallLead
  {
    if cursor < now then now + StallLead else cursor
  }

  /** A new source for a buffer of `duration` seconds, started at `StartAt` and queued. */
  function Enqueue(p: Playback, duration: real, now: real): Playback {
    var at := StartAt(p.cursor, now);
    p.(cursor := at + duration,
       queue := p.queue + [p.nextSource],
       starts := p.starts + [Start(p.nextSource, at, duration)],
       nextSource := p.nextSource + 1)
  }

  /**
   * `schedulePlayback` of a buffer of `duration` seconds at clock time `now`: nothing without an
   * output context; otherwise the source is enqueued and (when mounted) "speaking" is set.
   */
  function AfterSchedule(s: State, duration: real, now: real): State {
    if !s.handles.output then s
    else
      s.(playback := Enqueue(s.playback, duration, now),
         view := if s.view.mounted then s.view.(speaking := true) else s.view)
  }

  /** The effect of scheduling, and that nothing is played when there is no output context. */
  lemma ScheduleEffect(s: State, duration: real, now: real)
    ensures !s.handles.output ==> AfterSchedule(s, duration, now) == s
    ensures s.handles.output ==> var p := AfterSchedule(s, duration, now).playback;
      && p.starts == s.playback.starts + [Start(s.playback.nextSource, StartAt(s.playback.cursor, now), duration)]
      && p.starts[|p.starts| - 1].at >= now
      && p.cursor == p.starts[|p.starts| - 1].at + duration
      && p.queue == s.playback.queue + [s.playback.nextSource]
      && (s.view.mounted ==> AfterSchedule(s, duration, now).view.speaking)
  {
  }

  /**
   * Two chunks scheduled without a stall play back to back: when the second is scheduled no later
   * than the end of the first, it starts exactly where the first ends.
   */
  lemma BackToBack(s: State, d1: real, now1: real, d2: real, now2: real)
    requires s.handles.output
    requires now2 <= AfterSchedule(s, d1, now1).playback.cursor
    ensures var p := AfterSchedule(AfterSchedule(s, d1, now1), d2, now2).playback;
      && |p.starts| == |s.playback.starts| + 2
      && p.starts[|p.starts| - 1].at == p.starts[|p.starts| - 2].at + d1
  {
  }

  /** `indexOf` followed by `splice(idx, 1)`: the first occurrence of `x` removed, if any. */
  function RemoveFirst(q: seq<nat>, x: nat): (r: seq<nat>)
    ensures x in q ==> |r| == |q| - 1
    ensures x !in q ==> r == q
    ensures multiset(r) == multiset(q) - multiset{x}
  {
    if q == [] then []
    else
      assert q == [q[0]] + q[1..];
      if q[0] == x then q[1..]
      else [q[0]] + RemoveFirst(q[1..], x)
  }

  /** A source's `onended`: only that source leaves the queue; "speaking" clears once the queue is empty. */
  function AfterSourceEnded(s: State, source: nat): State {
    var q := RemoveFirst(s.playback.queue, source);
    s.(playback := s.playback.(queue := q),
       view := if |q| == 0 && s.view.mounted then s.view.(speaking := false) else s.view)
  }

  /**
   * Ending one source removes exactly that source and keeps the others; "speaking" is cleared
   * exactly when the queue becomes empty (in a mounted view), and is otherwise unchanged.
   */
  lemma SourceEndedEffect(s: State, source: nat)
    ensures var t := AfterSourceEnded(s, source);
      && multiset(t.playback.queue) == multiset(s.playback.queue) - multiset{source}
      && (forall x :: x in t.playback.queue ==> x in s.playback.queue)
      && (t.view.speaking != s.view.speaking <==> s.view.speaking && t.playback.queue == [] && s.view.mounted)
      && t.playback.cursor == s.playback.cursor && t.playback.starts == s.playback.starts
  {
    var q := AfterSourceEnded(s, source).playback.queue;
    forall x | x in q
      ensures x in s.playback.queue
    {
      assert x in multiset(q);
    }
    if q == [] {
      assert |q| == 0;
    }
  }

  /** The head of the decode chain settles: a decoded chunk is scheduled, a failed decode is skipped. */
  function AfterChainSettled(s: State, now: real): State {
    if s.chain.pending == [] then s
    else
      var c := s.chain.pending[0];
      var t := s.(chain := s.chain.(pending := s.chain.pending[1..]));
      if c.duration.Some? then AfterSchedule(t, c.duration.value, now) else t
  }

  /** A chunk left on a chain that was reset settles; it is scheduled like any other. */
  function AfterOrphanSettled(s: State, i: nat, now: real): State {
    if i >= |s.chain.orphaned| then s
    else
      var c := s.chain.orphaned[i];
      var t := s.(chain := s.chain.(orphaned := s.chain.orphaned[..i] + s.chain.orphaned[i + 1..]));
      if c.duration.Some? then AfterSchedule(t, c.duration.value, now) else t
  }

  /**
   * Chunks on the current chain are scheduled in arrival order: two decoded chunks at the head of
   * the chain get consecutive sources, the first one first.
   */
  lemma ChainFifo(s: State, d1: real, d2: real, now1: real, now2: real)
    requires s.handles.output && |s.chain.pending| >= 2
    requires s.chain.pending[0] == Chunk(Some(d1)) && s.chain.pending[1] == Chunk(Some(d2))
    ensures var t := AfterChainSettled(AfterChainSettled(s, now1), now2);
      var n := |s.playback.starts|;
      && t.chain.pending == s.chain.pending[2..]
      && t.playback.starts[n] == Start(s.playback.nextSource, StartAt(s.playback.cursor, now1), d1)
      && t.playback.starts[n + 1].source == s.playback.nextSource + 1 && t.playback.starts[n + 1].duration == d2
  {
    assert s.chain.pending[1..][1..] == s.chain.pending[2..];
  }

  // ---------------------------------------------------------------------------------------
  // Server messages

  /** The `interrupted` signal: fresh chain, every queued source stopped, cursor at the clock. */
  function AfterInterrupt(s: State, now: real): State {
    s.(chain := Reset(s.chain),
       playback := Flushed(s.playback, if s.handles.output then now else s.playback.cursor),
       view := if s.view.mounted then s.view.(speaking := false) else s.view)
  }

  /** After an interruption nothing queued is still playing, and new audio is scheduled from the clock. */
  lemma InterruptFlushes(s: State, now: real, d: real, later: real)
    requires s.handles.output
    ensures var t := AfterInterrupt(s, now);
      && t.playback.queue == [] && t.chain.pending == []
      && t.playback.stopped == s.playback.stopped + s.playback.queue
      && t.playback.cursor == now && (s.view.mounted ==> !t.view.speaking)
      && AfterSchedule(t, d, later).playback.starts[|s.playback.starts|].at == StartAt(now, later)
    ensures later <= now ==> AfterSchedule(AfterInterrupt(s, now), d, later).playback.starts[|s.playback.starts|].at == now
    ensures later > now ==> AfterSchedule(AfterInterrupt(s, now), d, later).playback.starts[|s.playback.starts|].at == later + StallLead
  {
  }

  /** The calls of one message: a card for the last `play_media` call (when mounted) and one response per call. */
  function AfterToolCalls(s: State, calls: seq<FunctionCall>): State {
    s.(mediaCard := LastCard(s.mediaCard, calls, s.view.mounted), responses := s.responses + Responses(calls))
  }

  /** One server message: tool calls, then audio, then transcription, then the interruption signal. */
  function AfterMessage(s: State, m: ServerMessage, freshId: string, now: real): State {
    var s1 := AfterToolCalls(s, m.toolCalls);
    var s2 := if m.audio.Some? then s1.(chain := s1.chain.(pending := s1.chain.pending + [m.audio.value])) else s1;
    var s3 := s2.(transcript := Accept(s2.transcript, m.inputTranscription, m.outputTranscription, s2.view.mounted, freshId));
    if m.interrupted then AfterInterrupt(s3, now) else s3
  }

  /**
   * A message without an interruption appends its chunk to the current chain and changes neither
   * the queue nor the cursor; one with an interruption moves every pending chunk, including its
   * own, off the current chain.
   */
  lemma MessageAudio(s: State, m: ServerMessage, freshId: string, now: real)
    ensures var t := AfterMessage(s, m, freshId, now);
      var added := if m.audio.Some? then [m.audio.value] else [];
      && (!m.interrupted ==> t.chain.pending == s.chain.pending + added && t.playback == s.playback)
      && (m.interrupted ==>
            t.chain.pending == [] && t.chain.orphaned == s.chain.orphaned + (s.chain.pending + added)
            && t.playback.queue == [])
  {
  }

  /** The transcript keeps alternating speakers through any message, and a user fragment is appended whole. */
  lemma MessageTranscript(s: State, m: ServerMessage, freshId: string, now: real)
    requires Alternating(s.transcript)
    ensures var t := AfterMessage(s, m, freshId, now).transcript;
      && Alternating(t)
      && (m.inputTranscription.Some? && m.inputTranscription.value != "" && s.view.mounted ==>
            AllText(t) == AllText(s.transcript) + m.inputTranscription.value)
  {
    var t := AfterMessage(s, m, freshId, now).transcript;
    assert t == Accept(s.transcript, m.inputTranscription, m.outputTranscription, s.view.mounted, freshId);
    match PickTranscription(m.inputTranscription, m.outputTranscription)
    case Some((role, text)) =>
      MergeProperties(s.transcript, role, text, freshId);
    case None =>
  }

  // ---------------------------------------------------------------------------------------
  // Errors, close, connect, toggle

  predicate IsKeyError(message: string) {
    JsText.Contains(message, NotFoundMarker)
  }

  /** The view after a failure: the classified error (the key picker for a key error) and 'Failed'. */
  function FailedView(v: View, message: string, keyText: string, prefix: string): View {
    if !v.mounted then v
    else if IsKeyError(message) then v.(error := Some(keyText), showKeyPicker := true, status := Failed)
    else v.(error := Some(prefix + message), status := Failed)
  }

  /** `onerror`: classify the message (when mounted), show 'Failed', then clean up. */
  function AfterError(s: State, message: string): State {
    AfterCleanup(s.(view := FailedView(s.view, message, KeyDeniedMessage, "Connection Error: ")))
  }

  /**
   * A session error shows the key picker exactly for "Requested entity was not found" errors, and
   * the generic connection error text otherwise; every handle is released. 'Failed' is set, but
   * `cleanup` runs in the same callback and sets 'Ready' over it.
   */
  lemma ErrorEffect(s: State, message: string)
    ensures var t := AfterError(s, message);
      && t.handles == NoHandles && t.released == s.released + Held(s.handles) && t.playback.queue == []
      && (s.view.mounted && IsKeyError(message) ==> t.view.error == Some(KeyDeniedMessage) && t.view.showKeyPicker)
      && (s.view.mounted && !IsKeyError(message) ==>
            t.view.error == Some("Connection Error: " + message) && t.view.showKeyPicker == s.view.showKeyPicker)
      && (s.view.mounted ==> t.view.status == Ready)
      && (!s.view.mounted ==> t.view.error == s.view.error)
  {
  }

  /** `onclose`: unless the user stopped the session, show 'Disconnected' and clean up. */
  function AfterClose(s: State): State {
    if s.view.userStopping then s
    else AfterCleanup(if s.view.mounted then s.(view := s.view.(status := Disconnected)) else s)
  }

  /** A close the user caused changes nothing; any other close releases everything. */
  lemma CloseEffect(s: State)
    ensures s.view.userStopping ==> AfterClose(s) == s
    ensures !s.view.userStopping ==>
      AfterClose(s).handles == NoHandles && AfterClose(s).released == s.released + Held(s.handles)
  {
  }

  /** The `catch` of `connect`: the same classification with the connect-time texts, then cleanup. */
  function AfterConnectFailure(s: State, message: string): State {
    AfterCleanup(s.(view := FailedView(s.view, message, KeyRequiredMessage, "Connection Failed: ")))
  }

  /** The handles `connect` holds, and the cursor and status it has set, when it reaches `stage`. */
  function Acquire(s: State, stage: FailStage, now: real): State {
    match stage
    case InputContextStage => s
    case OutputContextStage => s.(handles := s.handles.(input := true))
    case MicrophoneStage =>
      s.(handles := s.handles.(input := true, output := true), playback := s.playback.(cursor := now))
    case SessionStage =>
      s.(handles := s.handles.(input := true, output := true, stream := true),
         playback := s.playback.(cursor := now), view := s.view.(status := Connecting))
  }

  /** The view when `connect` starts: no error, no picker, active, not stopping, 'Initializing...'. */
  function Starting(v: View): View {
    v.(error := None, showKeyPicker := false, active := true, userStopping := false, status := Initializing)
  }

  /**
   * `connect` with the device online or not, the audio clock at `now` when the output context is
   * created, and the outcome of the asynchronous steps.
   */
  function AfterConnect(s: State, online: bool, now: real, outcome: ConnectOutcome): State {
    if !online then s.(view := s.view.(error := Some(OfflineMessage)))
    else
      var s1 := s.(view := Starting(s.view));
      match outcome
      case Established =>
        s1.(handles := AllHandles, playback := s1.playback.(cursor := now), view := s1.view.(status := Connecting))
      case FailedAt(stage, message) => AfterConnectFailure(Acquire(s1, stage, now), message)
  }

  /** Offline, `connect` only reports the missing connection. */
  lemma ConnectOffline(s: State, now: real, outcome: ConnectOutcome)
    ensures AfterConnect(s, false, now, outcome).view == s.view.(error := Some(OfflineMessage))
    ensures AfterConnect(s, false, now, outcome).handles == s.handles
  {
  }

  /**
   * A `connect` that fails at any step releases exactly what it acquired in that attempt (in
   * cleanup order) and ends inactive with the classified error; one that succeeds holds all five
   * handles with the cursor at the output clock.
   */
  lemma ConnectOutcomes(s: State, now: real, outcome: ConnectOutcome)
    requires s.handles == NoHandles && s.view.mounted
    ensures var t := AfterConnect(s, true, now, outcome);
      && (outcome.Established? ==>
            t.view.active && t.handles == AllHandles && t.playback.cursor == now
            && t.view.status == Connecting && t.view.error == None && !t.view.userStopping)
      && (outcome.FailedAt? ==>
            t.handles == NoHandles && !t.view.active && t.view.status == Ready
            && t.released == s.released + Held(Acquire(s, outcome.stage, now).handles)
            && t.view.error == Some(if IsKeyError(outcome.message) then KeyRequiredMessage
                                    else "Connection Failed: " + outcome.message)
            && t.view.showKeyPicker == IsKeyError(outcome.message))
  {
  }

  /** `onopen`: 'Online' when mounted. */
  function AfterOpen(s: State): State {
    if s.view.mounted then s.(view := s.view.(status := Online)) else s
  }

  /** The mic button: stop (user-initiated) when active, connect otherwise. */
  function AfterToggle(s: State, online: bool, now: real, outcome: ConnectOutcome): State {
    if s.view.active then AfterCleanup(s.(view := s.view.(userStopping := true)))
    else AfterConnect(s.(view := s.view.(userStopping := false)), online, now, outcome)
  }

  /**
   * Stopping from the button releases everything, and the close event the session then delivers
   * changes nothing more; the status stays 'Ready' and no 'Disconnected' appears.
   */
  lemma ToggleStopThenClose(s: State, online: bool, now: real, outcome: ConnectOutcome)
    requires s.view.active && s.view.mounted
    ensures var t := AfterToggle(s, online, now, outcome);
      && t.handles == NoHandles && t.view.userStopping && t.view.status == Ready
      && AfterClose(t) == t
  {
  }

  // ---------------------------------------------------------------------------------------
  // The controller

  class LiveController {
    var view: View
    var handles: Handles
    var released: seq<Resource>
    var playback: Playback
    var chain: Chain
    var transcript: seq<Entry>
    var mediaCard: Option<MediaCard>
    var responses: seq<ToolResponse>

    function Snapshot(): State
      reads this
    {
      State(view, handles, released, playback, chain, transcript, mediaCard, responses)
    }

    constructor ()
      ensures Snapshot() == Initial
    {
      view := View(true, false, false, Ready, None, false, false);
      handles := NoHandles;
      released := [];
      playback := Playback(0.0, [], 0, [], []);
      chain := Chain([], []);
      transcript, mediaCard, responses := [], None, [];
    }

    /** Closes (or stops, or disconnects) the object in the ref of `r`, if any, and nulls the ref. */
    method Release(r: Resource)
      modifies this
      ensures handles == Without(old(handles), r) && released == old(released) + HeldOne(old(handles), r)
      ensures view == old(view) && playback == old(playback) && chain == old(chain)
      ensures transcript == old(transcript) && mediaCard == old(mediaCard) && responses == old(responses)
    {
      if IsHeld(handles, r) {
        released := released + [r];
        handles := Without(handles, r);
      } else {
        assert Without(handles, r) == handles;
      }
    }

    /** Releases every handle that is held, in the fixed order. */
    method ReleaseHandles()
      modifies this
      ensures Snapshot() == old(Snapshot()).(handles := NoHandles, released := old(released) + Held(old(handles)))
    {
      ghost var h, log := handles, released;
      Release(LiveSessionHandle);
      Release(MediaStream);
      assert released == log + (HeldOne(h, LiveSessionHandle) + HeldOne(h, MediaStream));
      Release(CaptureProcessor);
      assert released == log + (HeldOne(h, LiveSessionHandle) + HeldOne(h, MediaStream) + HeldOne(h, CaptureProcessor));
      Release(OutputContext);
      assert released == log + (HeldOne(h, LiveSessionHandle) + HeldOne(h, MediaStream) + HeldOne(h, CaptureProcessor)
                                + HeldOne(h, OutputContext));
      Release(InputContext);
    }

    method Cleanup()
      modifies this
      ensures Snapshot() == AfterCleanup(old(Snapshot()))
    {
      view := view.(active := false);
      ReleaseHandles();
      playback := playback.(stopped := playback.stopped + playback.queue);
      playback := playback.(queue := [], cursor := 0.0);
      chain := Chain([], chain.orphaned + chain.pending);
      if view.mounted {
        view := view.(speaking := false, status := Ready);
      }
    }

    method Unmount()
      modifies this
      ensures Snapshot() == AfterUnmount(old(Snapshot()))
    {
      view := view.(mounted := false, userStopping := true);
      Cleanup();
    }

    method SchedulePlayback(duration: real, now: real)
      modifies this
      ensures Snapshot() == AfterSchedule(old(Snapshot()), duration, now)
    {
      if !handles.output {
        return;
      }
      var at := playback.cursor;
      if at < now {
        at := now + StallLead;
      }
      playback := playback.(starts := playback.starts + [Start(playback.nextSource, at, duration)]);
      playback := playback.(cursor := at + duration);
      if view.mounted {
        view := view.(speaking := true);
      }
      playback := playback.(queue := playback.queue + [playback.nextSource]);
      playback := playback.(nextSource := playback.nextSource + 1);
    }

    method OnSourceEnded(source: nat)
      modifies this
      ensures Snapshot() == AfterSourceEnded(old(Snapshot()), source)
    {
      playback := playback.(queue := RemoveFirst(playback.queue, source));
      if |playback.queue| == 0 && view.mounted {
        view := view.(speaking := false);
      }
    }

    method ChainSettled(now: real)
      modifies this
      ensures Snapshot() == AfterChainSettled(old(Snapshot()), now)
    {
      if chain.pending == [] {
        return;
      }
      var c := chain.pending[0];
      chain := chain.(pending := chain.pending[1..]);
      if c.duration.Some? {
        SchedulePlayback(c.duration.value, now);
      }
    }

    method OrphanSettled(i: nat, now: real)
      modifies this
      ensures Snapshot() == AfterOrphanSettled(old(Snapshot()), i, now)
    {
      if i >= |chain.orphaned| {
        return;
      }
      var c := chain.orphaned[i];
      chain := chain.(orphaned := chain.orphaned[..i] + chain.orphaned[i + 1..]);
      if c.duration.Some? {
        SchedulePlayback(c.duration.value, now);
      }
    }

    /** The loop over `functionCalls`: one card update and one response per `play_media` call. */
    method HandleToolCalls(calls: seq<FunctionCall>)
      modifies this
      ensures Snapshot() == AfterToolCalls(old(Snapshot()), calls)
    {
      var i := 0;
      while i < |calls|
        invariant 0 <= i <= |calls|
        invariant Snapshot() == AfterToolCalls(old(Snapshot()), calls[..i])
      {
        var call := calls[i];
        if call.name == PlayMediaName {
          var url := MediaUrl(call.args);
          if view.mounted {
            mediaCard := Some(MediaCard(call.args, "PLAY_MEDIA", url));
          }
          responses := responses + [ToolResponse(call.id, call.name, "ok")];
        }
        assert calls[..i + 1][..i] == calls[..i];
        i := i + 1;
      }
      assert calls[..i] == calls;
    }

    method Interrupt(now: real)
      modifies this
      ensures Snapshot() == AfterInterrupt(old(Snapshot()), now)
    {
      chain := Chain([], chain.orphaned + chain.pending);
      playback := playback.(stopped := playback.stopped + playback.queue, queue := []);
      if handles.output {
        playback := playback.(cursor := now);
      }
      if view.mounted {
        view := view.(speaking := false);
      }
    }

    method OnMessage(m: ServerMessage, freshId: string, now: real)
      modifies this
      ensures Snapshot() == AfterMessage(old(Snapshot()), m, freshId, now)
    {
      HandleToolCalls(m.toolCalls);
      if m.audio.Some? {
        chain := chain.(pending := chain.pending + [m.audio.value]);
      }
      transcript := Accept(transcript, m.inputTranscription, m.outputTranscription, view.mounted, freshId);
      if m.interrupted {
        Interrupt(now);
      }
    }

    method OnOpen()
      modifies this
      ensures Snapshot() == AfterOpen(old(Snapshot()))
    {
      if view.mounted {
        view := view.(status := Online);
      }
    }

    /** Shows the classified failure and 'Failed' (when mounted). */
    method ShowFailure(message: string, keyText: string, prefix: string)
      modifies this
      ensures Snapshot() == old(Snapshot()).(view := FailedView(old(view), message, keyText, prefix))
    {
      if view.mounted {
        if JsText.Contains(message, NotFoundMarker) {
          view := view.(error := Some(keyText), showKeyPicker := true);
        } else {
          view := view.(error := Some(prefix + message));
        }
        view := view.(status := Failed);
      }
    }

    method OnError(message: string)
      modifies this
      ensures Snapshot() == AfterError(old(Snapshot()), message)
    {
      ShowFailure(message, KeyDeniedMessage, "Connection Error: ");
      Cleanup();
    }

    method OnClose()
      modifies this
      ensures Snapshot() == AfterClose(old(Snapshot()))
    {
      if !view.userStopping {
        if view.mounted {
          view := view.(status := Disconnected);
        }
        Cleanup();
      }
    }

    method ConnectFailed(message: string)
      modifies this
      ensures Snapshot() == AfterConnectFailure(old(Snapshot()), message)
    {
      ShowFailure(message, KeyRequiredMessage, "Connection Failed: ");
      Cleanup();
    }

    /** The steps of `connect` before the one that reaches `stage`: the contexts, the cursor, the microphone. */
    method AcquireUntil(stage: FailStage, now: real)
      modifies this
      ensures Snapshot() == Acquire(old(Snapshot()), stage, now)
    {
      if stage == InputContextStage {
        return;
      }
      handles := handles.(input := true);
      if stage == OutputContextStage {
        return;
      }
      handles := handles.(output := true);
      playback := playback.(cursor := now);
      if stage == MicrophoneStage {
        return;
      }
      handles := handles.(stream := true);
      view := view.(status := Connecting);
    }

    method Connect(online: bool, now: real, outcome: ConnectOutcome)
      modifies this
      ensures Snapshot() == AfterConnect(old(Snapshot()), online, now, outcome)
    {
      if !online {
        view := view.(error := Some(OfflineMessage));
        return;
      }
      view := view.(error := None, showKeyPicker := false, active := true, userStopping := false);
      view := view.(status := Initializing);
      match outcome
      case FailedAt(stage, message) =>
        AcquireUntil(stage, now);
        ConnectFailed(message);
      case Established =>
        AcquireUntil(SessionStage, now);
        handles := handles.(session := true, processor := true);
    }

    method ToggleConnection(online: bool, now: real, outcome: ConnectOutcome)
      modifies this
      ensures Snapshot() == AfterToggle(old(Snapshot()), online, now, outcome)
    {
      if view.active {
        view := view.(userStopping := true);
        Cleanup();
      } else {
        view := view.(userStopping := false);
        Connect(online, now, outcome);
      }
    }
  }
}

=== FILE: live_tools.dfy ===
/**
 * The `play_media` tool of the live voice session: the search URL built from the model's
 * arguments, with the query percent-encoded as `encodeURIComponent` does (UTF-8 bytes of every
 * character outside the unreserved set, as `%XX` with upper-case hex digits).
 */
module LiveTools {
  import opened Wrappers
  import opened SeqUtil

  const PlayMediaName := "play_media"
  const SpotifySearch := "https://open.spotify.com/search/"
  const YoutubeSearch := "https://www.youtube.com/results?search_query="

  /** The arguments the model passes to `play_media`. */
  datatype PlayArgs = PlayArgs(title: string, artist: Option<string>, platform: string, query: string)

  datatype FunctionCall = FunctionCall(id: string, name: string, args: PlayArgs)

  /** The action card shown for a call: its arguments, the action tag and the URL. */
  datatype MediaCard = MediaCard(args: PlayArgs, action: string, url: string)

  /** The response sent back for a handled call. */
  datatype ToolResponse = ToolResponse(id: string, name: string, result: string)

  // ---------------------------------------------------------------------------------------
  // encodeURIComponent

  /** The characters `encodeURIComponent` leaves alone: `A-Z a-z 0-9 - _ . ! ~ * ' ( )`. */
  predicate Unreserved(c: char) {
    || ('A' <= c <= 'Z') || ('a' <= c <= 'z') || ('0' <= c <= '9')
    || c == '-' || c == '_' || c == '.' || c == '!' || c == '~' || c == '*' || c == '\'' || c == '(' || c == ')'
  }

  predicate IsByte(b: nat) {
    b < 256
  }

  /** The UTF-8 encoding of one Unicode scalar value. */
  function Utf8(c: char): (bs: seq<nat>)
    ensures 1 <= |bs| <= 4
    ensures forall i :: 0 <= i < |bs| ==> IsByte(bs[i])
    ensures (c as int) < 0x80 <==> bs == [c as nat]
  {
    var cp := c as int;
    if cp < 0x80 then [cp]
    else if cp < 0x800 then [0xC0 + cp / 64, 0x80 + cp % 64]
    else if cp < 0x10000 then [0xE0 + cp / 4096, 0x80 + (cp / 64) % 64, 0x80 + cp % 64]
    else [0xF0 + cp / 262144, 0x80 + (cp / 4096) % 64, 0x80 + (cp / 64) % 64, 0x80 + cp % 64]
  }

  function Utf8Bytes(s: string): seq<nat> {
    if s == [] then [] else Utf8(s[0]) + Utf8Bytes(s[1..])
  }

  function HexDigit(d: nat): (c: char)
    requires d < 16
  {
    if d < 10 then ('0' as int + d) as char else ('A' as int + d - 10) as char
  }

  predicate IsHexDigit(c: char) {
    ('0' <= c <= '9') || ('A' <= c <= 'F')
  }

  function HexValue(c: char): nat
    requires IsHexDigit(c)
  {
    if c <= '9' then c as int - '0' as int else c as int - 'A' as int + 10
  }

  lemma HexDigitValue(d: nat)
    requires d < 16
    ensures IsHexDigit(HexDigit(d)) && HexValue(HexDigit(d)) == d
  {
  }

  /** `%XX` for every byte. */
  function Escaped(bs: seq<nat>): string
    requires forall i :: 0 <= i < |bs| ==> IsByte(bs[i])
  {
    if bs == [] then ""
    else
      var b := bs[0];
      assert IsByte(b);
      ['%', HexDigit(b / 16), HexDigit(b % 16)] + Escaped(bs[1..])
  }

  function EncodeChar(c: char): string {
    if Unreserved(c) then [c] else Escaped(Utf8(c))
  }

  /** `encodeURIComponent`. */
  function EncodeUriComponent(s: string): string {
    if s == [] then "" else EncodeChar(s[0]) + EncodeUriComponent(s[1..])
  }

  /** A percent-decoder, the inverse the round-trip lemma is stated with. */
  function PercentDecode(s: string): seq<nat> {
    if s == [] then []
    else if s[0] == '%' && |s| >= 3 && IsHexDigit(s[1]) && IsHexDigit(s[2]) then
      [HexValue(s[1]) * 16 + HexValue(s[2])] + PercentDecode(s[3..])
    else
      [s[0] as nat] + PercentDecode(s[1..])
  }

  /** What may appear in an encoded string. */
  predicate UriSafe(c: char) {
    Unreserved(c) || c == '%' || IsHexDigit(c)
  }

  lemma {:induction false} EscapedDecodes(bs: seq<nat>, rest: string)
    requires forall i :: 0 <= i < |bs| ==> IsByte(bs[i])
    ensures PercentDecode(Escaped(bs) + rest) == bs + PercentDecode(rest)
  {
    if bs != [] {
      var b := bs[0];
      assert IsByte(b);
      HexDigitValue(b / 16);
      HexDigitValue(b % 16);
      var head := ['%', HexDigit(b / 16), HexDigit(b % 16)];
      var tail := Escaped(bs[1..]) + rest;
      var x := head + tail;
      assert Escaped(bs) + rest == x;
      assert x[0] == '%' && x[1] == HexDigit(b / 16) && x[2] == HexDigit(b % 16) && x[3..] == tail;
      assert HexValue(x[1]) * 16 + HexValue(x[2]) == b;
      assert IsHexDigit(x[1]) && IsHexDigit(x[2]);
      assert PercentDecode(x) == [b] + PercentDecode(tail);
      EscapedDecodes(bs[1..], rest);
      calc {
        PercentDecode(Escaped(bs) + rest);
        PercentDecode(x);
        [b] + PercentDecode(tail);
        [b] + (bs[1..] + PercentDecode(rest));
        ([b] + bs[1..]) + PercentDecode(rest);
        { assert [b] + bs[1..] == bs; }
        bs + PercentDecode(rest);
      }
    } else {
      assert Escaped(bs) + rest == rest;
    }
  }

  lemma {:induction false} EscapedSafe(bs: seq<nat>)
    requires forall i :: 0 <= i < |bs| ==> IsByte(bs[i])
    ensures forall i :: 0 <= i < |Escaped(bs)| ==> UriSafe(Escaped(bs)[i])
  {
    if bs != [] {
      var b := bs[0];
      assert IsByte(b);
      EscapedSafe(bs[1..]);
      forall i | 0 <= i < |Escaped(bs)|
        ensures UriSafe(Escaped(bs)[i])
      {
        if i >= 3 {
          assert Escaped(bs)[i] == Escaped(bs[1..])[i - 3];
        }
      }
    }
  }

  /** Decoding one encoded character gives its UTF-8 bytes and leaves the rest to decode. */
  lemma EncodeCharDecodes(c: char, rest: string)
    ensures PercentDecode(EncodeChar(c) + rest) == Utf8(c) + PercentDecode(rest)
    ensures forall i :: 0 <= i < |EncodeChar(c)| ==> UriSafe(EncodeChar(c)[i])
  {
    if Unreserved(c) {
      assert ([c] + rest)[1..] == rest;
    } else {
      EscapedDecodes(Utf8(c), rest);
      EscapedSafe(Utf8(c));
    }
  }

  /** `encodeURIComponent` is lossless: percent-decoding its output gives back the UTF-8 bytes of the input. */
  lemma {:induction false} EncodeRoundTrip(s: string)
    ensures PercentDecode(EncodeUriComponent(s)) == Utf8Bytes(s)
  {
    if s != [] {
      EncodeRoundTrip(s[1..]);
      EncodeCharDecodes(s[0], EncodeUriComponent(s[1..]));
    }
  }

  /** The encoded query only uses unreserved characters, '%' and upper-case hex digits. */
  lemma {:induction false} EncodeUriSafe(s: string)
    ensures forall i :: 0 <= i < |EncodeUriComponent(s)| ==> UriSafe(EncodeUriComponent(s)[i])
  {
    if s != [] {
      EncodeUriSafe(s[1..]);
      EncodeCharDecodes(s[0], "");
      var e := EncodeChar(s[0]);
      var tail := EncodeUriComponent(s[1..]);
      assert EncodeUriComponent(s) == e + tail;
      forall i | 0 <= i < |e + tail|
        ensures UriSafe((e + tail)[i])
      {
        if i >= |e| {
          assert (e + tail)[i] == tail[i - |e|];
        } else {
          assert (e + tail)[i] == e[i];
        }
      }
    }
  }

  /** A query made only of unreserved characters is used verbatim. */
  lemma {:induction false} UnreservedVerbatim(s: string)
    requires forall i :: 0 <= i < |s| ==> Unreserved(s[i])
    ensures EncodeUriComponent(s) == s
  {
    if s != [] {
      UnreservedVerbatim(s[1..]);
    }
  }

  /** A space becomes `%20`. */
  lemma SpaceEscaped()
    ensures EncodeChar(' ') == "%20"
  {
    assert Utf8(' ') == [32];
  }

  // ---------------------------------------------------------------------------------------
  // play_media

  /** The Spotify search URL for platform "spotify" and the YouTube results URL for anything else. */
  function MediaUrl(args: PlayArgs): (url: string)
    ensures args.platform == "spotify" ==> url == SpotifySearch + EncodeUriComponent(args.query)
    ensures args.platform != "spotify" ==> url == YoutubeSearch + EncodeUriComponent(args.query)
  {
    var q := EncodeUriComponent(args.query);
    if args.platform == "spotify" then SpotifySearch + q else YoutubeSearch + q
  }

  /** The card and the response for one call, or nothing for a call that is not `play_media`. */
  function HandleCall(call: FunctionCall): (r: Option<(MediaCard, ToolResponse)>)
    ensures r.Some? <==> call.name == PlayMediaName
    ensures r.Some? ==> r.value.1 == ToolResponse(call.id, call.name, "ok")
    ensures r.Some? ==> r.value.0 == MediaCard(call.args, "PLAY_MEDIA", MediaUrl(call.args))
  {
    if call.name == PlayMediaName then
      Some((MediaCard(call.args, "PLAY_MEDIA", MediaUrl(call.args)), ToolResponse(call.id, call.name, "ok")))
    else None
  }

  /** The responses sent for a batch of calls: one per `play_media` call, in order. */
  function Responses(calls: seq<FunctionCall>): seq<ToolResponse> {
    if calls == [] then []
    else
      var init := Responses(calls[..|calls| - 1]);
      match HandleCall(calls[|calls| - 1])
      case Some((_, resp)) => init + [resp]
      case None => init
  }

  /** The `play_media` calls of a batch, in order. */
  function PlayCalls(calls: seq<FunctionCall>): (r: seq<FunctionCall>)
    ensures forall c :: c in r <==> c in calls && c.name == PlayMediaName
  {
    Filter(calls, (c: FunctionCall) => c.name == PlayMediaName)
  }

  /** Each response answers the `play_media` call at the same position among the batch's calls. */
  lemma {:induction false} ResponsesFollowPlayCalls(calls: seq<FunctionCall>)
    ensures |Responses(calls)| == |PlayCalls(calls)|
    ensures forall i :: 0 <= i < |Responses(calls)| ==>
      Responses(calls)[i] == ToolResponse(PlayCalls(calls)[i].id, PlayMediaName, "ok")
  {
    if calls != [] {
      var init := calls[..|calls| - 1];
      var last := calls[|calls| - 1];
      ResponsesFollowPlayCalls(init);
      if last.name == PlayMediaName {
        assert PlayCalls(calls) == PlayCalls(init) + [last];
        assert Responses(calls) == Responses(init) + [ToolResponse(last.id, PlayMediaName, "ok")];
      } else {
        assert PlayCalls(calls) == PlayCalls(init);
        assert Responses(calls) == Responses(init);
      }
    }
  }

  /** The card on screen after a batch: the last `play_media` call's card, if mounted. */
  function LastCard(card: Option<MediaCard>, calls: seq<FunctionCall>, mounted: bool): Option<MediaCard> {
    if calls == [] then card
    else
      var before := LastCard(card, calls[..|calls| - 1], mounted);
      match HandleCall(calls[|calls| - 1])
      case Some((c, _)) => if mounted then Some(c) else before
      case None => before
  }

  /**
   * Only `play_media` calls are answered, each with its own id and name and result "ok", in the
   * order of the calls.
   */
  lemma {:induction false} ResponsesMatchCalls(calls: seq<FunctionCall>)
    ensures |Responses(calls)| <= |calls|
    ensures forall r :: r in Responses(calls) ==>
      r.result == "ok" && r.name == PlayMediaName && exists c :: c in calls && c.id == r.id && c.name == r.name
    ensures (forall c :: c in calls ==> c.name != PlayMediaName) ==> Responses(calls) == []
    ensures |Responses(calls)| == |PlayCalls(calls)|
    ensures forall i :: 0 <= i < |Responses(calls)| ==>
      Responses(calls)[i] == ToolResponse(PlayCalls(calls)[i].id, PlayMediaName, "ok")
  {
    ResponsesFollowPlayCalls(calls);
    if calls != [] {
      var init := calls[..|calls| - 1];
      ResponsesMatchCalls(init);
      assert forall c :: c in init ==> c in calls;
    }
  }
}

=== FILE: live_transcript.dfy ===
/**
 * The running transcript of the live voice session: transcription fragments from the user's
 * microphone (input) and from the model's speech (output), coalesced so that consecutive
 * fragments of one speaker grow a single entry.
 */
module LiveTranscript {
  import opened Wrappers

  datatype Role = User | Model

  /** One transcript entry; `id` is the UUID drawn when the entry was started. */
  datatype Entry = Entry(id: string, role: Role, text: string)

  /** An accepted fragment, with the UUID the source would draw if it starts a new entry. */
  datatype Fragment = Fragment(role: Role, text: string, freshId: string)

  /**
   * The speaker and text a server message carries: the input transcription when the message
   * has one at all (even with empty text), otherwise the output transcription, otherwise none.
   */
  function PickTranscription(input: Option<string>, output: Option<string>): (r: Option<(Role, string)>)
    ensures input.Some? ==> r == Some((User, input.value))
    ensures input.None? && output.Some? ==> r == Some((Model, output.value))
    ensures input.None? && output.None? ==> r.None?
  {
    if input.Some? then Some((User, input.value))
    else if output.Some? then Some((Model, output.value))
    else None
  }

  /** Append `text` to the last entry when `role` spoke last, otherwise start a new entry. */
  function Merge(prev: seq<Entry>, role: Role, text: string, freshId: string): seq<Entry> {
    if |prev| > 0 && prev[|prev| - 1].role == role then
      prev[..|prev| - 1] + [prev[|prev| - 1].(text := prev[|prev| - 1].text + text)]
    else
      prev + [Entry(freshId, role, text)]
  }

  /** The transcript update of one server message: nothing unless a non-empty text arrives while mounted. */
  function Accept(prev: seq<Entry>, input: Option<string>, output: Option<string>, mounted: bool, freshId: string): (r: seq<Entry>)
    ensures (PickTranscription(input, output).None? || !mounted) ==> r == prev
  {
    match PickTranscription(input, output)
    case Some((role, text)) =>
      if text != "" && mounted then Merge(prev, role, text, freshId) else prev
    case None => prev
  }

  /** No two adjacent entries share a speaker. */
  predicate Alternating(t: seq<Entry>) {
    forall i :: 0 < i < |t| ==> t[i - 1].role != t[i].role
  }

  /** All entry texts, concatenated in order. */
  function AllText(t: seq<Entry>): string {
    if t == [] then "" else AllText(t[..|t| - 1]) + t[|t| - 1].text
  }

  function FragmentText(fs: seq<Fragment>): string {
    if fs == [] then "" else FragmentText(fs[..|fs| - 1]) + fs[|fs| - 1].text
  }

  /** The transcript after the fragments, in arrival order. */
  function Replay(prev: seq<Entry>, fs: seq<Fragment>): seq<Entry> {
    if fs == [] then prev
    else
      var last := fs[|fs| - 1];
      Merge(Replay(prev, fs[..|fs| - 1]), last.role, last.text, last.freshId)
  }

  /**
   * One merge keeps the speakers alternating, adds exactly the fragment to the concatenated text,
   * and leaves every entry but the last untouched; the last entry is the fragment's speaker.
   */
  lemma MergeProperties(prev: seq<Entry>, role: Role, text: string, freshId: string)
    requires Alternating(prev)
    ensures var t := Merge(prev, role, text, freshId);
      && Alternating(t)
      && AllText(t) == AllText(prev) + text
      && |t| > 0 && t[|t| - 1].role == role
      && |prev| <= |t| <= |prev| + 1
      && (forall i :: 0 <= i < |prev| - 1 ==> t[i] == prev[i])
  {
    var t := Merge(prev, role, text, freshId);
    if |prev| > 0 && prev[|prev| - 1].role == role {
      var init := prev[..|prev| - 1];
      assert t[..|t| - 1] == init;
      assert AllText(prev) == AllText(init) + prev[|prev| - 1].text;
    } else {
      assert t[..|t| - 1] == prev;
    }
  }

  /**
   * Replaying fragments onto a well-formed transcript keeps it alternating and appends exactly the
   * fragments' texts to the concatenation: nothing is lost, duplicated or reordered.
   */
  lemma {:induction false} ReplayProperties(prev: seq<Entry>, fs: seq<Fragment>)
    requires Alternating(prev)
    ensures Alternating(Replay(prev, fs))
    ensures AllText(Replay(prev, fs)) == AllText(prev) + FragmentText(fs)
  {
    if fs != [] {
      var init := fs[..|fs| - 1];
      ReplayProperties(prev, init);
      var last := fs[|fs| - 1];
      MergeProperties(Replay(prev, init), last.role, last.text, last.freshId);
    }
  }

  /** Replaying one more fragment merges it into the replay of the earlier ones. */
  lemma ReplaySnoc(prev: seq<Entry>, fs: seq<Fragment>, f: Fragment)
    ensures Replay(prev, fs + [f]) == Merge(Replay(prev, fs), f.role, f.text, f.freshId)
  {
    assert (fs + [f])[..|fs|] == fs;
  }

  /** One fragment on an empty transcript starts the first entry. */
  lemma ReplayOne(f: Fragment)
    ensures Replay([], [f]) == [Entry(f.freshId, f.role, f.text)]
  {
    ReplaySnoc([], [], f);
  }

  /** Two fragments of the same speaker coalesce into one entry. */
  lemma CoalesceTwo(f1: Fragment, f2: Fragment)
    requires f1.role == f2.role
    ensures Replay([], [f1, f2]) == [Entry(f1.freshId, f1.role, f1.text + f2.text)]
  {
    ReplayOne(f1);
    ReplaySnoc([], [f1], f2);
    assert [f1] + [f2] == [f1, f2];
  }

  /** Two user fragments and then a model fragment give one user entry and one model entry. */
  lemma CoalesceThree(f1: Fragment, f2: Fragment, f3: Fragment)
    requires f1.role == f2.role != f3.role
    ensures Replay([], [f1, f2, f3]) == [Entry(f1.freshId, f1.role, f1.text + f2.text), Entry(f3.freshId, f3.role, f3.text)]
  {
    CoalesceTwo(f1, f2);
    ReplaySnoc([], [f1, f2], f3);
    assert [f1, f2] + [f3] == [f1, f2, f3];
  }

  /** `[user:"he"], [user:"llo"], [model:"hi"]` gives exactly `{user, "hello"}` then `{model, "hi"}`. */
  lemma CoalescingExample(a: string, b: string, c: string)
    ensures Replay([], [Fragment(User, "he", a), Fragment(User, "llo", b), Fragment(Model, "hi", c)])
      == [Entry(a, User, "hello"), Entry(c, Model, "hi")]
  {
    CoalesceThree(Fragment(User, "he", a), Fragment(User, "llo", b), Fragment(Model, "hi", c));
    assert "he" + "llo" == "hello";
  }
}

=== FILE: mermaid.dfy ===
/**
 * The Mermaid diagrams of the chat and repository views: the clean-up applied to generated
 * diagram code before rendering (three global regular-expression replacements, each modelled
 * as the left-to-right scan the regular-expression engine performs), and the render counter
 * that lets only the latest render request update the diagram.
 */
module Mermaid {
  import opened Wrappers
  import opened JsText
  import opened RegexScan

  /**
   * Which characters may open an arrow label: the source accepts any character but a quote or
   * whitespace (`[^"\s]`); the corrected class also refuses '-' and '>', which belong to arrows.
   */
  datatype LabelStart = AsWritten | Corrected

  /** The three replacements, in the order they are applied. */
  datatype Rule =
    | ArrowLabels(start: LabelStart)  // `--\s*([^"\s][^->\n]*?)\s*-->` to `-- "$1" -->`
    | DoubleBrackets                  // `\[\[(.*?)\]\]` to `["$1"]`
    | NodeLabels                      // `(\w+)\[(.*?)\]` to `$1["$2"]` unless `$2` starts with a quote

  predicate StartsLabel(c: char, start: LabelStart) {
    c != '"' && !IsSpace(c) && (start == AsWritten || (c != '-' && c != '>'))
  }

  /** The class `[^->\n]`. */
  predicate InLabel(c: char) {
    c != '-' && c != '>' && c != '\n'
  }

  /**
   * The lazy label tail `[^->\n]*?\s*-->` from `q`: the first position where whitespace and
   * "-->" follow, reached over label characters; returns the label's end and the match's end.
   */
  function LabelTail(s: string, q: nat): (r: Option<(nat, nat)>)
    requires q <= |s|
    ensures r.Some? ==> q <= r.value.0 && r.value.0 + 3 <= r.value.1 <= |s|
    decreases |s| - q
  {
    var w := SpaceRun(s, q);
    if OccursAt(s, "-->", q + w) then Some((q, q + w + 3))
    else if q < |s| && InLabel(s[q]) then LabelTail(s, q + 1)
    else None
  }

  /** A match of the arrow-label rule at `i`: "--", whitespace, the label, whitespace, "-->". */
  function ArrowAt(s: string, i: nat, start: LabelStart): (r: Option<Hit>)
    requires i <= |s|
    ensures r.Some? ==> i < r.value.end <= |s| && r.value.replacement != []
  {
    if !OccursAt(s, "--", i) then None
    else
      var p := i + 2 + SpaceRun(s, i + 2);
      if p < |s| && StartsLabel(s[p], start) then
        match LabelTail(s, p + 1)
        case None => None
        case Some(t) => Some(Hit(t.1, "-- \"" + s[p..t.0] + "\" -->"))
      else None
  }

  /** A match of the double-bracket rule at `i`: "[[", the text, "]]". */
  function DoubleAt(s: string, i: nat): (r: Option<Hit>)
    requires i <= |s|
    ensures r.Some? ==> i < r.value.end <= |s| && r.value.replacement != []
  {
    if !OccursAt(s, "[[", i) then None
    else
      match UntilClose(s, i + 2, "]]")
      case None => None
      case Some(j) => Some(Hit(j + 2, "[\"" + s[i + 2..j] + "\"]"))
  }

  /** A match of the node-label rule at `i`: a word, "[", the label, "]"; a quoted label is kept. */
  function NodeAt(s: string, i: nat): (r: Option<Hit>)
    requires i <= |s|
    ensures r.Some? ==> i < r.value.end <= |s| && r.value.replacement != []
  {
    var w := WordRun(s, i);
    if w == 0 || i + w == |s| || s[i + w] != '[' then None
    else
      match UntilClose(s, i + w + 1, "]")
      case None => None
      case Some(j) =>
        var caption := s[i + w + 1..j];
        Some(Hit(j + 1, if caption != [] && caption[0] == '"' then s[i..j + 1] else s[i..i + w] + "[\"" + caption + "\"]"))
  }

  /** The match of `rule` starting exactly at `i`, if any, with its replacement. */
  function MatchAt(s: string, i: nat, rule: Rule): (r: Option<Hit>)
    requires i <= |s|
    ensures r.Some? ==> i < r.value.end <= |s| && r.value.replacement != []
  {
    match rule
    case ArrowLabels(start) => ArrowAt(s, i, start)
    case DoubleBrackets => DoubleAt(s, i)
    case NodeLabels => NodeAt(s, i)
  }

  function Matches(s: string, rule: Rule): (tab: seq<Option<Hit>>)
    ensures ValidHits(s, tab)
  {
    seq(|s|, j requires 0 <= j < |s| => MatchAt(s, j, rule))
  }

  /** `s.replace(pattern, replacement)` with the global flag: every match, left to right. */
  function ReplaceAll(s: string, rule: Rule): (r: string)
    ensures r == [] <==> s == []
  {
    if s != [] then
      assert Matches(s, rule)[0] == MatchAt(s, 0, rule);
      Scan(s, Matches(s, rule), 0)
    else []
  }

  /** The three replacements on the trimmed code, with the given arrow-label class. */
  function SanitizeWith(code: string, start: LabelStart): (r: string)
    ensures r == [] <==> Trim(code) == []
  {
    var t := Trim(code);
    var a := ReplaceAll(t, ArrowLabels(start));
    var b := ReplaceAll(a, DoubleBrackets);
    ReplaceAll(b, NodeLabels)
  }

  /** `sanitizeMermaid` as the source writes it. */
  function SanitizeAsWritten(code: string): (r: string)
    ensures r == [] <==> forall i :: 0 <= i < |code| ==> IsSpace(code[i])
  {
    TrimEmptyIff(code);
    SanitizeWith(code, AsWritten)
  }

  /**
   * `sanitizeMermaid` with the corrected arrow-label class. The result is empty, and rendering
   * skipped, exactly when the code is all whitespace.
   */
  function Sanitize(code: string): (r: string)
    ensures r == [] <==> forall i :: 0 <= i < |code| ==> IsSpace(code[i])
  {
    TrimEmptyIff(code);
    SanitizeWith(code, Corrected)
  }

  // ---------------------------------------------------------------------------------------
  // Scanning lemmas
  // ---------------------------------------------------------------------------------------

  /** A text where no position matches is left as it is. */
  lemma Unmatched(s: string, rule: Rule)
    requires forall j :: 0 <= j < |s| ==> MatchAt(s, j, rule).None?
    ensures ReplaceAll(s, rule) == s
  {
    CopiesUnmatched(s, Matches(s, rule), 0, |s|);
  }

  /** A text with no '[' is left alone by the bracket rules. */
  lemma NoBracketsKept(s: string)
    requires '[' !in s
    ensures ReplaceAll(s, DoubleBrackets) == s
    ensures ReplaceAll(s, NodeLabels) == s
  {
    forall j | 0 <= j < |s|
      ensures MatchAt(s, j, DoubleBrackets).None? && MatchAt(s, j, NodeLabels).None?
    {
      assert s[j] in s;
      var w := WordRun(s, j);
      assert j + w < |s| ==> s[j + w] in s;
    }
    Unmatched(s, DoubleBrackets);
    Unmatched(s, NodeLabels);
  }

  /** A text with no '-' is left alone by the arrow rule. */
  lemma NoDashesKept(s: string, start: LabelStart)
    requires '-' !in s
    ensures ReplaceAll(s, ArrowLabels(start)) == s
  {
    forall j | 0 <= j < |s|
      ensures MatchAt(s, j, ArrowLabels(start)).None?
    {
      assert s[j] in s;
    }
    Unmatched(s, ArrowLabels(start));
  }

  /** The lazy label tail ends at `k` when label characters lead there and no arrow head comes first. */
  lemma {:induction false} LabelTailIs(s: string, q: nat, k: nat)
    requires q <= k <= |s|
    requires forall m :: q <= m < k ==> InLabel(s[m]) && !OccursAt(s, "-->", m + SpaceRun(s, m))
    requires OccursAt(s, "-->", k + SpaceRun(s, k))
    ensures LabelTail(s, q) == Some((k, k + SpaceRun(s, k) + 3))
    decreases k - q
  {
    if q < k {
      LabelTailIs(s, q + 1, k);
    }
  }

  // ---------------------------------------------------------------------------------------
  // Node labels
  // ---------------------------------------------------------------------------------------

  /** A node label free of brackets, dashes and line breaks. */
  predicate PlainLabel(caption: string) {
    forall k :: 0 <= k < |caption| ==>
      caption[k] != '[' && caption[k] != ']' && caption[k] != '-' && !IsLineTerminator(caption[k])
  }

  predicate IsWord(id: string) {
    id != [] && forall k :: 0 <= k < |id| ==> IsWordChar(id[k])
  }

  /** The clean-up assembled from the results of its three steps. */
  lemma SanitizeBy(code: string, start: LabelStart, a: string, b: string, out: string)
    requires ReplaceAll(Trim(code), ArrowLabels(start)) == a
    requires ReplaceAll(a, DoubleBrackets) == b
    requires ReplaceAll(b, NodeLabels) == out
    ensures SanitizeWith(code, start) == out
  {
  }

  /** Quoting a plain label keeps it plain. */
  lemma QuotedIsPlain(caption: string)
    requires PlainLabel(caption)
    ensures PlainLabel("\"" + caption + "\"")
  {
    var q := "\"" + caption + "\"";
    forall k | 0 < k < |q| - 1
      ensures q[k] == caption[k - 1]
    {
    }
  }

  /** The node name of `id[label]` is its word run. */
  lemma NodeWord(id: string, caption: string)
    requires IsWord(id)
    ensures var s := id + "[" + caption + "]"; WordRun(s, 0) == |id| && s[|id|] == '['
  {
    var s := id + "[" + caption + "]";
    forall k | 0 <= k < |id|
      ensures IsWordChar(s[k])
    {
      assert s[k] == id[k];
    }
    WordRunIs(s, 0, |id|);
  }

  /** The label of `id[label]` runs to the closing bracket at the end. */
  lemma NodeClose(id: string, caption: string)
    requires PlainLabel(caption)
    ensures var s := id + "[" + caption + "]";
      UntilClose(s, |id| + 1, "]") == Some(|s| - 1) && s[|id| + 1..|s| - 1] == caption
  {
    var s := id + "[" + caption + "]";
    var b := |id| + 1;
    forall m | b <= m < |s| - 1
      ensures !OccursAt(s, "]", m) && !IsLineTerminator(s[m])
    {
      assert s[m] == caption[m - b];
    }
    assert OccursAt(s, "]", |s| - 1);
    UntilCloseIs(s, b, "]", |s| - 1);
    assert s[b..|s| - 1] == caption;
  }

  /** The node rule matches the whole of a single node `id[label]`. */
  lemma NodeAtNode(id: string, caption: string)
    requires IsWord(id) && PlainLabel(caption)
    ensures var s := id + "[" + caption + "]";
      NodeAt(s, 0) == Some(Hit(|s|,
        if caption != [] && caption[0] == '"' then s else id + "[\"" + caption + "\"]"))
  {
    var s := id + "[" + caption + "]";
    NodeWord(id, caption);
    NodeClose(id, caption);
    NodeAtIs(s, |id|, |s| - 1);
    assert s[..|id|] == id;
  }

  /** The node rule at the start of a text that is one node. */
  lemma NodeAtIs(s: string, w: nat, j: nat)
    requires 0 < w < j < |s| && j == |s| - 1
    requires WordRun(s, 0) == w && s[w] == '[' && UntilClose(s, w + 1, "]") == Some(j)
    ensures var caption := s[w + 1..j];
      NodeAt(s, 0) == Some(Hit(|s|,
        if caption != [] && caption[0] == '"' then s else s[..w] + "[\"" + caption + "\"]"))
  {
    assert s[0..j + 1] == s;
    assert s[0..w] == s[..w];
  }

  /** The node rule on a single node `id[label]`. */
  lemma NodeRuleOnNode(id: string, caption: string)
    requires IsWord(id) && PlainLabel(caption)
    ensures ReplaceAll(id + "[" + caption + "]", NodeLabels) ==
      if caption != [] && caption[0] == '"' then id + "[" + caption + "]" else id + "[\"" + caption + "\"]"
  {
    var s := id + "[" + caption + "]";
    var tab := Matches(s, NodeLabels);
    NodeAtNode(id, caption);
    assert tab[0] == NodeAt(s, 0);
    WholeMatch(s, tab, tab[0].value);
  }

  /** The bracket-free rules leave a single node `id[label]` alone. */
  lemma OtherRulesOnNode(id: string, caption: string, start: LabelStart)
    requires IsWord(id) && PlainLabel(caption)
    requires caption == [] || caption[0] != '['
    ensures var s := id + "[" + caption + "]";
      ReplaceAll(s, ArrowLabels(start)) == s && ReplaceAll(s, DoubleBrackets) == s
  {
    var s := id + "[" + caption + "]";
    forall j | 0 <= j < |s|
      ensures s[j] != '-' && (s[j] == '[' ==> j == |id|)
    {
      if j < |id| {
        assert s[j] == id[j];
      } else if |id| < j < |s| - 1 {
        assert s[j] == caption[j - |id| - 1];
      }
    }
    assert '-' !in s;
    NoDashesKept(s, start);
    forall j | 0 <= j < |s|
      ensures MatchAt(s, j, DoubleBrackets).None?
    {
      assert j + 1 < |s| && s[j] == '[' ==> s[j + 1] != '[';
    }
    Unmatched(s, DoubleBrackets);
  }

  /**
   * `A[Text (Part 1)]` becomes `A["Text (Part 1)"]`: an unquoted node label gets quoted, by the
   * clean-up as written and by the corrected one alike.
   */
  lemma SanitizeQuotesNode(id: string, caption: string)
    requires IsWord(id) && PlainLabel(caption)
    requires caption == [] || (caption[0] != '"' && caption[0] != '[')
    ensures SanitizeAsWritten(id + "[" + caption + "]") == id + "[\"" + caption + "\"]"
    ensures Sanitize(id + "[" + caption + "]") == id + "[\"" + caption + "\"]"
  {
    var s := id + "[" + caption + "]";
    var out := id + "[\"" + caption + "\"]";
    assert s[0] == id[0];
    TrimUnpadded(s);
    NodeRuleOnNode(id, caption);
    forall start: LabelStart
      ensures SanitizeWith(s, start) == out
    {
      OtherRulesOnNode(id, caption, start);
      SanitizeBy(s, start, s, s, out);
    }
  }

  /** A node label that already starts with a quote is left as it is, as written and corrected alike. */
  lemma SanitizeKeepsQuotedNode(id: string, caption: string)
    requires IsWord(id) && PlainLabel(caption)
    requires caption != [] && caption[0] == '"'
    ensures SanitizeAsWritten(id + "[" + caption + "]") == id + "[" + caption + "]"
    ensures Sanitize(id + "[" + caption + "]") == id + "[" + caption + "]"
  {
    var s := id + "[" + caption + "]";
    assert s[0] == id[0];
    TrimUnpadded(s);
    NodeRuleOnNode(id, caption);
    forall start: LabelStart
      ensures SanitizeWith(s, start) == s
    {
      OtherRulesOnNode(id, caption, start);
      SanitizeBy(s, start, s, s, s);
    }
  }

  /** Sanitizing a single node twice gives what sanitizing it once gives, as written and corrected alike. */
  lemma SanitizeNodeIdempotent(id: string, caption: string)
    requires IsWord(id) && PlainLabel(caption)
    requires caption == [] || caption[0] != '['
    ensures SanitizeAsWritten(SanitizeAsWritten(id + "[" + caption + "]")) == SanitizeAsWritten(id + "[" + caption + "]")
    ensures Sanitize(Sanitize(id + "[" + caption + "]")) == Sanitize(id + "[" + caption + "]")
  {
    if caption != [] && caption[0] == '"' {
      SanitizeKeepsQuotedNode(id, caption);
    } else {
      SanitizeQuotesNode(id, caption);
      SanitizeKeepsQuotation(id, caption);
    }
  }

  /** A label the clean-up has quoted is kept as it is, as written and corrected alike. */
  lemma SanitizeKeepsQuotation(id: string, caption: string)
    requires IsWord(id) && PlainLabel(caption)
    ensures SanitizeAsWritten(id + "[\"" + caption + "\"]") == id + "[\"" + caption + "\"]"
    ensures Sanitize(id + "[\"" + caption + "\"]") == id + "[\"" + caption + "\"]"
  {
    var quoted := "\"" + caption + "\"";
    assert id + "[\"" + caption + "\"]" == id + "[" + quoted + "]";
    QuotedIsPlain(caption);
    SanitizeKeepsQuotedNode(id, quoted);
  }

  /** The double-bracket rule matches the whole of `[[text]]` after the node name. */
  lemma DoubleAtNode(id: string, text: string)
    requires IsWord(id) && PlainLabel(text)
    ensures var s := id + "[[" + text + "]]";
      DoubleAt(s, |id|) == Some(Hit(|s|, "[\"" + text + "\"]"))
  {
    var s := id + "[[" + text + "]]";
    var b := |id| + 2;
    assert OccursAt(s, "[[", |id|);
    forall m | b <= m < |s| - 2
      ensures !OccursAt(s, "]]", m) && !IsLineTerminator(s[m])
    {
      assert s[m] == text[m - b];
    }
    UntilCloseIs(s, b, "]]", |s| - 2);
    assert s[b..|s| - 2] == text;
  }

  /** The double-bracket rule cannot match where there is no '['. */
  lemma NoDoubleAt(s: string, j: nat)
    requires j < |s| && s[j] != '['
    ensures DoubleAt(s, j).None?
  {
    if j + 2 <= |s| {
      assert s[j..j + 2][0] == s[j];
    }
  }

  /** The double-bracket rule on `id[[text]]`. */
  lemma DoubleRuleOnNode(id: string, text: string)
    requires IsWord(id) && PlainLabel(text)
    ensures ReplaceAll(id + "[[" + text + "]]", DoubleBrackets) == id + "[\"" + text + "\"]"
  {
    var s := id + "[[" + text + "]]";
    var tab := Matches(s, DoubleBrackets);
    forall j | 0 <= j < |id|
      ensures tab[j].None?
    {
      assert s[j] == id[j] && IsWordChar(id[j]);
      NoDoubleAt(s, j);
      assert tab[j] == DoubleAt(s, j);
    }
    DoubleAtNode(id, text);
    var part := "[\"" + text + "\"]";
    assert tab[|id|] == DoubleAt(s, |id|);
    OneMatch(s, tab, |id|, Hit(|s|, part));
    assert s[..|id|] == id && s[|s|..] == [];
  }

  lemma DoubleNoDashes(id: string, text: string)
    requires IsWord(id) && PlainLabel(text)
    ensures '-' !in id + "[[" + text + "]]"
  {
    var s := id + "[[" + text + "]]";
    forall j | 0 <= j < |s|
      ensures s[j] != '-'
    {
      if j < |id| {
        assert s[j] == id[j];
      } else if |id| + 2 <= j < |s| - 2 {
        assert s[j] == text[j - |id| - 2];
      }
    }
  }

  /** `node[[Text]]` survives the trim and the arrow-label rule untouched, under either label class. */
  lemma DoubleUntouchedByArrows(id: string, text: string)
    requires IsWord(id) && PlainLabel(text)
    ensures var s := id + "[[" + text + "]]"; ReplaceAll(Trim(s), ArrowLabels(AsWritten)) == s
    ensures var s := id + "[[" + text + "]]"; ReplaceAll(Trim(s), ArrowLabels(Corrected)) == s
  {
    var s := id + "[[" + text + "]]";
    assert s[0] == id[0];
    TrimUnpadded(s);
    DoubleNoDashes(id, text);
    NoDashesKept(s, AsWritten);
    NoDashesKept(s, Corrected);
  }

  /** `node[[Text]]` becomes `node["Text"]`, as written and corrected alike. */
  lemma SanitizeDoubleBrackets(id: string, text: string)
    requires IsWord(id) && PlainLabel(text)
    ensures SanitizeAsWritten(id + "[[" + text + "]]") == id + "[\"" + text + "\"]"
    ensures Sanitize(id + "[[" + text + "]]") == id + "[\"" + text + "\"]"
  {
    var s := id + "[[" + text + "]]";
    DoubleRuleOnNode(id, text);
    var quoted := "\"" + text + "\"";
    var mid := id + "[\"" + text + "\"]";
    assert mid == id + "[" + quoted + "]";
    QuotedIsPlain(text);
    NodeRuleOnNode(id, quoted);
    DoubleUntouchedByArrows(id, text);
    SanitizeBy(s, AsWritten, s, mid, mid);
    SanitizeBy(s, Corrected, s, mid, mid);
  }

  // ---------------------------------------------------------------------------------------
  // Arrow labels
  // ---------------------------------------------------------------------------------------

  /** The layout of `-- label -->`. */
  predicate ArrowLine(s: string, caption: string) {
    && |s| == |caption| + 7
    && s[..3] == "-- " && s[3..3 + |caption|] == caption && s[3 + |caption|..] == " -->"
  }

  /** An arrow label the rule quotes as a whole. */
  predicate QuotableLabel(caption: string) {
    && caption != [] && StartsLabel(caption[0], Corrected) && !IsSpace(caption[|caption| - 1])
    && forall k :: 0 <= k < |caption| ==> InLabel(caption[k])
  }

  lemma ArrowLineOf(caption: string)
    ensures ArrowLine("-- " + caption + " -->", caption)
  {
    var s := "-- " + caption + " -->";
    assert s[3..3 + |caption|] == caption;
  }

  /** Inside `-- label -->` no arrow head follows a label character before the label's end. */
  lemma ArrowLabelBody(s: string, caption: string)
    requires ArrowLine(s, caption) && QuotableLabel(caption)
    ensures forall m :: 4 <= m < 3 + |caption| ==> InLabel(s[m]) && !OccursAt(s, "-->", m + SpaceRun(s, m))
  {
    var k := 3 + |caption|;
    forall m | 4 <= m < k
      ensures InLabel(s[m]) && !OccursAt(s, "-->", m + SpaceRun(s, m))
    {
      assert s[m] == caption[m - 3];
      assert s[k - 1] == caption[|caption| - 1];
      SpaceRunStops(s, m, k - 1);
      var t := m + SpaceRun(s, m);
      assert s[t] == caption[t - 3];
    }
  }

  /** After the label of `-- label -->` come one space and the arrow head. */
  lemma ArrowLineHead(s: string, caption: string)
    requires ArrowLine(s, caption)
    ensures SpaceRun(s, 3 + |caption|) == 1 && OccursAt(s, "-->", 4 + |caption|)
  {
    var k := 3 + |caption|;
    assert s[k..] == " -->";
    assert s[k] == ' ' && s[k + 1] == '-';
    assert SpaceRun(s, k + 1) == 0;
    assert s[k + 1..k + 4] == "-->";
  }

  /** On `-- label -->` the lazy tail stops right after the label. */
  lemma ArrowTail(s: string, caption: string)
    requires ArrowLine(s, caption) && QuotableLabel(caption)
    ensures LabelTail(s, 4) == Some((3 + |caption|, |s|))
  {
    ArrowLabelBody(s, caption);
    ArrowLineHead(s, caption);
    LabelTailIs(s, 4, 3 + |caption|);
  }

  /** On `-- label -->` the arrow rule matches the whole text. */
  lemma ArrowMatch(s: string, caption: string, start: LabelStart)
    requires ArrowLine(s, caption) && QuotableLabel(caption)
    ensures ArrowAt(s, 0, start) == Some(Hit(|s|, "-- \"" + caption + "\" -->"))
  {
    assert s[2] == ' ' && s[3] == caption[0];
    assert SpaceRun(s, 3) == 0;
    assert SpaceRun(s, 2) == 1;
    ArrowTail(s, caption);
    assert OccursAt(s, "--", 0);
  }

  /** `-- 1. Step -->` becomes `-- "1. Step" -->`, under both arrow-label classes. */
  lemma ArrowRuleOnLabel(caption: string, start: LabelStart)
    requires QuotableLabel(caption)
    ensures ReplaceAll("-- " + caption + " -->", ArrowLabels(start)) == "-- \"" + caption + "\" -->"
  {
    var s := "-- " + caption + " -->";
    var out := "-- \"" + caption + "\" -->";
    ArrowLineOf(caption);
    ArrowMatch(s, caption, start);
    var tab := Matches(s, ArrowLabels(start));
    assert tab[0] == ArrowAt(s, 0, start);
    assert Scan(s, tab, 0) == out + Scan(s, tab, |s|);
  }

  /** The arrow label example through the whole clean-up, as written and corrected alike. */
  lemma SanitizeQuotesArrowLabel(caption: string)
    requires QuotableLabel(caption) && '[' !in caption
    ensures Sanitize("-- " + caption + " -->") == "-- \"" + caption + "\" -->"
    ensures SanitizeAsWritten("-- " + caption + " -->") == "-- \"" + caption + "\" -->"
  {
    var s := "-- " + caption + " -->";
    var out := "-- \"" + caption + "\" -->";
    TrimUnpadded(s);
    ArrowRuleOnLabel(caption, Corrected);
    ArrowRuleOnLabel(caption, AsWritten);
    assert '[' !in out;
    NoBracketsKept(out);
    SanitizeBy(s, Corrected, out, out, out);
    SanitizeBy(s, AsWritten, out, out, out);
  }

  // ---------------------------------------------------------------------------------------
  // Arrow chains: the first label character
  // ---------------------------------------------------------------------------------------

  /** Every "--" in the text is the start of a plain arrow "-->". */
  predicate PlainArrows(s: string) {
    forall j :: 0 <= j < |s| && OccursAt(s, "--", j) ==> j + 2 < |s| && s[j + 2] == '>'
  }

  /** With the corrected class, text whose only dashes are plain arrows passes the arrow rule unchanged. */
  lemma CorrectedKeepsPlainArrows(s: string)
    requires PlainArrows(s)
    ensures ReplaceAll(s, ArrowLabels(Corrected)) == s
  {
    forall j | 0 <= j < |s|
      ensures MatchAt(s, j, ArrowLabels(Corrected)).None?
    {
      if OccursAt(s, "--", j) {
        assert SpaceRun(s, j + 2) == 0;
      }
    }
    Unmatched(s, ArrowLabels(Corrected));
  }

  /** A diagram line without brackets whose arrows are all plain is left unchanged by the clean-up. */
  lemma SanitizeKeepsChains(s: string)
    requires s != [] && !IsSpace(s[0]) && !IsSpace(s[|s| - 1])
    requires '[' !in s && PlainArrows(s)
    ensures Sanitize(s) == s
  {
    TrimUnpadded(s);
    CorrectedKeepsPlainArrows(s);
    NoBracketsKept(s);
    SanitizeBy(s, Corrected, s, s, s);
  }

  const Chain: string := "A --> B --> C"
  const MangledChain: string := "A -- \"> B\" --> C"

  /** The lazy label tail from just after the first arrow of the chain ends before the second arrow. */
  lemma ChainTail()
    ensures LabelTail(Chain, 5) == Some((7, 11))
  {
    var s := Chain;
    assert s[5] == ' ' && s[6] == 'B' && s[7] == ' ' && s[8] == '-';
    assert SpaceRun(s, 8) == 0;
    assert SpaceRun(s, 7) == 1;
    assert s[8..11] == "-->";
    assert LabelTail(s, 7) == Some((7, 11));
    assert SpaceRun(s, 6) == 0;
    assert LabelTail(s, 6) == LabelTail(s, 7);
    assert SpaceRun(s, 5) == 1;
    assert LabelTail(s, 5) == LabelTail(s, 6);
  }

  /** As written, the first arrow of the chain opens a label that runs to the second arrow. */
  lemma ChainMatch()
    ensures ArrowAt(Chain, 2, AsWritten) == Some(Hit(11, "-- \"> B\" -->"))
  {
    var s := Chain;
    assert s[2..4] == "--";
    assert s[4] == '>';
    assert SpaceRun(s, 4) == 0;
    assert StartsLabel(s[4], AsWritten);
    ChainTail();
    assert s[4..7] == "> B";
    assert "-- \"" + s[4..7] + "\" -->" == "-- \"> B\" -->";
  }

  /** Nothing matches at the ends of the chain. */
  lemma ChainEnds(j: nat)
    requires j == 0 || j == 1 || j == 11 || j == 12
    ensures ArrowAt(Chain, j, AsWritten).None?
  {
    assert Chain[j] != '-';
    assert !OccursAt(Chain, "--", j);
  }

  /** As written, the arrow rule turns the chain into a single labelled edge. */
  lemma ChainAsWritten()
    ensures ReplaceAll(Chain, ArrowLabels(AsWritten)) == MangledChain
  {
    var s := Chain;
    var tab := Matches(s, ArrowLabels(AsWritten));
    forall j | 0 <= j < 2 || 11 <= j < 13
      ensures tab[j].None?
    {
      ChainEnds(j);
      assert tab[j] == ArrowAt(s, j, AsWritten);
    }
    ChainMatch();
    assert tab[2] == ArrowAt(s, 2, AsWritten);
    OneMatch(s, tab, 2, Hit(11, "-- \"> B\" -->"));
    ChainPieces();
  }

  lemma ChainPieces()
    ensures Chain[..2] + "-- \"> B\" -->" + Chain[11..] == MangledChain
  {
    assert Chain[..2] == "A " && Chain[11..] == " C";
  }

  /** The bracket rules leave the mangled chain alone. */
  lemma MangledChainKept()
    ensures ReplaceAll(MangledChain, DoubleBrackets) == MangledChain
    ensures ReplaceAll(MangledChain, NodeLabels) == MangledChain
  {
    assert '[' !in MangledChain;
    NoBracketsKept(MangledChain);
  }

  /** The whole clean-up, as written, on the chain. */
  lemma ChainSanitizedAsWritten()
    ensures SanitizeAsWritten(Chain) == MangledChain
  {
    TrimUnpadded(Chain);
    ChainAsWritten();
    MangledChainKept();
    SanitizeBy(Chain, AsWritten, MangledChain, MangledChain, MangledChain);
  }

  /** The chain has no brackets and only plain arrows. */
  lemma ChainIsPlain()
    ensures Chain != [] && !IsSpace(Chain[0]) && !IsSpace(Chain[|Chain| - 1])
    ensures '[' !in Chain && PlainArrows(Chain)
  {
    var s := Chain;
    forall j | 0 <= j < |s| && OccursAt(s, "--", j)
      ensures j + 2 < |s| && s[j + 2] == '>'
    {
      assert s[j..j + 2] == "--";
      assert s[j] == s[j..j + 2][0] == '-' && s[j + 1] == s[j..j + 2][1] == '-';
    }
  }

  /**
   * As written, the clean-up turns the chain `A --> B --> C` into an edge from A to C labelled
   * "> B", losing node B; with the corrected class the chain is left as it is.
   */
  lemma ChainCounterexample()
    ensures SanitizeAsWritten(Chain) == MangledChain
    ensures Sanitize(Chain) == Chain
  {
    ChainSanitizedAsWritten();
    ChainIsPlain();
    SanitizeKeepsChains(Chain);
  }

  // ---------------------------------------------------------------------------------------
  // The render counter
  // ---------------------------------------------------------------------------------------

  /**
   * The state of a diagram view: the counter of render requests, the last rendered SVG, the
   * error text and the spinner flag. A render result carries the counter value its request
   * took, and only a result for the latest request is applied.
   */
  class Diagram {
    var renderId: nat
    var svg: string
    var error: Option<string>
    var isRendering: bool

    constructor()
      ensures renderId == 0 && svg == [] && error.None? && isRendering
    {
      renderId := 0;
      svg := [];
      error := None;
      isRendering := true;
    }

    /**
     * A render request for `code`: nothing happens when the sanitized code is empty; otherwise
     * the spinner shows, the error clears and the request takes the next counter value.
     */
    method Begin(code: string) returns (ticket: Option<nat>)
      modifies this
      ensures SanitizeAsWritten(code) == [] ==> ticket.None? && unchanged(this)
      ensures SanitizeAsWritten(code) != [] ==>
        && renderId == old(renderId) + 1 && ticket == Some(renderId)
        && isRendering && error.None? && svg == old(svg)
    {
      if SanitizeAsWritten(code) == [] {
        ticket := None;
      } else {
        isRendering := true;
        error := None;
        renderId := renderId + 1;
        ticket := Some(renderId);
      }
    }

    /** A finished render: applied only when its ticket is the latest request. */
    method Rendered(ticket: nat, rendered: string)
      modifies this
      ensures ticket == old(renderId) ==>
        svg == rendered && !isRendering && error == old(error) && renderId == old(renderId)
      ensures ticket != old(renderId) ==> unchanged(this)
    {
      if ticket == renderId {
        svg := rendered;
        isRendering := false;
      }
    }

    /** A failed render: its message, or "Syntax Error" without one, only for the latest request. */
    method Failed(ticket: nat, message: Option<string>)
      modifies this
      ensures ticket == old(renderId) ==>
        && error == Some(if message.None? || message.value == [] then "Syntax Error" else message.value)
        && !isRendering && svg == old(svg) && renderId == old(renderId)
      ensures ticket != old(renderId) ==> unchanged(this)
    {
      if ticket == renderId {
        error := Some(if message.None? || message.value == [] then "Syntax Error" else message.value);
        isRendering := false;
      }
    }
  }

  /** Of two overlapping requests, the result of the first is dropped whichever order they finish in. */
  method OverlappingRenders(d: Diagram, first: string, second: string, svg1: string, svg2: string, laterFirst: bool)
    requires SanitizeAsWritten(first) != [] && SanitizeAsWritten(second) != []
    modifies d
    ensures d.svg == svg2 && !d.isRendering && d.error == None
  {
    var t1 := d.Begin(first);
    var t2 := d.Begin(second);
    if laterFirst {
      d.Rendered(t2.value, svg2);
      d.Rendered(t1.value, svg1);
    } else {
      d.Rendered(t1.value, svg1);
      d.Rendered(t2.value, svg2);
    }
  }
}

=== FILE: message_item.dfy ===
/**
 * A chat message bubble: the text read aloud by the speech button (markdown markers, links and
 * tone tags stripped), the speech controls with their speed cycle, and how an attachment is
 * shown (header, and an image, text, PDF or fallback body). The bubble's diagram clean-up and
 * render counter are the ones of the `Mermaid` module.
 */
module MessageItem {
  import opened Wrappers
  import opened JsText
  import opened RegexScan
  import opened SeqUtil
  import opened ChatTypes

  // ---------------------------------------------------------------------------------------
  // The text read aloud
  // ---------------------------------------------------------------------------------------

  /** The markdown markers `[*_#`]` removed before speaking. */
  predicate IsMarker(c: char) {
    c == '*' || c == '_' || c == '#' || c == '`'
  }

  /** The first replacement: every marker removed. */
  function StripMarkers(s: string): (r: string)
    ensures |r| <= |s|
    ensures forall k :: 0 <= k < |r| ==> !IsMarker(r[k])
  {
    var r := Filter(s, c => !IsMarker(c));
    assert forall k :: 0 <= k < |r| ==> r[k] in r;
    r
  }

  /** A text in which no marker occurs. */
  predicate MarkerFree(s: string) {
    forall k :: 0 <= k < |s| ==> !IsMarker(s[k])
  }

  /**
   * A link `\[([^\]]+)\]\([^)]+\)` at `i`: "[", a non-empty text without "]", "](", a non-empty
   * address without ")", then ")"; it is replaced by its text.
   */
  function LinkAt(s: string, i: nat): (r: Option<Hit>)
    requires i <= |s|
    ensures r.Some? ==> i < r.value.end <= |s| && |r.value.replacement| < r.value.end - i
  {
    if i == |s| || s[i] != '[' then None
    else
      match IndexFrom(s, i + 1, ']')
      case None => None
      case Some(j) =>
        if j == i + 1 || j + 1 == |s| || s[j + 1] != '(' then None
        else
          match IndexFrom(s, j + 2, ')')
          case None => None
          case Some(k) => if k == j + 2 then None else Some(Hit(k + 1, s[i + 1..j]))
  }

  /** A tone tag `\[.*?\]` at `i`: "[", then the nearest "]" on the same line; it is removed. */
  function TagAt(s: string, i: nat): (r: Option<Hit>)
    requires i <= |s|
    ensures r.Some? ==> i < r.value.end <= |s| && r.value.replacement == []
  {
    if i == |s| || s[i] != '[' then None
    else
      match UntilClose(s, i + 1, "]")
      case None => None
      case Some(j) => Some(Hit(j + 1, []))
  }

  function LinkMatches(s: string): (tab: seq<Option<Hit>>)
    ensures ValidHits(s, tab)
  {
    seq(|s|, j requires 0 <= j < |s| => LinkAt(s, j))
  }

  function TagMatches(s: string): (tab: seq<Option<Hit>>)
    ensures ValidHits(s, tab)
  {
    seq(|s|, j requires 0 <= j < |s| => TagAt(s, j))
  }

  /** The second replacement: every link replaced by its text. */
  function ReplaceLinks(s: string): string {
    Scan(s, LinkMatches(s), 0)
  }

  /** The third replacement: every tone tag removed. */
  function RemoveTags(s: string): string {
    Scan(s, TagMatches(s), 0)
  }

  /** The text handed to the speech engine. */
  function CleanText(text: string): string {
    RemoveTags(ReplaceLinks(StripMarkers(text)))
  }

  /** Links and tags only ever shorten the text. */
  lemma CleanTextShorter(text: string)
    ensures |CleanText(text)| <= |text|
  {
    var a := StripMarkers(text);
    var tab := LinkMatches(a);
    ScanShrinks(a, tab, 0);
    var b := ReplaceLinks(a);
    ScanShrinks(b, TagMatches(b), 0);
  }

  /** No markdown marker is ever read aloud: links and tags bring none back. */
  lemma CleanTextHasNoMarker(text: string, c: char)
    requires IsMarker(c)
    ensures c !in CleanText(text)
  {
    var a := StripMarkers(text);
    var tab := LinkMatches(a);
    forall j | 0 <= j < |a| && tab[j].Some?
      ensures c !in tab[j].value.replacement
    {
      var hit := tab[j].value;
      assert tab[j] == LinkAt(a, j);
      var e := IndexFrom(a, j + 1, ']').value;
      assert hit.replacement == a[j + 1..e];
    }
    ScanLacks(a, tab, 0, c);
    var b := ReplaceLinks(a);
    var tags := TagMatches(b);
    forall m | 0 <= m < |b|
      ensures b[m] != c
    {
      assert b[m] in b;
    }
    ScanLacks(b, tags, 0, c);
  }

  /** Text with no marker and no "[" is read exactly as written. */
  lemma CleanTextPlain(text: string)
    requires forall k :: 0 <= k < |text| ==> !IsMarker(text[k]) && text[k] != '['
    ensures CleanText(text) == text
  {
    FilterAll(text, c => !IsMarker(c));
    var tab := LinkMatches(text);
    forall j | 0 <= j < |text|
      ensures tab[j].None?
    {
      assert tab[j] == LinkAt(text, j);
    }
    NothingMatched(text, tab);
    var tags := TagMatches(text);
    forall j | 0 <= j < |text|
      ensures tags[j].None?
    {
      assert tags[j] == TagAt(text, j);
    }
    NothingMatched(text, tags);
  }

  /** Where "]" and ")" fall in `[text](url)`. */
  lemma LinkLayout(t: string, u: string)
    requires t != [] && u != []
    requires forall k :: 0 <= k < |t| ==> t[k] != ']'
    requires forall k :: 0 <= k < |u| ==> u[k] != ')'
    ensures var s := "[" + t + "](" + u + ")";
      && IndexFrom(s, 1, ']') == Some(|t| + 1) && s[|t| + 2] == '('
      && IndexFrom(s, |t| + 3, ')') == Some(|s| - 1) && s[1..|t| + 1] == t
  {
    var s := "[" + t + "](" + u + ")";
    forall m | 1 <= m < |t| + 1
      ensures s[m] != ']'
    {
      assert s[m] == t[m - 1];
    }
    IndexFromIs(s, 1, ']', |t| + 1);
    forall m | |t| + 3 <= m < |s| - 1
      ensures s[m] != ')'
    {
      assert s[m] == u[m - |t| - 3];
    }
    IndexFromIs(s, |t| + 3, ')', |s| - 1);
    assert s[1..|t| + 1] == t;
  }

  /** The pieces of `[text](url)` carry no marker when the text and the address carry none. */
  lemma LinkMarkerFree(t: string, u: string)
    requires MarkerFree(t) && MarkerFree(u)
    ensures MarkerFree("[" + t + "](" + u + ")")
  {
    var s := "[" + t + "](" + u + ")";
    forall k | 0 <= k < |s|
      ensures !IsMarker(s[k])
    {
      if 1 <= k < |t| + 1 {
        assert s[k] == t[k - 1];
      } else if |t| + 3 <= k < |s| - 1 {
        assert s[k] == u[k - |t| - 3];
      }
    }
  }

  /** Marker-free text passes the marker removal unchanged. */
  lemma StripKeepsPlain(s: string)
    requires MarkerFree(s)
    ensures StripMarkers(s) == s
  {
    FilterAll(s, c => !IsMarker(c));
  }

  /** The link replacement turns a whole `[text](url)` into its text. */
  lemma LinkReplaced(t: string, u: string)
    requires t != [] && u != []
    requires forall k :: 0 <= k < |t| ==> t[k] != ']'
    requires forall k :: 0 <= k < |u| ==> u[k] != ')'
    ensures ReplaceLinks("[" + t + "](" + u + ")") == t
  {
    var s := "[" + t + "](" + u + ")";
    LinkLayout(t, u);
    var tab := LinkMatches(s);
    assert tab[0] == LinkAt(s, 0);
    WholeMatch(s, tab, Hit(|s|, t));
  }

  /** A markdown link `[text](url)` is read as its text. */
  lemma CleanTextLink(t: string, u: string)
    requires t != [] && u != []
    requires MarkerFree(t) && MarkerFree(u)
    requires forall k :: 0 <= k < |t| ==> t[k] != '[' && t[k] != ']'
    requires forall k :: 0 <= k < |u| ==> u[k] != ')'
    ensures CleanText("[" + t + "](" + u + ")") == t
  {
    var s := "[" + t + "](" + u + ")";
    LinkMarkerFree(t, u);
    StripKeepsPlain(s);
    LinkReplaced(t, u);
    CleanTagsPlain(t);
  }

  /** Text without "[" passes the tag removal unchanged. */
  lemma CleanTagsPlain(t: string)
    requires forall k :: 0 <= k < |t| ==> t[k] != '['
    ensures RemoveTags(t) == t
  {
    var tags := TagMatches(t);
    forall j | 0 <= j < |t|
      ensures tags[j].None?
    {
      assert tags[j] == TagAt(t, j);
    }
    NothingMatched(t, tags);
  }

  /** Where the closing "]" of `[tag]rest` falls. */
  lemma TagLayout(tag: string, rest: string)
    requires forall k :: 0 <= k < |tag| ==> tag[k] != ']' && !IsLineTerminator(tag[k])
    ensures var s := "[" + tag + "]" + rest;
      && IndexFrom(s, 1, ']') == Some(|tag| + 1) && UntilClose(s, 1, "]") == Some(|tag| + 1)
      && s[|tag| + 2..] == rest
  {
    var s := "[" + tag + "]" + rest;
    forall m | 1 <= m < |tag| + 1
      ensures s[m] != ']' && !IsLineTerminator(s[m]) && !OccursAt(s, "]", m)
    {
      assert s[m] == tag[m - 1];
    }
    IndexFromIs(s, 1, ']', |tag| + 1);
    assert OccursAt(s, "]", |tag| + 1);
    UntilCloseIs(s, 1, "]", |tag| + 1);
    assert s[|tag| + 2..] == rest;
  }

  /** The pieces of `[tag]rest` carry no marker when the tag and the rest carry none. */
  lemma TagMarkerFree(tag: string, rest: string)
    requires MarkerFree(tag) && MarkerFree(rest)
    ensures MarkerFree("[" + tag + "]" + rest)
  {
    var s := "[" + tag + "]" + rest;
    forall k | 0 <= k < |s|
      ensures !IsMarker(s[k])
    {
      if 1 <= k < |tag| + 1 {
        assert s[k] == tag[k - 1];
      } else if |tag| + 2 <= k {
        assert s[k] == rest[k - |tag| - 2];
      }
    }
  }

  /** `[tag]rest` holds no link when the rest does not open with "(". */
  lemma TagIsNoLink(tag: string, rest: string)
    requires forall k :: 0 <= k < |tag| ==> tag[k] != '[' && tag[k] != ']' && !IsLineTerminator(tag[k])
    requires forall k :: 0 <= k < |rest| ==> rest[k] != '['
    requires rest == [] || rest[0] != '('
    ensures var s := "[" + tag + "]" + rest; ReplaceLinks(s) == s
  {
    var s := "[" + tag + "]" + rest;
    TagLayout(tag, rest);
    var tab := LinkMatches(s);
    forall j | 0 <= j < |s|
      ensures tab[j].None?
    {
      assert tab[j] == LinkAt(s, j);
      if 1 <= j < |tag| + 1 {
        assert s[j] == tag[j - 1];
      } else if |tag| + 2 <= j {
        assert s[j] == rest[j - |tag| - 2];
      }
    }
    NothingMatched(s, tab);
  }

  /** The tag removal drops `[tag]` and keeps a rest without "[". */
  lemma TagRemoved(tag: string, rest: string)
    requires forall k :: 0 <= k < |tag| ==> tag[k] != ']' && !IsLineTerminator(tag[k])
    requires forall k :: 0 <= k < |rest| ==> rest[k] != '['
    ensures RemoveTags("[" + tag + "]" + rest) == rest
  {
    var s := "[" + tag + "]" + rest;
    TagLayout(tag, rest);
    var tags := TagMatches(s);
    assert tags[0] == TagAt(s, 0);
    forall j | |tag| + 2 <= j < |s|
      ensures tags[j].None?
    {
      assert tags[j] == TagAt(s, j);
      assert s[j] == rest[j - |tag| - 2];
    }
    OneMatch(s, tags, 0, Hit(|tag| + 2, []));
  }

  /**
   * A tone tag such as `[Softly]` is not read aloud; the text after it is, unless it opens
   * with "(", which would make the tag a link.
   */
  lemma CleanTextTag(tag: string, rest: string)
    requires MarkerFree(tag) && MarkerFree(rest)
    requires forall k :: 0 <= k < |tag| ==> tag[k] != '[' && tag[k] != ']' && !IsLineTerminator(tag[k])
    requires forall k :: 0 <= k < |rest| ==> rest[k] != '['
    requires rest == [] || rest[0] != '('
    ensures CleanText("[" + tag + "]" + rest) == rest
  {
    var s := "[" + tag + "]" + rest;
    TagMarkerFree(tag, rest);
    FilterAll(s, c => !IsMarker(c));
    TagIsNoLink(tag, rest);
    TagRemoved(tag, rest);
  }

  // ---------------------------------------------------------------------------------------
  // Speech controls
  // ---------------------------------------------------------------------------------------

  /** The playback rates the speed button steps through. */
  const Speeds: seq<real> := [1.0, 1.25, 1.5, 2.0, 0.75]

  /** The rate after `speed`: the next one in the list, wrapping round; 1 for an unlisted rate. */
  function NextSpeed(speed: real): (r: real)
    ensures r in Speeds
  {
    Speeds[(IndexOf(Speeds, speed) + 1) % |Speeds|]
  }


  /** The button steps through the list in order and wraps round: 1 -> 1.25 -> 1.5 -> 2 -> 0.75 -> 1. */
  lemma SpeedOrder()
    ensures forall i :: 0 <= i < |Speeds| ==> NextSpeed(Speeds[i]) == Speeds[(i + 1) % |Speeds|]
  {
    forall i | 0 <= i < |Speeds|
      ensures NextSpeed(Speeds[i]) == Speeds[(i + 1) % |Speeds|]
    {
      assert IndexOf(Speeds, Speeds[i]) == i;
    }
  }

  /** An unlisted rate goes back to normal speed. */
  lemma NextSpeedUnlisted(speed: real)
    requires speed !in Speeds
    ensures NextSpeed(speed) == 1.0
  {
  }

  /** The rate after `n` presses of the speed button. */
  function Presses(speed: real, n: nat): real
    decreases n
  {
    if n == 0 then speed else Presses(NextSpeed(speed), n - 1)
  }

  /** The rates of the first five presses from `speed`. */
  lemma PressesFrom(speed: real, s1: real, s2: real, s3: real, s4: real)
    requires NextSpeed(speed) == s1 && NextSpeed(s1) == s2 && NextSpeed(s2) == s3 && NextSpeed(s3) == s4
    ensures Presses(speed, 1) == s1 && Presses(speed, 2) == s2 && Presses(speed, 3) == s3
    ensures Presses(speed, 4) == s4 && Presses(speed, 5) == NextSpeed(s4)
  {
    assert Presses(speed, 2) == Presses(s1, 1);
    assert Presses(speed, 3) == Presses(s1, 2) == Presses(s2, 1);
    assert Presses(speed, 4) == Presses(s1, 3) == Presses(s2, 2) == Presses(s3, 1);
    assert Presses(speed, 5) == Presses(s1, 4) == Presses(s2, 3) == Presses(s3, 2) == Presses(s4, 1);
  }

  /** Five presses bring any listed rate back to itself, and no fewer do. */
  lemma NextSpeedCycle(speed: real)
    requires speed in Speeds
    ensures Presses(speed, 5) == speed
    ensures Presses(speed, 1) != speed && Presses(speed, 2) != speed
    ensures Presses(speed, 3) != speed && Presses(speed, 4) != speed
  {
    SpeedOrder();
    var i := IndexOf(Speeds, speed);
    if i == 0 {
      PressesFrom(speed, Speeds[1], Speeds[2], Speeds[3], Speeds[4]);
    } else if i == 1 {
      PressesFrom(speed, Speeds[2], Speeds[3], Speeds[4], Speeds[0]);
    } else if i == 2 {
      PressesFrom(speed, Speeds[3], Speeds[4], Speeds[0], Speeds[1]);
    } else if i == 3 {
      PressesFrom(speed, Speeds[4], Speeds[0], Speeds[1], Speeds[2]);
    } else {
      PressesFrom(speed, Speeds[0], Speeds[1], Speeds[2], Speeds[3]);
    }
  }

  /** What the speech engine is asked to say: the text and the rate. */
  datatype Utterance = Utterance(text: string, rate: real)

  /**
   * The speech controls of one message: whether it is being read, the chosen rate, the current
   * utterance, and what the speech engine is saying (`cancel` silences it, `speak` starts one).
   */
  class Speech {
    var isSpeaking: bool
    var speed: real
    var utterance: Option<Utterance>
    var engine: Option<Utterance>

    /** The rate is a listed one, and an utterance exists exactly while the message is read. */
    predicate Valid()
      reads this
    {
      && speed in Speeds
      && (isSpeaking <==> utterance.Some?)
    }

    constructor()
      ensures Valid() && !isSpeaking && speed == 1.0 && utterance.None? && engine.None?
    {
      isSpeaking := false;
      speed := 1.0;
      utterance := None;
      engine := None;
    }

    /** The speak button: any speech is cancelled and the cleaned text is read at the chosen rate. */
    method Speak(text: string)
      requires Valid()
      modifies this
      ensures Valid()
      ensures utterance == Some(Utterance(CleanText(text), speed)) && engine == utterance
      ensures isSpeaking && speed == old(speed)
    {
      var u := Utterance(CleanText(text), speed);
      utterance := Some(u);
      isSpeaking := true;
      engine := Some(u);
    }

    /** The stop button: speech is cancelled and the controls reset. */
    method Stop()
      requires Valid()
      modifies this
      ensures Valid() && !isSpeaking && utterance.None? && engine.None? && speed == old(speed)
    {
      engine := None;
      isSpeaking := false;
      utterance := None;
    }

    /** The engine reports that the utterance ended or failed. */
    method Ended()
      requires Valid()
      modifies this
      ensures Valid() && !isSpeaking && utterance.None? && engine.None? && speed == old(speed)
    {
      engine := None;
      isSpeaking := false;
      utterance := None;
    }

    /**
     * The speed button: the next rate is chosen; while the message is read, the speech restarts
     * with the same text at the new rate.
     */
    method CycleSpeed()
      requires Valid()
      modifies this
      ensures Valid() && speed == NextSpeed(old(speed)) && isSpeaking == old(isSpeaking)
      ensures old(isSpeaking) ==>
        && utterance == Some(Utterance(old(utterance).value.text, speed)) && engine == utterance
      ensures !old(isSpeaking) ==> utterance == old(utterance) && engine == old(engine)
    {
      var newSpeed := NextSpeed(speed);
      speed := newSpeed;
      if isSpeaking && utterance.Some? {
        var u := Utterance(utterance.value.text, newSpeed);
        engine := Some(u);
        utterance := Some(u);
      }
    }

    /** Leaving the view cancels speech still playing. */
    method Unmount()
      requires Valid()
      modifies this
      ensures isSpeaking == old(isSpeaking) && utterance == old(utterance) && speed == old(speed)
      ensures engine == if old(isSpeaking) then None else old(engine)
    {
      if isSpeaking {
        engine := None;
      }
    }
  }

  // ---------------------------------------------------------------------------------------
  // Attachments
  // ---------------------------------------------------------------------------------------

  /** The file-name endings shown as text. */
  const TextExtensions: seq<string> := [".ts", ".tsx", ".js", ".jsx", ".py", ".md", ".txt"]

  predicate IsImage(a: Attachment) {
    StartsWith(a.mimeType, "image/")
  }

  predicate IsPdf(a: Attachment) {
    a.mimeType == "application/pdf"
  }

  predicate HasTextName(a: Attachment) {
    exists k :: 0 <= k < |TextExtensions| && EndsWith(a.fileName, TextExtensions[k])
  }

  predicate IsText(a: Attachment) {
    StartsWith(a.mimeType, "text/") || a.mimeType == "application/json" || HasTextName(a)
  }

  /** The caption of the header shown above PDF and text attachments. */
  function Header(a: Attachment): (r: Option<string>)
    ensures r.Some? <==> IsPdf(a) || IsText(a)
    ensures r == Some("PDF Document") <==> IsPdf(a)
  {
    if IsPdf(a) then Some("PDF Document")
    else if IsText(a) then Some("Text File")
    else None
  }

  /** The preview shown in the body of an attachment. */
  datatype Body = ImageBody | TextBody(preview: string) | PdfBody | FallbackBody

  /** The longest text shown in a preview. */
  const PreviewLimit: nat := 2000

  /**
   * The preview of a decoded text attachment (`None` when base64 decoding fails): the text
   * itself, or its first 2000 characters and "..." when it is longer.
   */
  function TextPreview(decoded: Option<string>): (r: string)
    ensures decoded.None? ==> r == "Error previewing text content."
    ensures decoded.Some? ==> |r| <= PreviewLimit + 3
    ensures decoded.Some? && |decoded.value| <= PreviewLimit ==> r == decoded.value
    ensures decoded.Some? && |decoded.value| > PreviewLimit ==>
      && |r| == PreviewLimit + 3 && r[..PreviewLimit] == decoded.value[..PreviewLimit]
      && EndsWith(r, "...")
  {
    match decoded
    case None => "Error previewing text content."
    case Some(d) => if |d| > PreviewLimit then d[..PreviewLimit] + "..." else d
  }

  /**
   * The body of an attachment, with base64 decoding as a parameter: an image first, then a
   * text preview, then a PDF viewer, and the file name otherwise.
   */
  function AttachmentBody(a: Attachment, decode: string -> Option<string>): (r: Body)
    ensures r == ImageBody <==> IsImage(a)
    ensures r.TextBody? <==> !IsImage(a) && IsText(a)
    ensures r.TextBody? ==> r.preview == TextPreview(decode(a.base64))
    ensures r == PdfBody <==> !IsImage(a) && !IsText(a) && IsPdf(a)
  {
    if IsImage(a) then ImageBody
    else if IsText(a) then TextBody(TextPreview(decode(a.base64)))
    else if IsPdf(a) then PdfBody
    else FallbackBody
  }

  /** A PDF whose name has no text ending gets the PDF header and the PDF viewer. */
  lemma PdfShownAsPdf(a: Attachment, decode: string -> Option<string>)
    requires IsPdf(a) && !HasTextName(a)
    ensures Header(a) == Some("PDF Document") && AttachmentBody(a, decode) == PdfBody
  {
    assert a.mimeType[..6][0] == 'a' && a.mimeType[..5][0] == 'a';
  }

  /**
   * A PDF named like source code is previewed as text under a "PDF Document" header, and an
   * image named so is shown as an image under a "Text File" header.
   */
  lemma MixedClassification(a: Attachment, decode: string -> Option<string>)
    requires HasTextName(a)
    ensures IsPdf(a) ==> Header(a) == Some("PDF Document") && AttachmentBody(a, decode).TextBody?
    ensures IsImage(a) ==> Header(a) == Some("Text File") && AttachmentBody(a, decode) == ImageBody
  {
    if IsPdf(a) {
      assert a.mimeType[..6][0] == 'a';
    }
    if IsImage(a) {
      assert a.mimeType != "application/pdf" by {
        assert a.mimeType[..6] == "image/";
      }
    }
  }
}

=== FILE: otp_forms.dfy ===
/**
 * The two one-time-code forms: the login form (email step, then code step) and the
 * verification form shown after registration. Both hold four one-character cells, a countdown
 * from five minutes and a resend switch; both refuse a code that is not four characters long.
 */
module OtpForms {
  import opened JsText

  // ---------------------------------------------------------------------------------------
  // Shared helpers
  // ---------------------------------------------------------------------------------------

  /** The countdown's start: five minutes, in seconds. */
  const CodeLifetime := 300

  const IncompleteCode := "Please enter the complete 4-digit code"

  /** The remaining time as minutes, a colon and the seconds padded to two digits. */
  function FormatTime(seconds: nat): string {
    NatToDecimal(seconds / 60) + ":" + PadStart(NatToDecimal(seconds % 60), 2, '0')
  }

  /**
   * The text reads back as the time it shows: the minutes before the one colon, and exactly two
   * digits after it that read as the seconds.
   */
  lemma FormatTimeReadsBack(seconds: nat)
    ensures var t := FormatTime(seconds); var m := NatToDecimal(seconds / 60);
      && |t| == |m| + 3 && t[|m|] == ':' && t[..|m|] == m
      && DecimalValue(m) == seconds / 60
      && IsDigit(t[|m| + 1]) && IsDigit(t[|m| + 2])
      && DecimalValue(t[|m| + 1..]) == seconds % 60
  {
    var m := NatToDecimal(seconds / 60);
    var s := NatToDecimal(seconds % 60);
    var padded := PadStart(s, 2, '0');
    var t := FormatTime(seconds);
    DecimalRoundTrip(seconds / 60);
    DecimalRoundTrip(seconds % 60);
    DecimalLength(seconds % 60, 2);
    assert t == m + ":" + padded;
    assert t[..|m|] == m;
    assert t[|m| + 1..] == padded;
    if |s| < 2 {
      assert padded == Repeat('0', 1) + s;
      DecimalValueConcat(Repeat('0', 1), s);
      ZerosValue(1);
    } else {
      assert padded == s;
    }
  }

  /** The countdown's start shows "5:00". */
  lemma FullTimeShown()
    ensures FormatTime(CodeLifetime) == "5:00"
  {
    assert CodeLifetime / 60 == 5 && CodeLifetime % 60 == 0;
    assert NatToDecimal(5) == "5";
    assert NatToDecimal(0) == "0";
    assert PadStart("0", 2, '0') == Repeat('0', 1) + "0" == "00";
  }

  /** A minute and five seconds shows "1:05". */
  lemma PaddedSecondsShown()
    ensures FormatTime(65) == "1:05"
  {
    assert 65 / 60 == 1 && 65 % 60 == 5;
    assert PadStart("5", 2, '0') == Repeat('0', 1) + "5" == "05";
    assert NatToDecimal(1) == "1";
    assert NatToDecimal(5) == "5";
  }

  /** Whether every cell holds at most one character, as the cell editor allows. */
  predicate Cells(otp: seq<string>) {
    |otp| == 4 && forall i :: 0 <= i < 4 ==> |otp[i]| <= 1
  }

  /** The cell editor: a value of more than one character is ignored; otherwise only that cell changes. */
  function SetCell(otp: seq<string>, index: nat, value: string): (r: seq<string>)
    requires index < |otp|
    ensures |r| == |otp|
    ensures |value| > 1 ==> r == otp
    ensures |value| <= 1 ==> r[index] == value && forall i :: 0 <= i < |otp| && i != index ==> r[i] == otp[i]
    ensures Cells(otp) ==> Cells(r)
  {
    if |value| > 1 then otp else otp[index := value]
  }

  /** The length of the joined cells, one character at most per cell. */
  lemma {:induction false} JoinedLength(cells: seq<string>)
    requires forall i :: 0 <= i < |cells| ==> |cells[i]| <= 1
    ensures |Join(cells, "")| <= |cells|
    ensures |Join(cells, "")| == |cells| <==> forall i :: 0 <= i < |cells| ==> cells[i] != []
  {
    if |cells| > 1 {
      JoinedLength(cells[1..]);
      assert Join(cells, "") == cells[0] + Join(cells[1..], "");
      if cells[0] != [] && (forall i :: 0 <= i < |cells[1..]| ==> cells[1..][i] != []) {
        forall i | 0 <= i < |cells| ensures cells[i] != [] {
          if i > 0 { assert cells[i] == cells[1..][i - 1]; }
        }
      }
    }
  }

  /** The code reaches the service exactly when all four cells are filled. */
  lemma CompleteIffAllFilled(otp: seq<string>)
    requires Cells(otp)
    ensures |Join(otp, "")| == 4 <==> forall i :: 0 <= i < 4 ==> otp[i] != []
  {
    JoinedLength(otp);
  }

  /** What the authentication service answered. */
  datatype Reply = Token(accessToken: string) | Failure(message: string)

  // ---------------------------------------------------------------------------------------
  // The login form
  // ---------------------------------------------------------------------------------------

  datatype Step = EmailStep | CodeStep

  class LoginForm {
    var step: Step
    var email: string
    var otp: seq<string>
    var isLoading: bool
    var error: string
    var timer: int
    var canResend: bool

    /** The cells are well formed and the countdown stays between zero and five minutes. */
    predicate Valid()
      reads this
    {
      Cells(otp) && 0 <= timer <= CodeLifetime
    }

    constructor()
      ensures Valid() && step == EmailStep && otp == ["", "", "", ""] && timer == CodeLifetime
      ensures !canResend && !isLoading && error == [] && email == []
    {
      step := EmailStep;
      email := [];
      otp := ["", "", "", ""];
      isLoading := false;
      error := [];
      timer := CodeLifetime;
      canResend := false;
    }

    /**
     * One second of the countdown: it runs only on the code step while time is left; once the
     * timer is at zero, resending is enabled.
     */
    method Tick()
      requires Valid()
      modifies this
      ensures Valid()
      ensures timer == if old(step) == CodeStep && old(timer) > 0 then old(timer) - 1 else old(timer)
      ensures canResend == (old(canResend) || timer == 0)
      ensures step == old(step) && otp == old(otp) && error == old(error) && email == old(email)
      ensures isLoading == old(isLoading)
    {
      if step == CodeStep && timer > 0 {
        timer := timer - 1;
      }
      if timer == 0 {
        canResend := true;
      }
    }

    method SetEmail(value: string)
      modifies this
      ensures email == value
      ensures step == old(step) && otp == old(otp) && error == old(error) && timer == old(timer)
      ensures canResend == old(canResend) && isLoading == old(isLoading)
    {
      email := value;
    }

    /** A key typed into a cell. */
    method ChangeCell(index: nat, value: string)
      requires Valid() && index < 4
      modifies this
      ensures Valid() && otp == SetCell(old(otp), index, value)
      ensures step == old(step) && error == old(error) && timer == old(timer) && email == old(email)
      ensures canResend == old(canResend) && isLoading == old(isLoading)
    {
      otp := SetCell(otp, index, value);
    }

    /**
     * The "Change email" button: back to the e-mail step with everything else kept, so the
     * typed cells and the countdown stay as they were and the countdown stops ticking.
     */
    method ChangeEmail()
      requires Valid()
      modifies this
      ensures Valid() && step == EmailStep
      ensures email == old(email) && otp == old(otp) && error == old(error) && timer == old(timer)
      ensures canResend == old(canResend) && isLoading == old(isLoading)
    {
      step := EmailStep;
    }

    /** Sending the code: on success the code step starts with a full countdown and resending off. */
    method SendCode(reply: Reply)
      requires Valid()
      modifies this
      ensures Valid() && !isLoading
      ensures reply.Token? ==> step == CodeStep && timer == CodeLifetime && !canResend && error == []
      ensures reply.Failure? ==>
        step == old(step) && timer == old(timer) && canResend == old(canResend) && error == reply.message
      ensures otp == old(otp) && email == old(email)
    {
      isLoading := true;
      error := [];
      if reply.Token? {
        step := CodeStep;
        timer := CodeLifetime;
        canResend := false;
      } else {
        error := reply.message;
      }
      isLoading := false;
    }

    /**
     * Verifying: an incomplete code is refused before the service is asked; otherwise the joined
     * code is sent, and the login succeeds with the token or shows the service's error.
     */
    method VerifyCode(reply: Reply) returns (sent: bool, token: string)
      requires Valid()
      modifies this
      ensures Valid() && !isLoading
      ensures sent <==> |Join(old(otp), "")| == 4
      ensures !sent ==> error == IncompleteCode && token == []
      ensures sent && reply.Token? ==> token == reply.accessToken && error == []
      ensures sent && reply.Failure? ==> token == [] && error == reply.message
      ensures step == old(step) && otp == old(otp) && timer == old(timer) && canResend == old(canResend)
      ensures email == old(email)
    {
      isLoading := true;
      error := [];
      token := [];
      var code := Join(otp, "");
      if |code| != 4 {
        error := IncompleteCode;
        isLoading := false;
        return false, [];
      }
      sent := true;
      if reply.Token? {
        token := reply.accessToken;
      } else {
        error := reply.message;
      }
      isLoading := false;
    }
  }

  // ---------------------------------------------------------------------------------------
  // The verification form
  // ---------------------------------------------------------------------------------------

  class VerificationForm {
    const email: string
    var otp: seq<string>
    var isLoading: bool
    var error: string
    var timer: int
    var canResend: bool
    var resendLoading: bool

    predicate Valid()
      reads this
    {
      Cells(otp) && 0 <= timer <= CodeLifetime
    }

    constructor(email: string)
      ensures Valid() && this.email == email && otp == ["", "", "", ""] && timer == CodeLifetime
      ensures !canResend && !isLoading && !resendLoading && error == []
    {
      this.email := email;
      otp := ["", "", "", ""];
      isLoading := false;
      error := [];
      timer := CodeLifetime;
      canResend := false;
      resendLoading := false;
    }

    /** One second of the countdown, which runs whatever else happens; at zero, resending is enabled. */
    method Tick()
      requires Valid()
      modifies this
      ensures Valid()
      ensures timer == if old(timer) > 0 then old(timer) - 1 else 0
      ensures canResend == (old(canResend) || timer == 0)
      ensures otp == old(otp) && error == old(error) && isLoading == old(isLoading)
      ensures resendLoading == old(resendLoading)
    {
      if timer > 0 {
        timer := timer - 1;
      }
      if timer == 0 {
        canResend := true;
      }
    }

    method ChangeCell(index: nat, value: string)
      requires Valid() && index < 4
      modifies this
      ensures Valid() && otp == SetCell(old(otp), index, value)
      ensures error == old(error) && timer == old(timer) && canResend == old(canResend)
      ensures isLoading == old(isLoading) && resendLoading == old(resendLoading)
    {
      otp := SetCell(otp, index, value);
    }

    /** Verifying: a code that is not four characters long is refused before the service is asked. */
    method VerifyCode(reply: Reply) returns (sent: bool, token: string)
      requires Valid()
      modifies this
      ensures Valid() && !isLoading
      ensures sent <==> |Join(old(otp), "")| == 4
      ensures !sent ==> error == IncompleteCode && token == []
      ensures sent && reply.Token? ==> token == reply.accessToken && error == []
      ensures sent && reply.Failure? ==> token == [] && error == reply.message
      ensures otp == old(otp) && timer == old(timer) && canResend == old(canResend)
      ensures resendLoading == old(resendLoading)
    {
      isLoading := true;
      error := [];
      token := [];
      var code := Join(otp, "");
      if |code| != 4 {
        error := IncompleteCode;
        isLoading := false;
        return false, [];
      }
      sent := true;
      if reply.Token? {
        token := reply.accessToken;
      } else {
        error := reply.message;
      }
      isLoading := false;
    }

    /** Resending: success restarts the countdown with resending off; failure only shows the error. */
    method Resend(reply: Reply)
      requires Valid()
      modifies this
      ensures Valid() && !resendLoading
      ensures reply.Token? ==> timer == CodeLifetime && !canResend && error == []
      ensures reply.Failure? ==> timer == old(timer) && canResend == old(canResend) && error == reply.message
      ensures otp == old(otp) && isLoading == old(isLoading)
    {
      resendLoading := true;
      error := [];
      if reply.Token? {
        timer := CodeLifetime;
        canResend := false;
      } else {
        error := reply.message;
      }
      resendLoading := false;
    }
  }
}

=== FILE: otp_utils.dfy ===
/**
 * The backend's one-time-password formatter: a 4-digit, zero-padded decimal rendering of a
 * random draw below 10000. The draw (`secrets.randbelow`) is a parameter; the SHA-256 digest
 * applied to the result is a function-typed parameter of the routes that use it.
 */
module OtpUtils {
  import opened JsText

  /** The bound passed to `randbelow`: every draw is below it. */
  const OtpSpace: nat := 10000

  /** `str(n).zfill(4)` for the draw `n`. */
  function GenerateOtp(n: nat): (otp: string)
    requires n < OtpSpace
    ensures |otp| == 4
    ensures forall i :: 0 <= i < |otp| ==> IsDigit(otp[i])
  {
    DecimalLength(n, 4);
    PadStart(NatToDecimal(n), 4, '0')
  }

  /** Read back as a decimal number, the OTP is the draw itself. */
  lemma GenerateOtpValue(n: nat)
    requires n < OtpSpace
    ensures DecimalValue(GenerateOtp(n)) == n
  {
    var d := NatToDecimal(n);
    DecimalLength(n, 4);
    DecimalRoundTrip(n);
    ZerosValue(4 - |d|);
    DecimalValueConcat(Repeat('0', 4 - |d|), d);
  }

  /** Draws below 1000 are written with a leading zero. */
  lemma GenerateOtpLeadingZero(n: nat)
    requires n < 1000
    ensures GenerateOtp(n)[0] == '0'
  {
    DecimalLength(n, 3);
  }

  /** Distinct draws give distinct OTP strings. */
  lemma GenerateOtpInjective(n: nat, m: nat)
    requires n < OtpSpace && m < OtpSpace
    requires GenerateOtp(n) == GenerateOtp(m)
    ensures n == m
  {
    GenerateOtpValue(n);
    GenerateOtpValue(m);
  }
}

=== FILE: regex_scan.dfy ===
/**
 * The global `String.prototype.replace` of JavaScript regular expressions, as the engine runs
 * it: at each position from the left, either the pattern matches there, and the match is
 * replaced and the scan resumes after it, or the character is copied. A table gives the match
 * found at each position; the building blocks of the patterns (runs of whitespace and word
 * characters, the lazy `.*?` up to a closing text) are defined here once for every view that
 * rewrites text this way.
 */
module RegexScan {
  import opened Wrappers
  import opened JsText

  /** A match: where it ends, and the text that replaces it. */
  datatype Hit = Hit(end: nat, replacement: string)

  predicate OccursAt(s: string, pat: string, i: nat) {
    i + |pat| <= |s| && s[i..i + |pat|] == pat
  }

  /** The length of the whitespace run at `i` (`\s*`). */
  function SpaceRun(s: string, i: nat): (n: nat)
    requires i <= |s|
    ensures i + n <= |s|
    decreases |s| - i
  {
    if i < |s| && IsSpace(s[i]) then 1 + SpaceRun(s, i + 1) else 0
  }

  /** The length of the word-character run at `i` (`\w*`). */
  function WordRun(s: string, i: nat): (n: nat)
    requires i <= |s|
    ensures i + n <= |s|
    decreases |s| - i
  {
    if i < |s| && IsWordChar(s[i]) then 1 + WordRun(s, i + 1) else 0
  }

  /** The lazy `.*?` followed by `close`: the first occurrence of `close` not preceded by a line break. */
  function UntilClose(s: string, k: nat, close: string): (r: Option<nat>)
    requires k <= |s| && close != []
    ensures r.Some? ==> k <= r.value && r.value + |close| <= |s|
    decreases |s| - k
  {
    if OccursAt(s, close, k) then Some(k)
    else if k < |s| && !IsLineTerminator(s[k]) then UntilClose(s, k + 1, close)
    else None
  }

  /** The first position at or after `k` holding `c`: where a run of the class `[^c]` ends. */
  function IndexFrom(s: string, k: nat, c: char): (r: Option<nat>)
    requires k <= |s|
    ensures r.Some? ==> k <= r.value < |s| && s[r.value] == c
    decreases |s| - k
  {
    if k == |s| then None
    else if s[k] == c then Some(k)
    else IndexFrom(s, k + 1, c)
  }

  /** A table of matches: what each position of the text would match, each ending after it. */
  predicate ValidHits(s: string, tab: seq<Option<Hit>>) {
    && |tab| == |s|
    && forall j :: 0 <= j < |s| && tab[j].Some? ==> j < tab[j].value.end <= |s|
  }

  /**
   * The scan of the global replacement from `i`: a match at the current position is replaced
   * and the scan resumes after it; otherwise the character is copied and the scan moves on.
   */
  function Scan(s: string, tab: seq<Option<Hit>>, i: nat): (r: string)
    requires ValidHits(s, tab) && i <= |s|
    decreases |s| - i
  {
    if i == |s| then []
    else
      match tab[i]
      case Some(hit) => hit.replacement + Scan(s, tab, hit.end)
      case None => [s[i]] + Scan(s, tab, i + 1)
  }

  // ---------------------------------------------------------------------------------------
  // Scanning lemmas
  // ---------------------------------------------------------------------------------------

  /** Positions where nothing matches are copied unchanged. */
  lemma {:induction false} CopiesUnmatched(s: string, tab: seq<Option<Hit>>, i: nat, k: nat)
    requires ValidHits(s, tab) && i <= k <= |s|
    requires forall j :: i <= j < k ==> tab[j].None?
    ensures Scan(s, tab, i) == s[i..k] + Scan(s, tab, k)
    decreases k - i
  {
    if i < k {
      assert Scan(s, tab, i) == [s[i]] + Scan(s, tab, i + 1);
      CopiesUnmatched(s, tab, i + 1, k);
      assert [s[i]] + s[i + 1..k] == s[i..k];
      assert [s[i]] + (s[i + 1..k] + Scan(s, tab, k)) == ([s[i]] + s[i + 1..k]) + Scan(s, tab, k);
    } else {
      assert s[i..k] == [];
    }
  }

  /** A match that covers the whole text is replaced as a whole. */
  lemma WholeMatch(s: string, tab: seq<Option<Hit>>, hit: Hit)
    requires ValidHits(s, tab) && s != [] && tab[0] == Some(hit) && hit.end == |s|
    ensures Scan(s, tab, 0) == hit.replacement
  {
    assert Scan(s, tab, 0) == hit.replacement + Scan(s, tab, |s|);
  }

  /** A scan that meets a single match copies the text around it and replaces the match. */
  lemma OneMatch(s: string, tab: seq<Option<Hit>>, a: nat, hit: Hit)
    requires ValidHits(s, tab) && a < |s| && tab[a] == Some(hit)
    requires forall j :: 0 <= j < a ==> tab[j].None?
    requires forall j :: hit.end <= j < |s| ==> tab[j].None?
    ensures Scan(s, tab, 0) == s[..a] + hit.replacement + s[hit.end..]
  {
    CopiesUnmatched(s, tab, 0, a);
    CopiesUnmatched(s, tab, hit.end, |s|);
    assert Scan(s, tab, a) == hit.replacement + Scan(s, tab, hit.end);
    assert s[hit.end..|s|] == s[hit.end..];
    assert s[0..a] == s[..a];
  }

  /** A whitespace run stops at the first non-whitespace character. */
  lemma {:induction false} SpaceRunStops(s: string, m: nat, t: nat)
    requires m <= t < |s| && !IsSpace(s[t])
    ensures m + SpaceRun(s, m) <= t
    decreases t - m
  {
    if m < t && IsSpace(s[m]) {
      SpaceRunStops(s, m + 1, t);
    }
  }

  /** The word run at `i` covers exactly the word characters up to the first other character. */
  lemma {:induction false} WordRunIs(s: string, i: nat, n: nat)
    requires i + n <= |s|
    requires forall k :: i <= k < i + n ==> IsWordChar(s[k])
    requires i + n == |s| || !IsWordChar(s[i + n])
    ensures WordRun(s, i) == n
    decreases n
  {
    if n > 0 {
      WordRunIs(s, i + 1, n - 1);
    }
  }

  /** The lazy search finds `close` at `j` when no line break and no earlier `close` comes first. */
  lemma {:induction false} UntilCloseIs(s: string, k: nat, close: string, j: nat)
    requires close != [] && k <= j && OccursAt(s, close, j)
    requires forall m :: k <= m < j ==> !OccursAt(s, close, m) && !IsLineTerminator(s[m])
    ensures UntilClose(s, k, close) == Some(j)
    decreases j - k
  {
    if k < j {
      UntilCloseIs(s, k + 1, close, j);
    }
  }

  /** A text where nothing matches is copied whole. */
  lemma NothingMatched(s: string, tab: seq<Option<Hit>>)
    requires ValidHits(s, tab)
    requires forall j :: 0 <= j < |s| ==> tab[j].None?
    ensures Scan(s, tab, 0) == s
  {
    CopiesUnmatched(s, tab, 0, |s|);
    assert s[0..|s|] == s;
  }

  /** A replacement never longer than the text it replaces: the scan never lengthens the text. */
  lemma {:induction false} ScanShrinks(s: string, tab: seq<Option<Hit>>, i: nat)
    requires ValidHits(s, tab) && i <= |s|
    requires forall j :: i <= j < |s| && tab[j].Some? ==> |tab[j].value.replacement| <= tab[j].value.end - j
    ensures |Scan(s, tab, i)| <= |s| - i
    decreases |s| - i
  {
    if i < |s| {
      match tab[i]
      case Some(hit) =>
        ScanShrinks(s, tab, hit.end);
      case None =>
        ScanShrinks(s, tab, i + 1);
    }
  }

  /** A character absent from the text and from every replacement is absent from the result. */
  lemma {:induction false} ScanLacks(s: string, tab: seq<Option<Hit>>, i: nat, c: char)
    requires ValidHits(s, tab) && i <= |s|
    requires forall m :: i <= m < |s| ==> s[m] != c
    requires forall j :: i <= j < |s| && tab[j].Some? ==> c !in tab[j].value.replacement
    ensures c !in Scan(s, tab, i)
    decreases |s| - i
  {
    if i < |s| {
      match tab[i]
      case Some(hit) =>
        ScanLacks(s, tab, hit.end, c);
      case None =>
        ScanLacks(s, tab, i + 1, c);
    }
  }

  /** `indexOf` finds `c` at `j` when no earlier position from `k` holds it. */
  lemma {:induction false} IndexFromIs(s: string, k: nat, c: char, j: nat)
    requires k <= j < |s| && s[j] == c
    requires forall m :: k <= m < j ==> s[m] != c
    ensures IndexFrom(s, k, c) == Some(j)
    decreases j - k
  {
    if k < j {
      IndexFromIs(s, k + 1, c, j);
    }
  }

  /** `indexOf` finds nothing when no position from `k` holds `c`. */
  lemma {:induction false} IndexFromNone(s: string, k: nat, c: char)
    requires k <= |s|
    requires forall m :: k <= m < |s| ==> s[m] != c
    ensures IndexFrom(s, k, c).None?
    decreases |s| - k
  {
    if k < |s| {
      IndexFromNone(s, k + 1, c);
    }
  }
}

=== FILE: security_service.dfy ===
/**
 * The creator-verification service: a single object holding three session flags that a
 * challenge answer sets or clears together.
 */
module SecurityService {
  import opened JsText

  datatype Flags = Flags(creatorVerified: bool, architectVerified: bool, secureCreatorLink: bool)

  datatype VerifyResult = VerifyResult(success: bool, message: string)

  const SecretNickname := "Afzal"
  const SuccessMessage := "Welcome Creator Mohammed Majeed(Afzal) How can I assist you?"
  const FailureMessage := "No, you are not my creator. Please let me know how I can help you with your queries today."

  /** All three flags set to `b`: the only flag objects the service ever stores. */
  function Uniform(b: bool): (f: Flags)
    ensures f.creatorVerified == b && f.architectVerified == b && f.secureCreatorLink == b
  {
    Flags(b, b, b)
  }

  predicate Coherent(f: Flags) {
    f.creatorVerified == f.architectVerified == f.secureCreatorLink
  }

  /** The comparison key: surrounding whitespace removed, letters lower-cased. */
  function Normalize(answer: string): string {
    ToLower(Trim(answer))
  }

  /** Whether `verify` accepts `answer`. */
  predicate Accepts(answer: string) {
    Normalize(answer) == ToLower(SecretNickname)
  }

  /** The key answers are compared with. */
  lemma SecretKey()
    ensures ToLower(SecretNickname) == "afzal"
  {
    var r := ToLower(SecretNickname);
    assert r[0] == LowerChar('A') == 'a';
  }

  /** `answer` is whitespace, then five letters that lower-case to "afzal" at offset `k`, then whitespace. */
  predicate PaddedNicknameAt(answer: string, k: nat) {
    && k + 5 <= |answer|
    && (forall i :: 0 <= i < k ==> IsSpace(answer[i]))
    && ToLower(answer[k..k + 5]) == "afzal"
    && (forall i :: k + 5 <= i < |answer| ==> IsSpace(answer[i]))
  }

  /** An accepted answer is the nickname, padded: the offset is where trimming found it. */
  lemma AcceptedIsPadded(answer: string) returns (k: nat)
    requires Accepts(answer)
    ensures PaddedNicknameAt(answer, k)
  {
    SecretKey();
    k := TrimSplits(answer);
  }

  /** Conversely, the nickname in any case with whitespace around it is accepted. */
  lemma PaddedIsAccepted(answer: string, k: nat)
    requires PaddedNicknameAt(answer, k)
    ensures Accepts(answer)
  {
    var m := answer[k..k + 5];
    NicknameEnds(m);
    Reassemble(answer, k, k + 5);
    TrimPadded(answer[..k], m, answer[k + 5..]);
    SecretKey();
  }

  /**
   * An answer is accepted exactly when it is the nickname spelt in any mix of cases, with any
   * whitespace around it.
   */
  lemma AcceptsIffPaddedNickname(answer: string)
    ensures Accepts(answer) <==> exists k: nat :: PaddedNicknameAt(answer, k)
  {
    if Accepts(answer) {
      var k := AcceptedIsPadded(answer);
    }
    if k: nat :| PaddedNicknameAt(answer, k) {
      PaddedIsAccepted(answer, k);
    }
  }

  /** Five characters that lower-case to "afzal" neither start nor end with whitespace. */
  lemma NicknameEnds(m: string)
    requires ToLower(m) == "afzal"
    ensures m != [] && !IsSpace(m[0]) && !IsSpace(m[|m| - 1])
  {
    assert LowerChar(m[0]) == 'a' && LowerChar(m[4]) == 'l';
  }

  lemma UpperNickname(m: string)
    requires m == "AFZAL"
    ensures ToLower(m) == "afzal"
  {
    var r := ToLower(m);
    assert r[0] == LowerChar('A') == 'a';
    assert r[1] == LowerChar('F') == 'f';
    assert r[2] == LowerChar('Z') == 'z';
    assert r[4] == LowerChar('L') == 'l';
  }

  /** " AFZAL " is accepted. */
  lemma AcceptsPaddedUpperCase(answer: string)
    requires answer == " AFZAL "
    ensures Accepts(answer)
  {
    UpperNickname(answer[1..6]);
    assert PaddedNicknameAt(answer, 1);
    PaddedIsAccepted(answer, 1);
  }

  /** "Afzal!" is refused: trimming does not remove punctuation. */
  lemma RefusesPunctuation(answer: string)
    requires answer == "Afzal!"
    ensures !Accepts(answer)
  {
    var empty: string := [];
    assert empty + answer + empty == answer;
    assert !IsSpace(answer[0]) && !IsSpace(answer[5]);
    TrimPadded(empty, answer, empty);
    assert |Normalize(answer)| != |ToLower(SecretNickname)|;
  }

  class SecurityService {
    var flags: Flags

    /** The service starts with every flag false. */
    constructor ()
      ensures flags == Uniform(false)
    {
      flags := Flags(false, false, false);
    }

    function IsVerified(): bool
      reads this
    {
      flags.creatorVerified
    }

    /** A copy of the flags: a value, so nothing the caller does to it reaches the service. */
    method GetFlags() returns (copy: Flags)
      ensures copy == flags
      ensures Coherent(flags) ==> Coherent(copy)
    {
      copy := flags;
    }

    /**
     * Success sets all three flags, failure clears all three (revoking an earlier success);
     * the outcome is decided by `Accepts` alone.
     */
    method Verify(answer: string) returns (result: VerifyResult)
      modifies this
      ensures result.success <==> Accepts(answer)
      ensures flags == Uniform(result.success)
      ensures IsVerified() == result.success
      ensures result.message == if result.success then SuccessMessage else FailureMessage
    {
      var normalizedUser := ToLower(Trim(answer));
      var normalizedSecret := ToLower(SecretNickname);
      if normalizedUser == normalizedSecret {
        flags := Flags(true, true, true);
        result := VerifyResult(true, SuccessMessage);
      } else {
        flags := Flags(false, false, false);
        result := VerifyResult(false, FailureMessage);
      }
    }

    /** Clears every flag whatever they were, so calling it twice is the same as once. */
    method Logout()
      modifies this
      ensures flags == Uniform(false)
      ensures !IsVerified()
    {
      flags := Flags(false, false, false);
    }
  }
}

=== FILE: seq_util.dfy ===
/** `Array.prototype.filter` over sequences, shared by the views that filter lists. */
module SeqUtil {

  /** The elements of `xs` that `keep` accepts, in their original order. */
  function Filter<T(!new)>(xs: seq<T>, keep: T -> bool): (r: seq<T>)
    ensures |r| <= |xs|
    ensures forall x :: x in r <==> x in xs && keep(x)
  {
    if xs == [] then []
    else
      var init := Filter(xs[..|xs| - 1], keep);
      var last := xs[|xs| - 1];
      assert xs == xs[..|xs| - 1] + [last];
      if keep(last) then init + [last] else init
  }

  /** Filtering a concatenation filters each part: the kept elements keep their relative order. */
  lemma {:induction false} FilterConcat<T(!new)>(xs: seq<T>, ys: seq<T>, keep: T -> bool)
    ensures Filter(xs + ys, keep) == Filter(xs, keep) + Filter(ys, keep)
  {
    if ys == [] {
      assert xs + ys == xs;
    } else {
      var init := ys[..|ys| - 1];
      assert (xs + ys)[..|xs + ys| - 1] == xs + init;
      FilterConcat(xs, init, keep);
    }
  }

  /** A filter that accepts every element returns the list itself. */
  lemma {:induction false} FilterAll<T(!new)>(xs: seq<T>, keep: T -> bool)
    requires forall x :: x in xs ==> keep(x)
    ensures Filter(xs, keep) == xs
  {
    if xs != [] {
      FilterAll(xs[..|xs| - 1], keep);
      assert xs == xs[..|xs| - 1] + [xs[|xs| - 1]];
    }
  }

  /** `Array.prototype.indexOf`: the first index holding `x`, or -1 when there is none. */
  function IndexOf<T(==)>(xs: seq<T>, x: T): (r: int)
    ensures -1 <= r < |xs|
    ensures r >= 0 ==> xs[r] == x && forall k :: 0 <= k < r ==> xs[k] != x
    ensures r == -1 ==> x !in xs
  {
    if xs == [] then -1
    else if xs[0] == x then 0
    else
      var rest := IndexOf(xs[1..], x);
      assert xs == [xs[0]] + xs[1..];
      if rest == -1 then -1 else rest + 1
  }
}

=== FILE: theme_sync.dfy ===
/**
 * Automatic theme switching: each view may name a theme; when automatic theming is on, entering
 * a view applies its theme, except that the chat view in emotional-support mode always gets the
 * royal theme, and a view without a theme leaves the current one in place.
 */
module ThemeSync {
  import opened Wrappers

  /** The views of the application. */
  datatype View =
    | Chat | Student | Code | Live | Workspace | Settings | Exam
    | Analytics | Planner | Mastery | Notes | About | Builder
    | Dashboard | LifeOs | Skills | Memory | Creative | Pricing | Video | Github

  /** The themes the view table names. */
  datatype Theme = Dark | Aurora | Royal | Pastel | Light | SolarizedDark | Midnight | Glass

  /** The view-to-theme table; views absent from it have no theme of their own. */
  const ModeThemeMapping: map<View, Theme> := map[
    Chat := Dark,
    Live := Aurora,
    Workspace := Royal,
    Student := Pastel,
    Exam := Light,
    Code := SolarizedDark,
    Builder := Midnight,
    Github := Aurora,
    Notes := Glass,
    Planner := Aurora
  ]

  datatype Density = Comfortable | Compact

  /** The system settings: automatic theming, animations, layout density and sound effects. */
  datatype SystemConfig = SystemConfig(autoTheme: bool, enableAnimations: bool, density: Density, soundEffects: bool)

  const DefaultSystemConfig := SystemConfig(true, true, Comfortable, true)

  /** Out of the box, themes follow the view and the layout is comfortable. */
  lemma DefaultsFollowViews()
    ensures DefaultSystemConfig.autoTheme && DefaultSystemConfig.density == Comfortable
  {
  }

  /** The views the table gives a theme to. */
  predicate Themed(v: View) {
    v in {Chat, Live, Workspace, Student, Exam, Code, Builder, Github, Notes, Planner}
  }

  /**
   * The table: exactly the ten themed views have an entry; chat is dark, code solarized dark,
   * the builder midnight and the image workspace royal; live, GitHub and the planner share aurora.
   */
  lemma MappingTable(v: View)
    ensures v in ModeThemeMapping <==> Themed(v)
    ensures v == Chat ==> ModeThemeMapping[v] == Dark
    ensures v == Code ==> ModeThemeMapping[v] == SolarizedDark
    ensures v == Builder ==> ModeThemeMapping[v] == Midnight
    ensures v == Workspace ==> ModeThemeMapping[v] == Royal
    ensures v in ModeThemeMapping ==> (ModeThemeMapping[v] == Aurora <==> v == Live || v == Github || v == Planner)
    ensures v == Settings || v == Dashboard || v == About ==> v !in ModeThemeMapping
  {
  }

  /** The theme the hook sets, or `None` when it leaves the current theme alone. */
  function ThemeToApply(view: View, emotional: bool, autoTheme: bool): Option<Theme> {
    if !autoTheme then None
    else if view == Chat && emotional then Some(Royal)
    else if view in ModeThemeMapping then Some(ModeThemeMapping[view])
    else None
  }

  /**
   * With automatic theming off nothing is set; emotional chat is always royal; otherwise the
   * view's entry is set when it has one, and nothing is set when it has none.
   */
  lemma ThemeRule(view: View, emotional: bool, autoTheme: bool)
    ensures var t := ThemeToApply(view, emotional, autoTheme);
      && (!autoTheme ==> t.None?)
      && (autoTheme && view == Chat && emotional ==> t == Some(Royal))
      && (autoTheme && !(view == Chat && emotional) ==>
            (t.Some? <==> Themed(view)) && (t.Some? ==> t.value == ModeThemeMapping[view]))
  {
    MappingTable(view);
  }

  /** The emotional flag matters only in the chat view. */
  lemma EmotionalOnlyInChat(view: View, autoTheme: bool)
    requires view != Chat
    ensures ThemeToApply(view, true, autoTheme) == ThemeToApply(view, false, autoTheme)
  {
  }

  /** In the chat view, the emotional flag switches from dark to royal. */
  lemma EmotionalChatIsRoyal(autoTheme: bool)
    requires autoTheme
    ensures ThemeToApply(Chat, false, autoTheme) == Some(Dark)
    ensures ThemeToApply(Chat, true, autoTheme) == Some(Royal)
  {
  }

  /** The theme provider's current theme. */
  class ThemeProvider {
    var current: Theme

    constructor(initial: Theme)
      ensures current == initial
    {
      current := initial;
    }

    /** The effect run when the view, the emotional flag or the setting changes. */
    method Sync(view: View, emotional: bool, autoTheme: bool)
      modifies this
      ensures var t := ThemeToApply(view, emotional, autoTheme);
        current == if t.Some? then t.value else old(current)
      ensures autoTheme && !Themed(view) && !(view == Chat && emotional) ==> current == old(current)
    {
      var t := ThemeToApply(view, emotional, autoTheme);
      ThemeRule(view, emotional, autoTheme);
      if t.Some? {
        current := t.value;
      }
    }
  }
}

=== FILE: wrappers.dfy ===
/** Optional values: the model's stand-in for `null`/`undefined` and for Python's `None`. */
module Wrappers {
  datatype Option<+T> = None | Some(value: T) {
    function GetOr(default: T): T {
      match this
      case Some(v) => v
      case None => default
    }
  }
}
